=== FILE: README.md ===
# sourcesnap, modelled in Dafny

sourcesnap is a browser extension. Hold a modifier chord, click an element,
and it finds the source file, line and column that rendered it, opens that
place in your editor, and shows a panel where the element's class, inline
style and HTML can be edited live and copied back as a snippet.

This project models the deterministic core of the extension over an abstract
element tree. An element has an optional parent, an attribute map and
optional framework records: a React fiber slot, Vue, Svelte and Preact
metadata. The core is:

- **Source-location extractors.** One per framework adapter: React, Vue,
  Svelte, SolidJS, Preact and the generic data-attribute fallback. The shared
  helpers `extractComponentName` and `createElementInfo` are modelled too.
  The regular expressions the adapters use are written as explicit parsers
  (`LocatorFormats`, `Text`).
- **Resolution registry.** The adapters are sorted by fixed priority.
  Resolution takes the first non-null answer among the adapters that are
  applicable to the page.
- **Interaction controller.** A state record (`Controller.State`) and one
  step function per DOM event (keydown, keyup, mousemove, click, mouseleave,
  settings message). Each step returns the next state and the effects to
  perform: highlight, panel, navigation.
- **Live-edit session.** The overlay's inline-style parser and serialiser
  (`StyleRules`). A session (`LiveEdit.Session`) holds the baseline captured
  by `show`, the working inputs, and the live element. It models the edits,
  "copy changes" with its snippet builder, reset, and the display caps of the
  props and component-tree lists.
- **Editor links and hotkey helpers.** The `EDITORS` table, `buildEditorUrl`,
  `getEditorList`, and the storage helpers (`DEFAULT_SETTINGS`, exact chord
  match, `formatHotkey`).

Everything is written as immutable datatypes and pure functions. Effects
become values:
- DOM writes become fields of the live snapshot.
- Clipboard, navigation and highlight requests become emitted effects.
- Whether a clipboard write or an `outerHTML` assignment succeeds is a
  boolean input.

Framework probes are inputs of the page record (`Registry.Page`). These
include the globals, the devtools hooks and React's devtools renderers,
which become a sequence of functions.

Modules: `Options`, `Search`, `Text`, `Dom`, `Sorting`, `AdapterInterface`,
`LocatorFormats`, `DataAttrs`, `Solid`, `Svelte`, `Vue`, `Preact`, `React`,
`Registry`, `RegistryQueries`, `Storage`, `Editors`, `Controller`,
`StyleRules` and `LiveEdit`.

### Where the code and its description differ

The model follows the code in each of these cases:

- **React scan.** The React `isApplicable` scan tests the first twelve
  elements of the page (indices 0 to 11), although its comment speaks of the
  first ten (src/injected/adapters/react.ts:36-54). See
  `Registry.FiberKeyScan` and `Registry.ReactProbeBound`.
- **`data-source-file` branch.** It reads `data-source-line` and
  `data-source-column` from `element`, a name that is not in scope inside
  `parseAttribute` (src/injected/adapters/data-attrs.ts:107-123). The model
  takes those two attribute values as explicit inputs (`DataAttrs.LooseAttrs`)
  and keeps the `|| '1'` defaults. It does not say where the values come
  from.
- **Cancelled clicks.** A click that holds the chord while the panel is
  unlocked has its default action prevented and its propagation stopped,
  even when no adapter locates the element (src/injected/index.ts:161-162).
  `Controller.OnClick` emits `CancelClick` in that case too.
- **Style comparison in copy.** "Copy changes" compares the re-serialised
  style with the raw style attribute captured at `show`. An element whose
  attribute is not already in the `p: v; q: w` normal form therefore counts
  as changed before any edit (src/overlay/Overlay.ts:76-82, 598-609).
  `LiveEdit.RawStyleCountsAsChange` exhibits this with `color:red`.
- **Hotkey tests.** The injected script's chord test allows extra modifiers,
  while the storage helper demands an exact match. `Controller.ChordTestsDiffer`
  states both sides.
- **SVG classes.** An SVG element's `className` is an object, not a string,
  and has no setter. The React adapter reports its class as empty
  (src/injected/adapters/react.ts:117). In the overlay, assigning the class
  throws, so a class edit never reaches the element and a reset stops right
  after the class input is reset (src/overlay/Overlay.ts:533, 694). The flag
  `Dom.Element.classNameIsString` carries the difference.

## Model

| member | source | states |
|---|---|---|
| AdapterInterface.ExtractComponentName | src/injected/adapters/interface.ts:25-28 | the name is never empty and holds no '/' or '\\'; a path without a .ts/.tsx/.js/.jsx/.vue/.svelte extension gives "Unknown" |
| AdapterInterface.ExtractComponentNameOf | src/injected/adapters/interface.ts:25-28 | for every directory, separator-free base name and supported extension, the name of dir + base + "." + ext is exactly base |
| AdapterInterface.ExtractComponentNameOfApp | src/injected/adapters/interface.ts:25-28 | "src/App.tsx" is named "App" |
| AdapterInterface.ExtractComponentNameOfTestFile | src/injected/adapters/interface.ts:26 | only the last extension is stripped: "a/b.test.tsx" is named "b.test" |
| AdapterInterface.ExtractComponentNameOfStylesheet | src/injected/adapters/interface.ts:27 | a stylesheet path is named "Unknown" |
| AdapterInterface.CreateElementInfo | src/injected/adapters/interface.ts:31-41 | the source is kept; the component name is the source's when non-empty, else the name derived from the file; the tag name has the element's length; element, className and style are absent |
| AdapterInterface.Describe | src/injected/adapters/svelte.ts:77-81 | a descriptor exists exactly when a source location exists, and is then the createElementInfo of it |
| LocatorFormats.MatchLocation | src/injected/adapters/data-attrs.ts:81 | a match ends the input with path:line:column, line and column are non-empty digit runs, and the path is non-empty and holds no line terminator |
| LocatorFormats.MatchLocationOf | src/injected/adapters/data-attrs.ts:81 | after a line start, path:line:column with a non-empty path (which may hold ':') and digit runs is matched as exactly that path, line and column; the split is made at the last two colons |
| LocatorFormats.ParseLocation | src/injected/adapters/data-attrs.ts:81-89 | a location is produced exactly when the pattern matches; its file is the matched path, its line and column the values of the digit groups, its component name derived from the file |
| LocatorFormats.ParseLocationRoundTrip | src/injected/adapters/solid.ts:67-76 | for every non-empty single-line path and naturals l and c, "path:l:c" parses to (path, l, c) |
| LocatorFormats.IdFormFile | src/injected/adapters/solid.ts:55-58 | a file is produced exactly when the value contains "::", and it is the text before the first "::" |
| LocatorFormats.IdFormFileOf | src/injected/adapters/data-attrs.ts:93-104 | for a path with no "::" and no trailing ':', path + "::" + id yields exactly path |
| LocatorFormats.ParseIdForm | src/injected/adapters/data-attrs.ts:93-104 | a location exists exactly when the value contains "::"; it is then the text before the first "::" with line and column 1 |
| DataAttrs.OrOne | src/injected/adapters/data-attrs.ts:64-65 | the `x \|\| '1'` default: never empty, and a non-empty text is kept |
| DataAttrs.ParseInspPath | src/injected/adapters/data-attrs.ts:59-75 | data-insp-path yields a location exactly when it has at least three ':'-separated parts; the component name is derived from the file |
| DataAttrs.InspPathRoundTrip | src/injected/adapters/data-attrs.ts:59-73 | for any file (colons allowed), digit runs l and c and a colon-free tag, "file:l:c:tag" parses to exactly (file, l, c) |
| DataAttrs.ParseAttribute | src/injected/adapters/data-attrs.ts:57-127 | every successful parse names the component after its file |
| DataAttrs.LocationAttributeRoundTrip | src/injected/adapters/data-attrs.ts:77-90 | for data-locatorjs, data-v-inspector and data-react-inspector, "file:l:c" with a non-empty single-line file parses to (file, l, c) |
| DataAttrs.SourceFileAttribute | src/injected/adapters/data-attrs.ts:107-123 | data-source-file always parses: the value is the file, and line and column default to 1 when the neighbouring attributes are missing |
| DataAttrs.ElementSource | src/injected/adapters/data-attrs.ts:27-33 | the element's own attributes give a location whose component name is derived from its file |
| DataAttrs.AttributePriority | src/injected/adapters/data-attrs.ts:6-13 | the first attribute in the order insp-path, locatorjs, locatorjs-id, v-inspector, source-file, react-inspector that is present and parses decides |
| DataAttrs.ShortInspPathFallsThrough | src/injected/adapters/data-attrs.ts:62-74 | a data-insp-path with fewer than three parts is skipped and the later attributes are tried |
| DataAttrs.GetSourceInfo | src/injected/adapters/data-attrs.ts:25-49 | the element's own attributes win whenever they give a location; every result names the component after its file |
| DataAttrs.OwnThenAncestors | src/injected/adapters/data-attrs.ts:35-48 | ancestors are consulted, nearest first and starting at the parent, only when nothing on the element parses |
| DataAttrs.GetElementInfo | src/injected/adapters/data-attrs.ts:51-55 | a descriptor exists exactly when a location does, and is the createElementInfo of it |
| Solid.LocatorData | src/injected/adapters/solid.ts:29 | data-locatorjs-id is read before data-locatorjs; an empty attribute counts as absent |
| Solid.ParseLocatorData | src/injected/adapters/solid.ts:53-79 | a value holding "::" takes the id form; otherwise a location exists exactly when path:line:column matches; the component name is derived from the file |
| Solid.IdFormWins | src/injected/adapters/solid.ts:55-65 | path + "::" + id gives the path with line and column 1, even when it would also match path:line:column |
| Solid.LocationFormRoundTrip | src/injected/adapters/solid.ts:67-76 | "path:l:c" without "::" parses to (path, l, c) |
| Solid.GetSourceInfo | src/injected/adapters/solid.ts:26-45 | the nearest element carrying a locator value, the element itself first, decides alone: if its value does not parse the result is null |
| Solid.GetElementInfo | src/injected/adapters/solid.ts:47-51 | a descriptor exists exactly when a location does, and is the createElementInfo of it |
| Svelte.FromLoc | src/injected/adapters/svelte.ts:50-55 | the file is copied, line and column are shifted from 0-based to 1-based, and the shift is undone exactly by ToLoc |
| Svelte.GetSourceInfo | src/injected/adapters/svelte.ts:46-75 | null exactly when no element of the lineage carries a location; otherwise the nearest one's location, shifted to 1-based |
| Svelte.ZeroBasedExample | src/injected/adapters/svelte.ts:53-54 | a location (4, 2) in App.svelte is reported as line 5, column 3 of component "App" |
| Svelte.GetElementInfo | src/injected/adapters/svelte.ts:77-81 | a descriptor exists exactly when a location does, and is the createElementInfo of it; it always has a line and a column and is named after its file |
| Vue.Vue3Source | src/injected/adapters/vue.ts:43-51 | a location exactly when the parent component's type records a non-empty __file; that file at line 1, column 1, named by __name before name |
| Vue.InspectorSource | src/injected/adapters/vue.ts:54-65 | nothing without a non-empty data-v-inspector value; with one, exactly the path:line:column parse of it, so a value that parses is always returned |
| Vue.Vue2Source | src/injected/adapters/vue.ts:68-76 | a location exactly when the Vue 2 instance's $options records a non-empty __file; that file at line 1, column 1, named by $options.name |
| Vue.GetSourceInfo | src/injected/adapters/vue.ts:39-95 | the checks run in the order Vue 3 record, inspector attribute, Vue 2 record, Vue 3 ancestor walk; a malformed inspector value falls through; only the inspector attribute gives a real line and column |
| Vue.OwnVue3FileLocated | src/injected/adapters/vue.ts:43-51 | an element whose own Vue 3 component type records a file is located at that file, line 1, column 1 |
| Vue.InspectorLocated | src/injected/adapters/vue.ts:54-65 | without a Vue 3 file on the element, a parsing data-v-inspector value decides |
| Vue.GetElementInfo | src/injected/adapters/vue.ts:97-101 | a descriptor exists exactly when a location does, and is the createElementInfo of it; a line other than 1 comes only from the element's own data-v-inspector attribute |
| Preact.ComponentName | src/injected/adapters/preact.ts:110-118 | the constructor's displayName when non-empty; else its name when non-empty; "Unknown" without an instance, without a constructor, or when both names are empty |
| Preact.VNodeName | src/injected/adapters/preact.ts:120-124 | "Unknown" without a type, the tag for a string type, else displayName, name, "Anonymous"; never empty |
| Preact.InstanceSource | src/injected/adapters/preact.ts:64-72 | a location exactly when the component instance carries a __source record; the record is copied with no base conversion, named by the component |
| Preact.VNodeSource | src/injected/adapters/preact.ts:75-83 | a location exactly when the vnode carries a __source record; the record is copied with no base conversion, named by the vnode |
| Preact.GetSourceInfo | src/injected/adapters/preact.ts:60-102 | on the element the component record beats the vnode record; the ancestor walk looks only at component records; null when none is found |
| Preact.OwnInstanceRecordLocated | src/injected/adapters/preact.ts:64-72 | an element carrying a component __source record is located at it, named by the component |
| Preact.OwnVNodeRecordLocated | src/injected/adapters/preact.ts:75-83 | without a component record, an element carrying a vnode __source record is located at it, named by the vnode |
| Preact.GetElementInfo | src/injected/adapters/preact.ts:104-108 | a descriptor exists exactly when a location does, and is the createElementInfo of it |
| React.ReturnChain | src/injected/adapters/react.ts:251-269 | the chain of `return` links starts at the fiber itself |
| Dom.StringClassName | src/injected/adapters/react.ts:93-117 | an HTML element's class attribute, and '' for an SVG element whose className is not a string |
| Dom.TypeName | src/injected/adapters/react.ts:271-276 | the naming rule shared by getFiberName and Preact's getVNodeName: 'Unknown' without a type, the tag of a host element, else displayName, then name, then 'Anonymous'; never empty |
| React.FiberName | src/injected/adapters/react.ts:271-276 | never empty; 'Unknown' without a type, the tag for a string type, else displayName, then name, then 'Anonymous' |
| React.Carrier | src/injected/adapters/react.ts:255-264 | a node's own debug source beats its owner's; the owner is used only when the node has none |
| React.FindDebugSource | src/injected/adapters/react.ts:251-269 | the first carrier among at most 50 nodes of the return chain, or null; a result always has a debug source |
| React.RawProps | src/injected/adapters/react.ts:154-158 | memoizedProps are preferred to pendingProps; none only when both are missing |
| React.ShowProps | src/injected/adapters/react.ts:159-169 | exactly the entries whose key is not "children" and not "__"-prefixed, each value serialised at depth 0 |
| React.KeepShownAppend | src/injected/adapters/react.ts:159-169 | the shown props keep the entries' order and multiplicity: showing a concatenation is the concatenation of the shown parts |
| React.ShowPropsSingle | src/injected/adapters/react.ts:161-167 | a single entry is shown, serialised at depth 0, exactly when its key is shown |
| React.GetProps | src/injected/adapters/react.ts:154-170 | undefined exactly when no shown key remains; otherwise the non-empty list of shown props |
| React.Serialize | src/injected/adapters/react.ts:172-211 | beyond depth 2 every value is "[...]"; "null" and "undefined" for the two empty values; strings up to 50 characters kept, longer ones are their first 50 characters followed by "..."; numbers and booleans kept; a function becomes "ƒ name()" ("ƒ anonymous()" without a name); a framework element becomes "<Type />" ("<Element />" without a type name); "[]" and "{}" for empty arrays and objects, "[n items]" for more than 3 items, "{n keys}" for more than 5 keys; otherwise each item or field serialised one level deeper, keys in order; results nest at most three levels |
| React.SerializePlain | src/injected/adapters/react.ts:172-211 | serialisation loses nothing on short strings, numbers, booleans and small non-empty arrays and objects that stay within the depth limit |
| React.DeepArrayCut | src/injected/adapters/react.ts:173 | any value inside three nested one-item arrays is shown as "[...]" |
| React.ComponentsOf | src/injected/adapters/react.ts:128-131 | every kept fiber is a component of the chain, and every component of the chain is kept |
| React.ComponentsOfCount | src/injected/adapters/react.ts:128-131 | each component fiber is kept as many times as it occurs in the chain, every other fiber is dropped |
| React.ComponentsOfAppend | src/injected/adapters/react.ts:128-131 | the components of a concatenation are those of the first part followed by those of the second, so the chain's order is kept |
| React.HierarchyFrom | src/injected/adapters/react.ts:122-152 | one row per component fiber among the remaining bounded return chain, in order; only the first row at depth 0 is marked as the target |
| React.Hierarchy | src/injected/adapters/react.ts:122-152 | at most 20 rows, nearest first, only component fibers, each with its name and props; isCurrentTarget only at depth 0 and only when the start is a component |
| React.FindFiberByElement | src/injected/adapters/react.ts:213-249 | the element's own fiber key first, then the devtools renderers in order, then the DOM-ancestor walk; an ancestor result comes from some ancestor's key |
| React.StyleEntry | src/injected/adapters/react.ts:100-104 | an entry needs non-empty trimmed property and value, neither holding ':' (a value is cut at its first colon); no ':' gives no entry |
| React.Apply | src/injected/adapters/react.ts:103 | `style[prop] = val` adds or overwrites exactly the declared key and keeps every other |
| React.FoldEntries | src/injected/adapters/react.ts:100-105 | the map holds exactly the declared keys, each with the value of its last declaration |
| React.InlineStyleMap | src/injected/adapters/react.ts:98-106 | an empty style gives the empty map; otherwise the fold of the ';'-separated entries, with non-empty colon-free values |
| React.ValueCutAtColon | src/injected/adapters/react.ts:101 | a value is cut at its first colon: "p:v:rest" gives the same entry as "p:v" |
| React.SingleRule | src/injected/adapters/react.ts:98-106 | a single clean "p:v" yields the map {p: v} |
| React.GetSourceInfo | src/injected/adapters/react.ts:56-70 | a location exists exactly when a fiber is found and a debug source within the bound; it comes from the carrier and is named after the starting fiber |
| React.GetElementInfo | src/injected/adapters/react.ts:72-120 | a descriptor exists exactly when getSourceInfo gives one; it is named after the carrier, holds the hierarchy, props, lowercased tag and inline-style map, and the class attribute, or '' for an SVG element whose className is not a string |
| React.HostElementNames | src/injected/adapters/react.ts:56-120 | on a host div owned by App, getSourceInfo names "div" while getElementInfo names "App" |
| Registry.Adapters | src/injected/index.ts:34-41 | the sorted adapter list is a permutation of the declared adapters |
| Registry.AdaptersOrder | src/injected/index.ts:34-41 | sorting leaves React 100, Vue 90, Svelte 80, Solid 70, Preact 60, DataAttribute 0 in strictly descending priority, the fallback last |
| Registry.SortedByPriority | src/injected/index.ts:41 | sorting with `b.priority - a.priority` yields a permutation in non-increasing priority |
| Registry.FiberKeyScan | src/injected/adapters/react.ts:36-54 | true exactly when one of the first twelve elements carries a React fiber key |
| Registry.ReactProbeBound | src/injected/adapters/react.ts:36-54 | without the devtools hook and with no fiber key among the first twelve elements, React is not applicable |
| Registry.Resolve | src/injected/index.ts:199-209 | null exactly when every applicable adapter answers null; otherwise the answer of the first applicable adapter with one, all earlier ones having none |
| Registry.HighestPriorityAnswers | src/injected/index.ts:199-219 | an applicable adapter's answer wins when no applicable adapter of higher priority has one |
| Registry.FallbackAnswers | src/injected/adapters/data-attrs.ts:18-23 | the always-applicable data-attribute adapter guarantees an answer whenever it has one |
| RegistryQueries.InfoExactlyWhenSource | src/injected/index.ts:199-219 | for every adapter, a descriptor exists exactly when a source location does |
| RegistryQueries.SameAdapter | src/injected/index.ts:199-219 | getElementInfo succeeds exactly when getSourceInfo does, and both answers come from the same applicable adapter |
| RegistryQueries.FallbackLocates | src/injected/index.ts:199-209 | an element the data-attribute adapter locates is always located |
| RegistryQueries.HighestPriorityLocates | src/injected/index.ts:199-209 | the highest-priority applicable adapter that locates the element decides the answer |
| Storage.DefaultSettings | src/shared/storage.ts:4-17 | editor cursor, no custom URL or prefix, an Alt-only chord with exactly one modifier, enabled, tooltip on, auto-open on |
| Storage.ExactMatch | src/shared/storage.ts:36-43 | true exactly when all four flags are equal |
| Storage.HeldKeys | src/shared/storage.ts:47-51 | exactly the held keys, each once, as many as the chord has modifiers |
| Storage.ModifierNames | src/shared/storage.ts:47-51 | one label per held key, in the order Ctrl, Alt, Shift, Cmd |
| Storage.NamesHeld | src/shared/storage.ts:47-51 | a key's label appears exactly when the chord holds the key |
| Storage.FormatHotkey | src/shared/storage.ts:46-53 | the label ends with "Click"; an empty chord gives " + Click" |
| Storage.FormatHotkeyNamesChord | src/shared/storage.ts:46-53 | reading the labels back from the formatted text recovers the chord |
| Storage.LabelHasKey | src/shared/storage.ts:46-53 | a key's label is a word of the formatted text exactly when the chord holds it |
| Storage.FormatDefaultHotkey | src/shared/storage.ts:46-53 | the default chord formats as "Alt + Click" |
| Storage.Merge | src/injected/index.ts:78 | `{...settings, ...payload}`: for each of the seven fields, the payload's value when it carries one, else the current value; an empty payload changes nothing |
| Storage.MergeTwice | src/injected/index.ts:78 | merging two payloads in turn equals merging their combination, later fields winning; merging the same payload twice equals merging it once |
| Editors.TableKeysAreIds | src/shared/editors.ts:8-129 | every table entry's id equals its key |
| Editors.TableTemplates | src/shared/editors.ts:8-129 | only the "custom" entry has an empty template |
| Editors.TableHeads | src/shared/editors.ts:8-129 | no template text before {filePath} holds a '{' |
| Editors.LookupIn | src/shared/editors.ts:138 | none exactly when no entry has the key; otherwise the config stored under it |
| Editors.Values | src/shared/editors.ts:167 | Object.values: the configs in table order |
| Editors.CollapseSlashes | src/shared/editors.ts:151 | `replace(/\/+/g, '/')`: no "//" remains, the '/'-separated pieces are the input's, it starts and ends with a slash exactly when the input does, and a string without "//" is unchanged |
| Editors.PiecesJoin | src/shared/editors.ts:151 | the pieces of prefix + "/" + file are the prefix's pieces followed by the file's |
| Editors.SlashFormUnique | src/shared/editors.ts:151 | two strings without "//" that have the same pieces and agree on a leading and a trailing slash are equal |
| Editors.CollapseDetermined | src/shared/editors.ts:151 | any string without "//" that keeps the input's pieces and its leading and trailing slashes is the collapsed string, so the contract pins the result |
| Editors.FilePath | src/shared/editors.ts:149-157 | always starts with '/'; an absolute file passes through; without a prefix '/' is prepended; with one and a relative file, the result has no "//", its pieces are the prefix's followed by the file's, and it ends with '/' exactly when the file is empty or ends with one |
| Editors.FilePathUnderPrefix | src/shared/editors.ts:149-157 | a relative slash-free file under a slash-free prefix becomes "/prefix/file" |
| Editors.NumberText | src/shared/editors.ts:161-162 | `String(n \|\| 1)`: parses back to the number, or to 1 when it is 0 or absent |
| Editors.BuildEditorUrl | src/shared/editors.ts:132-163 | an unknown id and an empty template are the two errors; otherwise the template with the first {filePath}, {line} and {column} replaced, in that order |
| Editors.BuildEditorUrlSucceeds | src/shared/editors.ts:138-146 | for a known id the link builds exactly when the id is not "custom" or a custom URL is given |
| Editors.SubstituteLayout | src/shared/editors.ts:159-162 | substituting into a table template puts the path, line and column in their places |
| Editors.TableEditorLink | src/shared/editors.ts:132-163 | for every table editor but "custom", the link is the editor's head, the normalised path, the line and the column in the editor's layout |
| Editors.VsCodeExample | src/shared/editors.ts:132-163 | vscode with src/App.tsx, line 10, column 4 and no prefix gives "vscode://file//src/App.tsx:10:4" |
| Editors.PriorityRank | src/shared/editors.ts:169-171 | only the four common editors have a rank, below 4 |
| Editors.EditorList | src/shared/editors.ts:166-177 | the list is a permutation of the table's configs |
| Editors.EditorListOrder | src/shared/editors.ts:166-177 | vscode, cursor, webstorm, sublime come first in that order, and the rest follow in name order |
| Editors.ComparatorConsistent | src/shared/editors.ts:167-176 | the sort comparator is a total preorder whenever the name order is |
| Controller.Initial | src/injected/index.ts:21-31 | starts with the default settings, nothing pressed, locked or hovered |
| Controller.ChordHeld | src/injected/index.ts:221-231 | true exactly when every modifier of the chord is down (extra ones allowed) and the chord has one; an empty chord never matches |
| Controller.Released | src/injected/index.ts:108-113 | true exactly when some modifier of the chord is up |
| Controller.ReleasedIsNotHeld | src/injected/index.ts:221-231 | for a non-empty chord, released is exactly not held |
| Controller.ChordTestsDiffer | src/shared/storage.ts:36-43 | Alt+Shift holds the Alt-only default chord but does not match it exactly; the empty chord matches itself exactly yet never activates |
| Controller.HighlightFor | src/injected/index.ts:189-197 | the highlight is shown exactly when the element resolves, with its descriptor; otherwise it is hidden |
| Controller.Unlock | src/injected/index.ts:183-187 | clears the lock and the locked element and keeps everything else |
| Controller.OnKeyDown | src/injected/index.ts:88-103 | nothing happens when disabled or locked; otherwise hotkeyPressed becomes set when the chord is held, with a crosshair; no other field changes |
| Controller.OnKeyUp | src/injected/index.ts:105-126 | releasing any chord modifier clears hotkeyPressed even when locked; the highlight is hidden only when unlocked; Escape while locked unlocks |
| Controller.OnMouseMove | src/injected/index.ts:128-142 | nothing changes when disabled or locked; otherwise the target is remembered and highlighted only while the chord is pressed and tooltips are on |
| Controller.OpenLink | src/injected/index.ts:233-246 | at most one navigation, emitted exactly when the link builds, to that link |
| Controller.OnClick | src/injected/index.ts:144-181 | while locked, an outside click unlocks and an inside one does nothing; while unlocked, the panel locks on the target exactly when enabled, the chord is held and the target resolves, auto-opening the editor unless disabled; otherwise the state is unchanged |
| Controller.OnMouseLeave | src/injected/index.ts:65-69 | the state is unchanged; the highlight is hidden only when unlocked |
| Controller.OnSettings | src/injected/index.ts:77-81 | the settings become the merge of the payload, and the overlay is told the editor and prefix |
| Controller.Step | src/injected/index.ts:53-82 | every event keeps "locked exactly when there is a locked element" |
| Controller.RunKeepsLocking | src/injected/index.ts:53-82 | any sequence of events keeps "locked exactly when there is a locked element" |
| Controller.LockedElementChanges | src/injected/index.ts:144-187 | the locked element changes only by Escape or an outside click while locked (to none) or by a click while unlocked (to the target) |
| Controller.ClickLocksWhenLocated | src/injected/index.ts:154-219 | an enabled, unlocked click holding the chord locks exactly when some applicable adapter locates the target |
| Controller.DefaultClickOpensCursor | src/injected/index.ts:170-177 | with the default settings, an Alt-click on a located element locks it and navigates to a Cursor link |
| StyleRules.ParseChunk | src/overlay/Overlay.ts:307-316 | a rule exists exactly when the trimmed chunk holds ':'; it is split at the first ':', both halves trimmed, the property colon-free, and the rule enabled |
| StyleRules.ParseStyle | src/overlay/Overlay.ts:302-317 | empty input gives no rules; at most one rule per ';'-separated chunk; every rule enabled and trimmed, with a colon-free property |
| StyleRules.TrailingSemicolon | src/overlay/Overlay.ts:302-317 | a trailing ';' changes nothing |
| StyleRules.ActiveRules | src/overlay/Overlay.ts:343 | exactly the enabled rules with non-empty property and value, in order |
| StyleRules.Serialize | src/overlay/Overlay.ts:340-347 | the empty string exactly when no rule is active |
| StyleRules.ParseSerialize | src/overlay/Overlay.ts:302-344 | for trimmed rules without ';' and with a colon-free property, parsing the serialisation gives back exactly the active rules, all enabled |
| StyleRules.ActiveRulesActive | src/overlay/Overlay.ts:343 | filtering the active rules again keeps them all |
| StyleRules.NormalFormStable | src/overlay/Overlay.ts:302-344 | one parse-and-serialise pass reaches a normal form that a second pass keeps |
| StyleRules.Camel | src/overlay/Overlay.ts:622 | never longer; a lowercase first letter is kept; no '-' followed by a lowercase letter remains |
| StyleRules.Kebab | src/overlay/Overlay.ts:622 | the reference inverse: never shorter, and no uppercase letter is introduced |
| StyleRules.KebabCamel | src/overlay/Overlay.ts:622 | on text without uppercase letters, turning the camel-case key back into kebab case recovers it |
| StyleRules.CamelNoHyphen | src/overlay/Overlay.ts:622 | a property without '-' is its own camel form |
| StyleRules.CamelHyphen | src/overlay/Overlay.ts:622 | a '-' between two hyphen-free words, before a lowercase letter, is dropped and the letter capitalised: "z-index" is "zIndex" |
| StyleRules.NumberLiteralOfInt | src/overlay/Overlay.ts:623-626 | every safe integer's own text is a number literal |
| StyleRules.JsxValue | src/overlay/Overlay.ts:623-627 | the value is emitted bare exactly when it is a number literal, and single-quoted otherwise |
| StyleRules.JsxValueBareExample | src/overlay/Overlay.ts:624-625 | "10" is emitted bare |
| StyleRules.JsxValueQuotedWord | src/overlay/Overlay.ts:627 | a keyword value such as "auto" is emitted quoted |
| StyleRules.JsxStyle | src/overlay/Overlay.ts:629 | the style part opens with "style={{ " and ends with " }}" |
| StyleRules.UnquoteJsxValue | src/overlay/Overlay.ts:623-627 | every value is recovered from its JSX form by removing the quotes of a quoted one |
| StyleRules.JsxEntryReads | src/overlay/Overlay.ts:621-628 | the entry for an active rule with a lowercase, ','-free property and a ','-free value is camel key, ": ", JSX value, and reads back as exactly that rule |
| StyleRules.JsxStyleRoundTrip | src/overlay/Overlay.ts:620-629 | reading the style part back (brackets removed, entries split at ',', keys turned back to kebab case, quotes removed) gives exactly the active rules, in order, for clean rules with lowercase ','-free properties and ','-free values |
| LiveEdit.Initial | src/overlay/Overlay.ts:27-34 | the panel starts hidden with no element and no rules |
| LiveEdit.Capture | src/overlay/Overlay.ts:76-82 | the baseline class is the descriptor's; style and HTML are read from the element, or empty without one |
| LiveEdit.Show | src/overlay/Overlay.ts:71-103 | the baseline is captured, the rules are re-parsed from the baseline style, the inputs show the baseline, and the panel is visible |
| LiveEdit.Hide | src/overlay/Overlay.ts:105-111 | clears the element and hides the panel, keeping the baseline, rules and inputs |
| LiveEdit.ShowHideShowing | src/overlay/Overlay.ts:113-115 | isShowing holds after show and fails after hide |
| LiveEdit.EditClass | src/overlay/Overlay.ts:530-537 | the class input takes the value; the live class follows only when there is an element whose className can be assigned, and an SVG element's class stays because the assignment throws |
| LiveEdit.EditHtml | src/overlay/Overlay.ts:541-553 | the HTML input takes the value; the live HTML follows only with an element and an accepted assignment |
| LiveEdit.ApplyStyle | src/overlay/Overlay.ts:340-347 | the rules are replaced and, with an element, the live style becomes their serialisation; nothing else changes |
| LiveEdit.ToggleRule | src/overlay/Overlay.ts:369-373 | only rule i's enabled flag changes, and the live style is re-applied |
| LiveEdit.SetProperty | src/overlay/Overlay.ts:379-384 | only rule i's property changes, and the live style is re-applied |
| LiveEdit.SetValue | src/overlay/Overlay.ts:390-394 | only rule i's value changes, and the live style is re-applied |
| LiveEdit.DeleteRule | src/overlay/Overlay.ts:400-406 | rule i is removed, the others keep their order, and the live style is re-applied |
| LiveEdit.AddRule | src/overlay/Overlay.ts:559-568 | an empty enabled rule is appended; the serialised style and the live element are unchanged |
| LiveEdit.EditsKeepStyleInSync | src/overlay/Overlay.ts:340-406 | every edit keeps the live style equal to the serialised rules |
| LiveEdit.Snippet | src/overlay/Overlay.ts:611-638 | a changed HTML is the whole snippet; otherwise the class attribute, then a space and the JSX style when both are present, or whichever one is present, or empty when neither is |
| LiveEdit.Copy | src/overlay/Overlay.ts:588-657 | nothing without a shown descriptor; "no changes" exactly when the working class, style and HTML equal the baseline; otherwise the text is the new HTML when it changed and the snippet of the class input and the rules when it did not; a successful write re-baselines to the working values; a failed one changes nothing |
| LiveEdit.CopiedStyleReadsBack | src/overlay/Overlay.ts:598-638 | with no class and the HTML unchanged, the copied text reads back as exactly the active rules, for clean rules readable in JSX |
| LiveEdit.CopyTwice | src/overlay/Overlay.ts:640-648 | after a successful copy, a second copy reports no changes |
| LiveEdit.Reset | src/overlay/Overlay.ts:688-718 | with an element the class input is reset first; on an SVG element the class assignment then throws and nothing else changes; otherwise the rules are re-parsed from the baseline style, and class, style and HTML are restored only when there is an element |
| LiveEdit.SvgResetKeepsRuleEdits | src/overlay/Overlay.ts:688-699 | on an SVG element a reset keeps the edited rules, so a rule edit is still there to copy |
| LiveEdit.ShowThenCopy | src/overlay/Overlay.ts:598-609 | right after show, copy reports no changes whenever the captured style is already in normal form |
| LiveEdit.ResetThenCopy | src/overlay/Overlay.ts:598-718 | right after a reset with an assignable (non-SVG) element and a normal-form baseline style, copy reports no changes |
| LiveEdit.CopyThenReset | src/overlay/Overlay.ts:644-699 | after a successful copy the baseline style is in normal form, and a reset restores exactly the active rules, or keeps the rules as they are on an SVG element |
| LiveEdit.RawStyleCountsAsChange | src/overlay/Overlay.ts:598-609 | an element whose style attribute is "color:red" already counts as changed right after show |
| LiveEdit.Capped | src/overlay/Overlay.ts:410-431 | shows a prefix of at most cap items and counts the rest; something is left over only when the cap is reached |
| LiveEdit.PropsListing | src/overlay/Overlay.ts:410-431 | no listing (the "No props" line) exactly when there are no props; otherwise the first min(n, 10) props shown and the rest counted |
| LiveEdit.TreeListing | src/overlay/Overlay.ts:433-462 | no section without a hierarchy; otherwise the first min(n, 15) rows shown and the rest counted |

## Left out

- Editors.BuildEditorUrl: an id naming an inherited property of the EDITORS object (`constructor`, `toString`, `__proto__`) is found by the JavaScript lookup, so the source reports "No URL template for editor: <id>" (src/shared/editors.ts:137-145); the table here is a map without a prototype and reports "Unknown editor: <id>". Both callers discard the message.
- Geometry is not modelled: panel and tooltip placement, bounding boxes and window size. Whether a click falls inside the panel is a boolean input to `Controller.OnClick`.
- DOM rendering is not modelled: `buildPanelHTML`, `buildStyleEditorHTML`, datalists, `escapeHtml` and the tree row markup. Only the display caps of the props and tree lists are modelled.
- Timers and status messages (`showStatus`) are not modelled.
- Clipboard writes and `window.location` navigation are effects or boolean inputs. They are never performed.
- The popup, the content script, the background service worker, the static CSS and the build scripts are plumbing around the core and are not modelled.
- The settings message check `event.source !== window` and the initial settings request are message plumbing. `Controller.OnSettings` models only the merge of an accepted payload.
- Framework probes are oracle inputs of `Registry.Page`: globals, devtools hooks and `querySelectorAll` scans. React's devtools renderers are a sequence of functions.
- Assigning `outerHTML` is an opaque string, with a flag for whether the browser accepts it. The model does not track that the stored element reference goes stale after the assignment.
- The tree's non-target row marker and the data-col fallback in the overlay are presentation only.
- `cssToJsxStyle` (src/overlay/Overlay.ts:659-686) is never called.
- `localeCompare` is locale-dependent. The tail of `getEditorList` is ordered by an abstract total preorder on names.
- The React fiber walk and hierarchy walk are bounded by their own constants (50 and 20 nodes). The DOM-ancestor walks follow the finite parent chain of the element datatype.
- `parseInt` is modelled for leading whitespace, a sign and a run of ASCII digits. `NaN` becomes `None`. Exponents, hexadecimal and numeric precision are not modelled.
- StyleRules.JsxValue: only the canonical decimal text of a safe integer counts as a number literal, so fractions such as "0.5" and exponent forms are emitted quoted here, although the source emits them bare; the source's test goes through floating-point `parseFloat`/`String`.
- StyleRules.IsNumberLiteral: the same restriction, to canonical safe integers.
- `String.replace` with `$` patterns in the replacement is not modelled. The editor link builder substitutes plain text.
- React.Serialize: numbers are modelled as integers, since the props panel only displays them.
- React.Serialize: the final `String(value)` fallback (src/injected/adapters/react.ts:210) is not modelled: bigint and symbol props have no `JsValue` case, since only values the panel summarises are represented.
- React.Serialize: strings are sequences of code points, while JavaScript's `length` and `slice(0, 50)` count UTF-16 code units (src/injected/adapters/react.ts:181). A string holding characters outside the Basic Multilingual Plane, such as an emoji, is cut at a different place here.
- Text.ToLower: lower-cases ASCII letters only, while JavaScript's `toLowerCase` (src/injected/adapters/interface.ts:38, src/injected/adapters/react.ts:111) maps all of Unicode. Tag names are ASCII in HTML documents, so only unusual custom or foreign-namespace tag names would differ.

=== FILE: adapter_interface.dfy ===
/** Helpers every adapter shares (`src/injected/adapters/interface.ts`):
    deriving a component name from a file path and wrapping a source
    location into the descriptor the overlay renders. */
module AdapterInterface {
  import opened Options
  import opened Text
  import opened Dom

  /** The extensions the component-name pattern accepts. */
  const SourceExtensions: seq<string> := ["ts", "tsx", "js", "jsx", "vue", "svelte"]

  predicate IsPathSeparator(c: char) {
    c == '/' || c == '\\'
  }

  /** Index just past the last path separator of `s` (0 when there is none). */
  function BaseStart(s: string): (k: nat)
    ensures k <= |s|
    ensures forall i :: k <= i < |s| ==> !IsPathSeparator(s[i])
    ensures k > 0 ==> IsPathSeparator(s[k - 1])
  {
    if |s| == 0 then 0
    else if IsPathSeparator(s[|s| - 1]) then |s|
    else BaseStart(s[..|s| - 1])
  }

  /** `s` ends with "." followed by one of the accepted extensions. */
  predicate HasSourceExtension(s: string) {
    exists k :: 0 <= k < |SourceExtensions| && |SourceExtensions[k]| < |s|
      && s[|s| - |SourceExtensions[k]| - 1..] == "." + SourceExtensions[k]
  }

  /** `extractComponentName`: the match of `/([^/\\]+)\.(tsx?|jsx?|vue|svelte)$/`,
      i.e. the last path segment without its final extension, or 'Unknown'.
      The pattern is unanchored on the left, so the captured name starts just
      after the last separator; its final "." is the last dot of the path. */
  function ExtractComponentName(path: string): (r: string)
    ensures r != ""
    ensures forall i :: 0 <= i < |r| ==> !IsPathSeparator(r[i])
    ensures !HasSourceExtension(path) ==> r == "Unknown"
  {
    match LastIndexOf(path, '.')
    case None => "Unknown"
    case Some(d) =>
      var stem := path[..d];
      var base := stem[BaseStart(stem)..];
      if path[d + 1..] in SourceExtensions && base != "" then base
      else
        assert !HasSourceExtension(path) ==> path[d + 1..] !in SourceExtensions || base == "" by {
          if path[d + 1..] in SourceExtensions {
            var k :| 0 <= k < |SourceExtensions| && SourceExtensions[k] == path[d + 1..];
            assert path[|path| - |SourceExtensions[k]| - 1..] == "." + SourceExtensions[k];
          }
        }
        "Unknown"
  }

  lemma NoDotInExtension(ext: string)
    requires ext in SourceExtensions
    ensures '.' !in ext
  {
  }

  /** A path `dir + base + "." + ext` names component `base`: only the final
      extension is stripped, and the directory part is dropped. */
  lemma {:induction false} ExtractComponentNameOf(dir: string, base: string, ext: string)
    requires dir == "" || IsPathSeparator(dir[|dir| - 1])
    requires base != "" && forall i :: 0 <= i < |base| ==> !IsPathSeparator(base[i])
    requires ext in SourceExtensions
    ensures ExtractComponentName(dir + base + "." + ext) == base
  {
    var path := dir + base + "." + ext;
    var d := |dir| + |base|;
    NoDotInExtension(ext);
    assert path[d] == '.';
    assert path[d + 1..] == ext;
    assert forall j :: d < j < |path| ==> path[j] == ext[j - d - 1];
    LastIndexOfAt(path, '.', d);
    var stem := path[..d];
    assert stem == dir + base;
    var k := BaseStart(stem);
    assert forall i :: |dir| <= i < |stem| ==> stem[i] == base[i - |dir|];
    assert |dir| > 0 ==> stem[|dir| - 1] == dir[|dir| - 1];
    assert k == |dir|;
    assert stem[k..] == base;
  }

  /** `src/App.tsx` names `App`. */
  lemma ExtractComponentNameOfApp()
    ensures ExtractComponentName("src/App.tsx") == "App"
  {
    var base := "App";
    assert forall i :: 0 <= i < |base| ==> !IsPathSeparator(base[i]);
    ExtractComponentNameOf("src/", base, "tsx");
    assert "src/" + base + "." + "tsx" == "src/App.tsx";
  }

  /** `a/b.test.tsx` names `b.test`: only the final extension is stripped. */
  lemma ExtractComponentNameOfTestFile()
    ensures ExtractComponentName("a/b.test.tsx") == "b.test"
  {
    var base := "b.test";
    assert forall i :: 0 <= i < |base| ==> !IsPathSeparator(base[i]);
    ExtractComponentNameOf("a/", base, "tsx");
    assert "a/" + base + "." + "tsx" == "a/b.test.tsx";
  }

  /** A stylesheet path names no component. */
  lemma ExtractComponentNameOfStylesheet()
    ensures ExtractComponentName("src/App.css") == "Unknown"
  {
    var s := "src/App.css";
    assert LastIndexOf(s, '.') == Some(7) by {
      assert s[7] == '.' && s[8..] == "css";
    }
    assert s[8..] !in SourceExtensions;
  }

  /** `createElementInfo`: the source itself, its own component name when it
      has one and otherwise the one derived from the file name, and the
      lower-cased tag. Nothing else is filled in. */
  function CreateElementInfo(e: Element, source: SourceInfo): (r: ElementInfo)
    ensures r.source == source
    ensures r.componentName != ""
    ensures source.componentName != "" ==> r.componentName == source.componentName
    ensures source.componentName == "" ==> r.componentName == ExtractComponentName(source.fileName)
    ensures |r.tagName| == |e.tagName|
      && forall i :: 0 <= i < |e.tagName| ==> r.tagName[i] == LowerChar(e.tagName[i])
    ensures r.element.None? && r.className.None? && r.style.None?
      && r.hierarchy.None? && r.props.None?
  {
    ElementInfo(
      source,
      if source.componentName != "" then source.componentName
      else ExtractComponentName(source.fileName),
      ToLower(e.tagName),
      None, None, None, None, None)
  }

  /** The common tail of every non-React `getElementInfo`: no descriptor when
      there is no source, otherwise `createElementInfo`. */
  function Describe(e: Element, source: Option<SourceInfo>): (r: Option<ElementInfo>)
    ensures r.None? <==> source.None?
    ensures r.Some? ==> r.value == CreateElementInfo(e, source.value)
  {
    match source
    case None => None
    case Some(s) => Some(CreateElementInfo(e, s))
  }
}

=== FILE: controller.dfy ===
/** The interaction controller of the injected script (`src/injected/index.ts`):
    a state machine over the settings, the hotkey flag, the lock flag, the
    element under the mouse and the locked element, driven by keyboard,
    mouse and settings events. The overlay, the cursor and navigation are
    emitted as effects; resolving an element is the registry's
    `getElementInfo`, passed in as `resolve`. */
module Controller {
  import opened Options
  import opened Dom
  import opened Storage
  import Editors
  import Registry
  import RegistryQueries

  datatype State = State(
    settings: Settings,
    hotkeyPressed: bool,
    panelLocked: bool,
    currentElement: Option<Element>,
    lockedElement: Option<Element>)

  /** What a handler asks of the page: the crosshair cursor on or off, the
      overlay's highlight or full panel, `preventDefault`/`stopPropagation`
      of the click, navigation to an editor link, and the overlay's editor
      settings. */
  datatype Effect =
    | Crosshair(on: bool)
    | Highlight(info: ElementInfo)
    | HideHighlight
    | ShowPanel(info: ElementInfo)
    | HidePanel
    | CancelClick
    | Navigate(url: string)
    | SetEditor(editor: string, prefix: string)

  /** The events the script listens to. `key` is the keyboard event's `key`;
      `insidePanel` is the overlay's answer to whether a click hit the panel. */
  datatype Event =
    | KeyDown(mods: Modifiers)
    | KeyUp(mods: Modifiers, key: string)
    | MouseMove(target: Element)
    | Click(mods: Modifiers, target: Element, insidePanel: bool)
    | MouseLeave
    | SettingsUpdate(patch: SettingsPatch)

  /** The state the script starts in. */
  function Initial(): (s: State)
    ensures Locking(s) && s.settings == DefaultSettings()
    ensures !s.hotkeyPressed && !s.panelLocked && s.currentElement.None?
  {
    State(DefaultSettings(), false, false, None, None)
  }

  /** The panel is locked exactly when an element is locked. */
  predicate Locking(s: State) {
    s.panelLocked <==> s.lockedElement.Some?
  }

  // ---------------------------------------------------------------------------
  // Chords

  /** `isHotkeyPressed` of the injected script: every modifier of the chord
      is down (others may be down too) and the chord has at least one. */
  function ChordHeld(event: Modifiers, hotkey: Modifiers): (r: bool)
    ensures r <==> AnyModifier(hotkey) && forall k :: Holds(hotkey, k) ==> Holds(event, k)
  {
    KeysHeld(event, hotkey);
    if hotkey.altKey && !event.altKey then false
    else if hotkey.ctrlKey && !event.ctrlKey then false
    else if hotkey.metaKey && !event.metaKey then false
    else if hotkey.shiftKey && !event.shiftKey then false
    else hotkey.altKey || hotkey.ctrlKey || hotkey.metaKey || hotkey.shiftKey
  }

  /** The keyup test: some modifier of the chord is up. */
  function Released(event: Modifiers, hotkey: Modifiers): (r: bool)
    ensures r <==> exists k :: Holds(hotkey, k) && !Holds(event, k)
  {
    KeysHeld(event, hotkey);
    (hotkey.altKey && !event.altKey) || (hotkey.ctrlKey && !event.ctrlKey)
    || (hotkey.metaKey && !event.metaKey) || (hotkey.shiftKey && !event.shiftKey)
  }

  /** Every key of the chord is held exactly when each of its four flags
      is matched by the event's. */
  lemma KeysHeld(event: Modifiers, hotkey: Modifiers)
    ensures (forall k :: Holds(hotkey, k) ==> Holds(event, k)) <==>
      (hotkey.altKey ==> event.altKey) && (hotkey.ctrlKey ==> event.ctrlKey)
      && (hotkey.metaKey ==> event.metaKey) && (hotkey.shiftKey ==> event.shiftKey)
  {
    assert Holds(hotkey, Alt) == hotkey.altKey && Holds(hotkey, Ctrl) == hotkey.ctrlKey;
    assert Holds(hotkey, Cmd) == hotkey.metaKey && Holds(hotkey, Shift) == hotkey.shiftKey;
    assert Holds(event, Alt) == event.altKey && Holds(event, Ctrl) == event.ctrlKey;
    assert Holds(event, Cmd) == event.metaKey && Holds(event, Shift) == event.shiftKey;
  }

  /** For a chord with a modifier, a keyup releases it exactly when the
      keys no longer hold it. */
  lemma ReleasedIsNotHeld(event: Modifiers, hotkey: Modifiers)
    requires AnyModifier(hotkey)
    ensures Released(event, hotkey) <==> !ChordHeld(event, hotkey)
  {
  }

  /** Holding the chord exactly also holds it in the injected script's
      sense, whenever the chord has a modifier. */
  lemma ExactMatchHolds(event: Modifiers, hotkey: Modifiers)
    requires AnyModifier(hotkey) && ExactMatch(event, hotkey)
    ensures ChordHeld(event, hotkey)
  {
  }

  /** The two tests differ: Alt+Shift holds an Alt-only chord for the
      injected script but is no exact match; an empty chord is matched
      exactly by no modifiers yet never held. */
  lemma ChordTestsDiffer()
    ensures ChordHeld(Modifiers(true, false, false, true), DefaultSettings().hotkey)
    ensures !ExactMatch(Modifiers(true, false, false, true), DefaultSettings().hotkey)
    ensures ExactMatch(NoModifiers, NoModifiers) && !ChordHeld(NoModifiers, NoModifiers)
  {
  }

  // ---------------------------------------------------------------------------
  // Handlers

  /** `showHighlightForElement`: the highlight when the element resolves,
      otherwise the highlight is hidden. */
  function HighlightFor(resolve: Element -> Option<ElementInfo>, e: Element): (r: Effect)
    ensures r.Highlight? <==> resolve(e).Some?
    ensures r.Highlight? ==> r.info == resolve(e).value
    ensures !r.Highlight? ==> r == HideHighlight
  {
    match resolve(e)
    case Some(info) => Highlight(info)
    case None => HideHighlight
  }

  /** `unlockPanel`. */
  function Unlock(s: State): (r: State)
    ensures !r.panelLocked && r.lockedElement.None? && Locking(r)
    ensures r.settings == s.settings && r.hotkeyPressed == s.hotkeyPressed && r.currentElement == s.currentElement
  {
    s.(panelLocked := false, lockedElement := None)
  }

  /** `handleKeyDown`: when enabled and not locked, holding the chord sets
      the hotkey flag, turns on the crosshair and re-highlights the element
      under the mouse. */
  function OnKeyDown(resolve: Element -> Option<ElementInfo>, s: State, mods: Modifiers): (r: (State, seq<Effect>))
    ensures !s.settings.enabled || s.panelLocked ==> r == (s, [])
    ensures s.settings.enabled && !s.panelLocked ==>
      (r.0.hotkeyPressed <==> s.hotkeyPressed || ChordHeld(mods, s.settings.hotkey))
    ensures r.0 == s.(hotkeyPressed := r.0.hotkeyPressed)
    ensures Crosshair(true) in r.1 <==>
      s.settings.enabled && !s.panelLocked && ChordHeld(mods, s.settings.hotkey)
  {
    if !s.settings.enabled || s.panelLocked || !ChordHeld(mods, s.settings.hotkey) then (s, [])
    else
      var highlight := if s.currentElement.Some? then [HighlightFor(resolve, s.currentElement.value)] else [];
      (s.(hotkeyPressed := true), [Crosshair(true)] + highlight)
  }

  /** `handleKeyUp`: releasing a modifier of the chord clears the hotkey
      flag, locked or not, but hides the highlight only when not locked;
      Escape unlocks a locked panel. The extension need not be enabled. */
  function OnKeyUp(s: State, mods: Modifiers, key: string): (r: (State, seq<Effect>))
    ensures Released(mods, s.settings.hotkey) ==> !r.0.hotkeyPressed
    ensures !Released(mods, s.settings.hotkey) ==> r.0.hotkeyPressed == s.hotkeyPressed
    ensures HideHighlight in r.1 <==> Released(mods, s.settings.hotkey) && !s.panelLocked
    ensures r.0.panelLocked <==> s.panelLocked && key != "Escape"
    ensures HidePanel in r.1 <==> s.panelLocked && key == "Escape"
    ensures r.0.lockedElement == if s.panelLocked && key == "Escape" then None else s.lockedElement
    ensures r.0.settings == s.settings && r.0.currentElement == s.currentElement
  {
    var released := Released(mods, s.settings.hotkey);
    var s1 := if released then s.(hotkeyPressed := false) else s;
    var e1 := if released then [Crosshair(false)] + (if !s.panelLocked then [HideHighlight] else []) else [];
    if key == "Escape" && s1.panelLocked then (Unlock(s1), e1 + [HidePanel])
    else (s1, e1)
  }

  /** `handleMouseMove`: when enabled and not locked, the target becomes the
      current element and is highlighted while the hotkey is held and the
      tooltip is on. */
  function OnMouseMove(resolve: Element -> Option<ElementInfo>, s: State, target: Element): (r: (State, seq<Effect>))
    ensures !s.settings.enabled || s.panelLocked ==> r == (s, [])
    ensures s.settings.enabled && !s.panelLocked ==> r.0 == s.(currentElement := Some(target))
    ensures |r.1| > 0 <==> s.settings.enabled && !s.panelLocked && s.hotkeyPressed && s.settings.showTooltip
    ensures |r.1| > 0 ==> r.1 == [HighlightFor(resolve, target)]
  {
    if !s.settings.enabled || s.panelLocked then (s, [])
    else
      var s1 := s.(currentElement := Some(target));
      (s1, if s.hotkeyPressed && s.settings.showTooltip then [HighlightFor(resolve, target)] else [])
  }

  /** `openInEditor`: the editor link for the source, when it builds; a
      failure to build opens nothing. */
  function OpenLink(settings: Settings, source: SourceInfo): (r: seq<Effect>)
    ensures |r| <= 1
    ensures |r| == 1 <==> Editors.BuildEditorUrl(settings.editor, source, settings.projectPathPrefix, settings.customEditorUrl).Ok?
    ensures |r| == 1 ==>
      r[0] == Navigate(Editors.BuildEditorUrl(settings.editor, source, settings.projectPathPrefix, settings.customEditorUrl).value)
  {
    match Editors.BuildEditorUrl(settings.editor, source, settings.projectPathPrefix, settings.customEditorUrl)
    case Ok(url) => [Navigate(url)]
    case Err(_) => []
  }

  /** `handleClick`. Locked: a click outside the panel unlocks, and nothing
      else happens. Unlocked: a click holding the chord while enabled is
      cancelled, and when the target resolves the panel locks on it, shows
      its descriptor, and opens the editor unless auto-open is off. */
  function OnClick(resolve: Element -> Option<ElementInfo>, s: State, mods: Modifiers, target: Element, insidePanel: bool)
    : (r: (State, seq<Effect>))
    ensures s.panelLocked ==> r.0 == if insidePanel then s else Unlock(s)
    ensures s.panelLocked ==> (r.1 == if insidePanel then [] else [HidePanel])
    ensures !s.panelLocked ==>
      (r.0.panelLocked <==> s.settings.enabled && ChordHeld(mods, s.settings.hotkey) && resolve(target).Some?)
    ensures !s.panelLocked && r.0.panelLocked ==>
      r.0 == s.(panelLocked := true, lockedElement := Some(target))
      && r.1 == [CancelClick, ShowPanel(resolve(target).value)]
                + (if s.settings.disableAutoOpen then [] else OpenLink(s.settings, resolve(target).value.source))
    ensures !s.panelLocked && !r.0.panelLocked ==> r.0 == s
    ensures CancelClick in r.1 <==> !s.panelLocked && s.settings.enabled && ChordHeld(mods, s.settings.hotkey)
  {
    if s.panelLocked then
      if insidePanel then (s, []) else (Unlock(s), [HidePanel])
    else if !s.settings.enabled || !ChordHeld(mods, s.settings.hotkey) then (s, [])
    else
      match resolve(target)
      case None => (s, [CancelClick])
      case Some(info) =>
        var open := if s.settings.disableAutoOpen then [] else OpenLink(s.settings, info.source);
        assert CancelClick !in [ShowPanel(info)] + open by {
          assert |open| <= 1 && (|open| == 1 ==> open[0].Navigate?);
        }
        (s.(panelLocked := true, lockedElement := Some(target)), [CancelClick, ShowPanel(info)] + open)
  }

  /** The `mouseleave` listener: the highlight goes unless the panel is
      locked. */
  function OnMouseLeave(s: State): (r: (State, seq<Effect>))
    ensures r.0 == s
    ensures r.1 == [] <==> s.panelLocked
  {
    (s, if s.panelLocked then [] else [HideHighlight])
  }

  /** A settings update: the payload's fields replace the current ones and
      the overlay receives the editor and the prefix. */
  function OnSettings(s: State, patch: SettingsPatch): (r: (State, seq<Effect>))
    ensures r.0 == s.(settings := Merge(s.settings, patch))
    ensures r.1 == [SetEditor(r.0.settings.editor, r.0.settings.projectPathPrefix)]
  {
    var settings := Merge(s.settings, patch);
    (s.(settings := settings), [SetEditor(settings.editor, settings.projectPathPrefix)])
  }

  /** One event. */
  function Step(resolve: Element -> Option<ElementInfo>, s: State, ev: Event): (r: (State, seq<Effect>))
    ensures Locking(s) ==> Locking(r.0)
  {
    match ev
    case KeyDown(mods) => OnKeyDown(resolve, s, mods)
    case KeyUp(mods, key) => OnKeyUp(s, mods, key)
    case MouseMove(target) => OnMouseMove(resolve, s, target)
    case Click(mods, target, insidePanel) => OnClick(resolve, s, mods, target, insidePanel)
    case MouseLeave => OnMouseLeave(s)
    case SettingsUpdate(patch) => OnSettings(s, patch)
  }

  /** A run of events from `s`: the final state and every effect, in order. */
  function Run(resolve: Element -> Option<ElementInfo>, s: State, evs: seq<Event>): (r: (State, seq<Effect>))
    decreases |evs|
  {
    if |evs| == 0 then (s, [])
    else
      var first := Step(resolve, s, evs[0]);
      var rest := Run(resolve, first.0, evs[1..]);
      (rest.0, first.1 + rest.1)
  }

  /** From the initial state, the panel is locked exactly when an element is
      locked, whatever happens. */
  lemma {:induction false} RunKeepsLocking(resolve: Element -> Option<ElementInfo>, s: State, evs: seq<Event>)
    requires Locking(s)
    ensures Locking(Run(resolve, s, evs).0)
    decreases |evs|
  {
    if |evs| > 0 {
      RunKeepsLocking(resolve, Step(resolve, s, evs[0]).0, evs[1..]);
    }
  }

  /** While locked and enabled or not, keys and mouse moves never change
      the locked element; only Escape or a click outside the panel clears
      it, and nothing but a click locks a new one. */
  lemma LockedElementChanges(resolve: Element -> Option<ElementInfo>, s: State, ev: Event)
    ensures var r := Step(resolve, s, ev).0;
      r.lockedElement != s.lockedElement ==>
        (s.panelLocked && ((ev.KeyUp? && ev.key == "Escape") || (ev.Click? && !ev.insidePanel)) && r.lockedElement.None?)
        || (!s.panelLocked && ev.Click? && r.lockedElement == Some(ev.target))
  {
  }

  // ---------------------------------------------------------------------------
  // With the registry as resolver

  /** The script's resolver: the registry's `getElementInfo` on the page. */
  function Resolver(page: Registry.Page): Element -> Option<ElementInfo> {
    e => RegistryQueries.GetElementInfo(page, e)
  }

  /** An unlocked, enabled click holding the chord locks the panel exactly
      when some applicable adapter locates the target. */
  lemma ClickLocksWhenLocated(page: Registry.Page, s: State, mods: Modifiers, target: Element, insidePanel: bool)
    requires !s.panelLocked && s.settings.enabled && ChordHeld(mods, s.settings.hotkey)
    ensures OnClick(Resolver(page), s, mods, target, insidePanel).0.panelLocked
      <==> RegistryQueries.GetSourceInfo(page, target).Some?
  {
    var resolve := Resolver(page);
    assert resolve(target) == RegistryQueries.GetElementInfo(page, target);
    RegistryQueries.SameAdapter(page, target);
  }

  /** With the default settings (Cursor, auto-open on), locking the panel
      also navigates to the Cursor link of the resolved source. */
  lemma DefaultClickOpensCursor(resolve: Element -> Option<ElementInfo>, s: State, mods: Modifiers, target: Element)
    requires s.settings == DefaultSettings() && !s.panelLocked
    requires mods.altKey && resolve(target).Some?
    ensures var r := OnClick(resolve, s, mods, target, false);
      r.0.lockedElement == Some(target)
      && Editors.BuildEditorUrl("cursor", resolve(target).value.source, "", "").Ok?
      && Navigate(Editors.BuildEditorUrl("cursor", resolve(target).value.source, "", "").value) in r.1
  {
    Editors.CursorListed();
    Editors.BuildEditorUrlSucceeds("cursor", resolve(target).value.source, "", "");
  }
}

=== FILE: data_attrs.dfy ===
/** The framework-independent fallback adapter
    (`src/injected/adapters/data-attrs.ts`): locations that build plugins
    write into `data-*` attributes, read on the element and then on its
    ancestors. */
module DataAttrs {
  import opened Options
  import opened Text
  import opened Search
  import opened Dom
  import opened AdapterInterface
  import opened LocatorFormats

  /** The attributes the adapter knows, one per plugin format. */
  datatype Attr = InspPath | Locatorjs | LocatorjsId | VInspector | SourceFile | ReactInspector

  /** The attribute's name on the element. */
  function AttrName(a: Attr): string {
    match a
    case InspPath => "data-insp-path"
    case Locatorjs => "data-locatorjs"
    case LocatorjsId => "data-locatorjs-id"
    case VInspector => "data-v-inspector"
    case SourceFile => "data-source-file"
    case ReactInspector => "data-react-inspector"
  }

  /** The attributes consulted on every element, in this order. */
  const DataAttributes: seq<Attr> := [InspPath, Locatorjs, LocatorjsId, VInspector, SourceFile, ReactInspector]

  /** The `data-source-line` and `data-source-column` values the
      `data-source-file` branch reads. That branch names an identifier
      `element` which is not in scope inside `parseAttribute`, so these come
      from whatever it resolves to at run time, not from the element being
      inspected; they are inputs here. `None` is an absent attribute. */
  datatype LooseAttrs = LooseAttrs(line: Option<string>, column: Option<string>)

  /** `text || '1'`. */
  function OrOne(text: string): (r: string)
    ensures r != ""
    ensures text != "" ==> r == text
  {
    if text == "" then "1" else text
  }

  /** The `data-insp-path` format `path:line:column:tagName`: the last part
      is the tag, the two before it column and line, and the rest, joined
      back with ':', the file (which may itself contain colons). */
  function ParseInspPath(value: string): (r: Option<SourceInfo>)
    ensures r.Some? <==> |Split(value, ':')| >= 3
    ensures r.Some? ==> r.value.componentName == ExtractComponentName(r.value.fileName)
  {
    var parts := Split(value, ':');
    var n := |parts|;
    if n < 3 then None
    else
      var file := Join(parts[..n - 3], ":");
      Some(SourceInfo(
        file,
        ParseInt(OrOne(parts[n - 3])),
        ParseInt(OrOne(parts[n - 2])),
        ExtractComponentName(file)))
  }

  /** `f:l:c:t` parses to file `f`, line `l` and column `c`, even when `f`
      holds colons of its own. */
  lemma InspPathRoundTrip(file: string, line: string, column: string, tag: string)
    requires IsDigitRun(line) && IsDigitRun(column)
    requires ':' !in tag
    ensures ParseInspPath(file + ":" + line + ":" + column + ":" + tag)
      == Some(SourceInfo(file, Some(DigitsValue(line)), Some(DigitsValue(column)), ExtractComponentName(file)))
  {
    assert ':' !in line && ':' !in column;
    InspPathParts(file, line, column, tag);
    var front := Split(file, ':');
    var parts := front + [line, column, tag];
    assert parts[..|parts| - 3] == front;
    assert parts[|parts| - 3] == line && parts[|parts| - 2] == column;
    JoinSplit(file, ':');
    ParseDigits(line);
    ParseDigits(column);
  }

  /** The parts of `f:l:c:t` when `l`, `c` and `t` hold no ':'. */
  lemma InspPathParts(file: string, line: string, column: string, tag: string)
    requires ':' !in line && ':' !in column && ':' !in tag
    ensures Split(file + ":" + line + ":" + column + ":" + tag, ':') == Split(file, ':') + [line, column, tag]
  {
    var tail := Join([line, column, tag], [':']);
    assert tail == line + ":" + (column + ":" + tag) by {
      JoinCons([line, column, tag], [':']);
      assert [line, column, tag][1..] == [column, tag];
    }
    assert file + ":" + line + ":" + column + ":" + tag == file + [':'] + tail;
    SplitConcat(file, tail, ':');
    SplitJoin([line, column, tag], ':');
  }

  /** What one attribute's value denotes, by the attribute's format. */
  function ParseAttribute(attr: Attr, value: string, loose: LooseAttrs): (r: Option<SourceInfo>)
    ensures r.Some? ==> r.value.componentName == ExtractComponentName(r.value.fileName)
  {
    match attr
    case InspPath => ParseInspPath(value)
    case Locatorjs | VInspector | ReactInspector => ParseLocation(value)
    case LocatorjsId => ParseIdForm(value)
    case SourceFile =>
      Some(SourceInfo(
        value,
        ParseInt(OrOne(loose.line.GetOr(""))),
        ParseInt(OrOne(loose.column.GetOr(""))),
        ExtractComponentName(value)))
  }

  /** The three `path:line:column` attributes read a well-formed value back
      exactly; the position is the last two digit groups. */
  lemma LocationAttributeRoundTrip(attr: Attr, file: string, line: nat, column: nat, loose: LooseAttrs)
    requires attr == Locatorjs || attr == VInspector || attr == ReactInspector
    requires file != "" && NoLineTerminator(file)
    ensures ParseAttribute(attr, file + ":" + NatToString(line) + ":" + NatToString(column), loose)
      == Some(SourceInfo(file, Some(line), Some(column), ExtractComponentName(file)))
  {
    ParseLocationRoundTrip(file, line, column);
  }

  /** `data-source-file` always denotes its value as the file; line and
      column default to 1 when their attributes are missing or empty. */
  lemma SourceFileAttribute(value: string)
    ensures ParseAttribute(SourceFile, value, LooseAttrs(None, None))
      == Some(SourceInfo(value, Some(1), Some(1), ExtractComponentName(value)))
  {
    assert OrOne("") == "1";
    OneParses();
  }

  lemma OneParses()
    ensures ParseInt("1") == Some(1)
  {
    ParseDigits("1");
  }

  /** The lookup on one element for one attribute: absent or empty
      attributes are skipped. */
  function AttrReader(e: Element, loose: LooseAttrs): Attr -> Option<SourceInfo> {
    a => if NonEmptyAttr(e, AttrName(a)).Some? then ParseAttribute(a, NonEmptyAttr(e, AttrName(a)).value, loose) else None
  }

  /** The first attribute of `DataAttributes` on `e` that is present and
      parses. */
  function ElementSource(e: Element, loose: LooseAttrs): (r: Option<SourceInfo>)
    ensures r.Some? ==> r.value.componentName == ExtractComponentName(r.value.fileName)
  {
    FirstSome(DataAttributes, AttrReader(e, loose))
  }

  function Reader(loose: LooseAttrs): Element -> Option<SourceInfo> {
    e => ElementSource(e, loose)
  }

  /** The attributes are tried in their fixed order and the first one that
      is present and parses decides; later ones are not consulted. */
  lemma AttributePriority(e: Element, loose: LooseAttrs, k: nat)
    requires k < |DataAttributes|
    requires NonEmptyAttr(e, AttrName(DataAttributes[k])).Some?
    requires ParseAttribute(DataAttributes[k], e.attrs[AttrName(DataAttributes[k])], loose).Some?
    requires forall j :: 0 <= j < k ==> AttrReader(e, loose)(DataAttributes[j]).None?
    ensures ElementSource(e, loose) == ParseAttribute(DataAttributes[k], e.attrs[AttrName(DataAttributes[k])], loose)
  {
    FirstSomeAt(DataAttributes, AttrReader(e, loose), k);
  }

  /** A `data-insp-path` value with fewer than three parts does not stop the
      search: the next attribute is tried. */
  lemma ShortInspPathFallsThrough(e: Element, loose: LooseAttrs)
    requires "data-insp-path" in e.attrs && |Split(e.attrs["data-insp-path"], ':')| < 3
    ensures ElementSource(e, loose) == FirstSome(DataAttributes[1..], AttrReader(e, loose))
  {
    FirstSomeCons(DataAttributes[0], DataAttributes[1..], AttrReader(e, loose));
    assert [DataAttributes[0]] + DataAttributes[1..] == DataAttributes;
  }

  /** `getSourceInfo`: the nearest element of the lineage whose attributes
      denote a source (`OwnThenAncestors` relates this to the two loops of
      the adapter). */
  function GetSourceInfo(e: Element, loose: LooseAttrs): (r: Option<SourceInfo>)
    ensures ElementSource(e, loose).Some? ==> r == ElementSource(e, loose)
    ensures r.Some? ==> r.value.componentName == ExtractComponentName(r.value.fileName)
  {
    var r := FirstSome(Lineage(e), Reader(loose));
    assert r.Some? ==> r.value.componentName == ExtractComponentName(r.value.fileName) by {
      if r.Some? {
        var lineage := Lineage(e);
        var i :| 0 <= i < |lineage| && Reader(loose)(lineage[i]) == r;
        assert ElementSource(lineage[i], loose) == r;
      }
    }
    r
  }

  /** The loops of `getSourceInfo` as written: the element's own
      attributes, then the walk from its parent up. They agree with the
      search along the lineage. */
  lemma {:induction false} OwnThenAncestors(e: Element, loose: LooseAttrs)
    ensures GetSourceInfo(e, loose)
      == if ElementSource(e, loose).Some? then ElementSource(e, loose) else WalkFrom(e.parent, Reader(loose))
  {
    var rest := if e.parent.None? then [] else Lineage(e.parent.value);
    assert Lineage(e) == [e] + rest;
    FirstSomeCons(e, rest, Reader(loose));
  }

  /** `getElementInfo`. */
  function GetElementInfo(e: Element, loose: LooseAttrs): (r: Option<ElementInfo>)
    ensures r.None? <==> GetSourceInfo(e, loose).None?
    ensures r.Some? ==>
      r.value.source == GetSourceInfo(e, loose).value
      && r.value.componentName == r.value.source.componentName
  {
    Describe(e, GetSourceInfo(e, loose))
  }
}

=== FILE: dom.dfy ===
/** The page as the adapters see it: an element tree whose nodes carry
    attributes and the private properties UI frameworks attach to them, and
    the records the adapters produce (`SourceInfo`, `ElementInfo`,
    `ComponentNode`, mirroring `src/shared/types.ts`). */
module Dom {
  import opened Options
  import opened Search

  // ---------------------------------------------------------------------------
  // What the adapters produce

  /** A source location. `line` is `None` when the number read was `NaN`;
      `column` is `None` when it is absent or `NaN` (both are falsy in every
      consumer). `componentName` is "" when absent. */
  datatype SourceInfo = SourceInfo(
    fileName: string,
    line: Option<int>,
    column: Option<int>,
    componentName: string)

  /** A JavaScript value as far as the prop serialiser distinguishes them.
      `JsReactElement` carries `type.name || type` ("" when neither). */
  datatype JsValue =
    | JsNull
    | JsUndefined
    | JsBool(b: bool)
    | JsNumber(n: int)
    | JsString(s: string)
    | JsFunction(name: string)
    | JsArray(items: seq<JsValue>)
    | JsReactElement(typeLabel: string)
    | JsObject(entries: seq<(string, JsValue)>)

  /** An object's own enumerable entries, in `Object.entries` order (keys
      are distinct). */
  type Props = seq<(string, JsValue)>

  /** A prop value as the panel displays it, after serialisation: text,
      numbers and booleans, and short arrays and objects of such values. */
  datatype Shown =
    | ShownText(text: string)
    | ShownNumber(n: int)
    | ShownBool(b: bool)
    | ShownList(items: seq<Shown>)
    | ShownRecord(fields: seq<(string, Shown)>)

  type ShownProps = seq<(string, Shown)>

  /** One row of the component hierarchy shown in the panel. */
  datatype ComponentNode = ComponentNode(
    name: string,
    source: Option<SourceInfo>,
    props: Option<ShownProps>,
    isCurrentTarget: bool)

  /** The descriptor the overlay renders. Only the React adapter fills the
      optional parts. */
  datatype ElementInfo = ElementInfo(
    source: SourceInfo,
    componentName: string,
    tagName: string,
    hierarchy: Option<seq<ComponentNode>>,
    props: Option<ShownProps>,
    element: Option<Element>,
    className: Option<string>,
    style: Option<map<string, string>>)

  // ---------------------------------------------------------------------------
  // Framework metadata attached to elements

  /** `{ fileName, lineNumber, columnNumber? }` as React (`_debugSource`) and
      Preact (`__source`) record it. */
  datatype DebugSource = DebugSource(fileName: string, lineNumber: int, columnNumber: Option<int>)

  /** The `type` of a React fiber or a Preact vnode: absent (or the empty
      string), a host tag name, or a component with its `displayName` and
      `name` ("" when absent). */
  datatype ComponentType =
    | NoType
    | HostType(tag: string)
    | UserType(displayName: string, name: string)

  /** A debug record as a source location, copied without conversion. */
  function Located(ds: DebugSource, name: string): (r: SourceInfo)
    ensures DebugRecord(r) == ds && r.componentName == name
    ensures r.line.Some?
  {
    SourceInfo(ds.fileName, Some(ds.lineNumber), ds.columnNumber, name)
  }

  /** The debug record a copied location came from. */
  function DebugRecord(s: SourceInfo): DebugSource {
    DebugSource(s.fileName, s.line.GetOr(0), s.column)
  }

  /** The display name of a component type, as both React's
      `getFiberName` and Preact's `getVNodeName` compute it: 'Unknown' for a
      missing (or empty) type, the tag of a host element, and otherwise
      `displayName || name || 'Anonymous'`. */
  function TypeName(t: ComponentType): (r: string)
    ensures r != ""
    ensures t.NoType? || t == HostType("") ==> r == "Unknown"
    ensures t.HostType? && t.tag != "" ==> r == t.tag
    ensures t.UserType? && t.displayName != "" ==> r == t.displayName
    ensures t.UserType? && t.displayName == "" && t.name != "" ==> r == t.name
    ensures t.UserType? && t.displayName == "" && t.name == "" ==> r == "Anonymous"
  {
    match t
    case NoType => "Unknown"
    case HostType(tag) => if tag == "" then "Unknown" else tag
    case UserType(displayName, name) =>
      if displayName != "" then displayName else if name != "" then name else "Anonymous"
  }

  /** A React fiber: its `type`, the `return` (parent) fiber, props, and the
      development-build `_debugSource` and `_debugOwner`. */
  datatype Fiber = Fiber(
    fiberType: ComponentType,
    returnFiber: Option<Fiber>,
    memoizedProps: Option<Props>,
    pendingProps: Option<Props>,
    debugSource: Option<DebugSource>,
    debugOwner: Option<Fiber>)

  /** An element's `__reactFiber$…` / `__reactInternalInstance$…` property:
      absent, or present with the value it holds (possibly null). */
  datatype FiberSlot = NoFiberKey | FiberKey(fiber: Option<Fiber>)

  /** Svelte's `__svelte_meta.loc`, with 0-based line and column. */
  datatype SvelteLoc = SvelteLoc(file: string, line: int, column: int)

  datatype SvelteMeta = SvelteMeta(loc: Option<SvelteLoc>)

  /** Vue 3 `type` (`__file`, `__name`, `name`) or Vue 2 `$options`
      (`__file`, `name`); "" stands for an absent string. */
  datatype VueComponentType = VueComponentType(file: string, setupName: string, name: string)

  datatype VueOptions = VueOptions(file: string, name: string)

  datatype VueComponent = VueComponent(
    componentType: Option<VueComponentType>,
    options: Option<VueOptions>)

  /** Preact's `_component`: the component instance `__c` (its constructor's
      `displayName`/`name` and `__source`) and the vnode `__v`. */
  datatype PreactConstructor = PreactConstructor(displayName: string, name: string)

  datatype PreactInstance = PreactInstance(ctor: Option<PreactConstructor>, source: Option<DebugSource>)

  datatype PreactVNode = PreactVNode(vnodeType: ComponentType, source: Option<DebugSource>)

  datatype PreactComponent = PreactComponent(instance: Option<PreactInstance>, vnode: Option<PreactVNode>)

  // ---------------------------------------------------------------------------
  // Elements

  /** A DOM element with its `parentElement`. `outerHTML` is opaque text.
      `classNameIsString` is false for an SVG element, whose `className`
      is an `SVGAnimatedString` object with a getter and no setter, so that
      assigning to it throws a `TypeError` in strict-mode code. */
  datatype Element = Element(
    tagName: string,
    attrs: map<string, string>,
    classNameIsString: bool,
    outerHTML: string,
    svelteMeta: Option<SvelteMeta>,
    vueParentComponent: Option<VueComponent>,
    vue2Instance: Option<VueComponent>,
    preactAttr: bool,
    preactComponent: Option<PreactComponent>,
    reactSlot: FiberSlot,
    parent: Option<Element>)

  /** `getAttribute(name)`. */
  function Attr(e: Element, name: string): Option<string> {
    if name in e.attrs then Some(e.attrs[name]) else None
  }

  /** `getAttribute(name)` in a truthiness test: an empty value counts as
      absent. */
  function NonEmptyAttr(e: Element, name: string): (r: Option<string>)
    ensures r.Some? <==> name in e.attrs && e.attrs[name] != ""
    ensures r.Some? ==> r.value == e.attrs[name]
  {
    if name in e.attrs && e.attrs[name] != "" then Some(e.attrs[name]) else None
  }

  /** The element's `class` attribute, which an HTML element's `className`
      reflects. */
  function ClassName(e: Element): string {
    Attr(e, "class").GetOr("")
  }

  /** `typeof className === 'string' ? className : ''`: the class of an
      HTML element, and nothing for an SVG element, whatever its `class`
      attribute holds. */
  function StringClassName(e: Element): (r: string)
    ensures e.classNameIsString ==> r == ClassName(e)
    ensures !e.classNameIsString ==> r == ""
    ensures r != "" ==> "class" in e.attrs && r == e.attrs["class"]
  {
    if e.classNameIsString then ClassName(e) else ""
  }

  /** `element.getAttribute('style') || ''`. */
  function StyleAttr(e: Element): string {
    Attr(e, "style").GetOr("")
  }

  /** The element followed by its ancestors, nearest first. */
  function Lineage(e: Element): (r: seq<Element>)
    ensures |r| >= 1 && r[0] == e
    ensures e.parent.None? ==> r == [e]
    decreases e
  {
    match e.parent
    case None => [e]
    case Some(p) => [e] + Lineage(p)
  }

  /** The loop `while (current) { …; current = current.parentElement; }`:
      the first answer `f` gives on `current` or one of its ancestors. */
  function WalkFrom<T>(current: Option<Element>, f: Element -> Option<T>): (r: Option<T>)
    ensures current.None? ==> r.None?
    ensures current.Some? ==> r == FirstSome(Lineage(current.value), f)
    decreases current
  {
    match current
    case None => None
    case Some(e) =>
      if f(e).Some? then
        FirstSomeCons(e, [], f);
        f(e)
      else
        var r := WalkFrom(e.parent, f);
        FirstSomeCons(e, if e.parent.None? then [] else Lineage(e.parent.value), f);
        r
  }
}

=== FILE: editors.dfy ===
/** Editor links (`src/shared/editors.ts`): the table of supported editors
    and their URL schemes, the link builder, and the editor list the popup
    shows. */
module Editors {
  import opened Options
  import opened Text
  import opened Search
  import opened Sorting
  import opened Dom

  /** The URL templates the table uses, by their layout: `head` is the
      scheme and path up to the file path. `ColonLayout(h)` is
      `h{filePath}:{line}:{column}`; `QueryLayout(h, true)` is
      `h{filePath}&line={line}&column={column}`, and without the column
      part when `column` is false; `NoTemplate` is the empty template. */
  datatype Layout = ColonLayout(head: string) | QueryLayout(head: string, column: bool) | NoTemplate

  /** `EditorConfig`; the URL template is the rendering of `layout`. */
  datatype EditorConfig = EditorConfig(id: string, name: string, layout: Layout)

  /** The template text of a layout. */
  function Render(layout: Layout): string {
    match layout
    case ColonLayout(head) => head + "{filePath}" + ":" + "{line}" + ":" + "{column}"
    case QueryLayout(head, true) => head + "{filePath}" + "&line=" + "{line}" + "&column=" + "{column}"
    case QueryLayout(head, false) => head + "{filePath}" + "&line=" + "{line}"
    case NoTemplate => ""
  }

  function UrlTemplate(config: EditorConfig): string {
    Render(config.layout)
  }

  /** `EDITORS`, as its (key, value) entries in insertion order. */
  const Table: seq<(string, EditorConfig)> := [
    ("vscode", EditorConfig("vscode", "VS Code", ColonLayout("vscode://file/"))),
    ("vscode-insiders", EditorConfig("vscode-insiders", "VS Code Insiders", ColonLayout("vscode-insiders://file/"))),
    ("cursor", EditorConfig("cursor", "Cursor", ColonLayout("cursor://file/"))),
    ("windsurf", EditorConfig("windsurf", "Windsurf", ColonLayout("windsurf://file/"))),
    ("zed", EditorConfig("zed", "Zed", ColonLayout("zed://file/"))),
    ("webstorm", EditorConfig("webstorm", "WebStorm", QueryLayout("webstorm://open?file=", true))),
    ("phpstorm", EditorConfig("phpstorm", "PhpStorm", QueryLayout("phpstorm://open?file=", true))),
    ("idea", EditorConfig("idea", "IntelliJ IDEA", QueryLayout("idea://open?file=", true))),
    ("pycharm", EditorConfig("pycharm", "PyCharm", QueryLayout("pycharm://open?file=", true))),
    ("goland", EditorConfig("goland", "GoLand", QueryLayout("goland://open?file=", true))),
    ("rubymine", EditorConfig("rubymine", "RubyMine", QueryLayout("rubymine://open?file=", true))),
    ("rider", EditorConfig("rider", "Rider", QueryLayout("rider://open?file=", true))),
    ("sublime", EditorConfig("sublime", "Sublime Text", QueryLayout("subl://open?url=file://", true))),
    ("atom", EditorConfig("atom", "Atom", QueryLayout("atom://core/open/file?filename=", true))),
    ("vim", EditorConfig("vim", "MacVim", QueryLayout("mvim://open?url=file://", false))),
    ("emacs", EditorConfig("emacs", "Emacs", QueryLayout("emacs://open?url=file://", false))),
    ("android-studio", EditorConfig("android-studio", "Android Studio", QueryLayout("idea://open?file=", true))),
    ("clion", EditorConfig("clion", "CLion", QueryLayout("clion://open?file=", true))),
    ("fleet", EditorConfig("fleet", "Fleet", QueryLayout("fleet://open?file=", true))),
    ("nova", EditorConfig("nova", "Nova", QueryLayout("nova://open?path=", false))),
    ("textmate", EditorConfig("textmate", "TextMate", QueryLayout("txmt://open?url=file://", true))),
    ("brackets", EditorConfig("brackets", "Brackets", QueryLayout("brackets://open?url=file://", false))),
    ("antigravity", EditorConfig("antigravity", "Antigravity (Google)", QueryLayout("anthropic://open?file=", true))),
    ("custom", EditorConfig("custom", "Custom", NoTemplate))
  ]

  /** Every entry is filed under its own id. */
  lemma TableKeysAreIds()
    ensures forall i :: 0 <= i < |Table| ==> Table[i].0 == Table[i].1.id
  {
  }

  /** Only the custom entry has no URL template. */
  lemma TableTemplates()
    ensures forall i :: 0 <= i < |Table| ==> (Table[i].1.layout.NoTemplate? <==> Table[i].0 == "custom")
  {
  }

  /** No template head contains a '{'. */
  lemma TableHeads()
    ensures forall i :: 0 <= i < |Table| && !Table[i].1.layout.NoTemplate? ==> '{' !in Table[i].1.layout.head
  {
    HeadsPlain0();
    HeadsPlain1();
    HeadsPlain2();
    HeadsPlain3();
    HeadsPlain4();
    HeadsPlain5();
    HeadsPlain6();
    HeadsPlain7();
  }

  // The heads, a few at a time.

  lemma HeadsPlain0()
    ensures '{' !in "vscode://file/"
      && '{' !in "vscode-insiders://file/"
      && '{' !in "cursor://file/"
  {
  }

  lemma HeadsPlain1()
    ensures '{' !in "windsurf://file/"
      && '{' !in "zed://file/"
      && '{' !in "webstorm://open?file="
  {
  }

  lemma HeadsPlain2()
    ensures '{' !in "phpstorm://open?file="
      && '{' !in "idea://open?file="
      && '{' !in "pycharm://open?file="
  {
  }

  lemma HeadsPlain3()
    ensures '{' !in "goland://open?file="
      && '{' !in "rubymine://open?file="
      && '{' !in "rider://open?file="
  {
  }

  lemma HeadsPlain4()
    ensures '{' !in "subl://open?url=file://"
      && '{' !in "atom://core/open/file?filename="
      && '{' !in "mvim://open?url=file://"
  {
  }

  lemma HeadsPlain5()
    ensures '{' !in "emacs://open?url=file://"
      && '{' !in "clion://open?file="
      && '{' !in "fleet://open?file="
  {
  }

  lemma HeadsPlain6()
    ensures '{' !in "nova://open?path="
      && '{' !in "txmt://open?url=file://"
      && '{' !in "brackets://open?url=file://"
  {
  }

  lemma HeadsPlain7()
    ensures '{' !in "anthropic://open?file="
  {
  }

  /** The first entry of `entries` filed under `id`. */
  function LookupIn(entries: seq<(string, EditorConfig)>, id: string): (r: Option<EditorConfig>)
    ensures r.None? <==> forall i :: 0 <= i < |entries| ==> entries[i].0 != id
    ensures r.Some? ==> exists i :: 0 <= i < |entries| && entries[i] == (id, r.value)
  {
    if |entries| == 0 then None
    else if entries[0].0 == id then Some(entries[0].1)
    else
      var r := LookupIn(entries[1..], id);
      assert forall i :: 1 <= i < |entries| ==> entries[i] == entries[1..][i - 1];
      r
  }

  /** `EDITORS[editorId]`. */
  function Lookup(id: string): Option<EditorConfig> {
    LookupIn(Table, id)
  }

  /** The editor found under an id has that id, and is one of the table's
      editors; ids outside the table find nothing. */
  lemma LookupFinds(id: string)
    ensures Lookup(id).None? <==> forall i :: 0 <= i < |Table| ==> Table[i].0 != id
    ensures Lookup(id).Some? ==> Lookup(id).value.id == id && Lookup(id).value in Values()
  {
    if Lookup(id).Some? {
      TableKeysAreIds();
      var i :| 0 <= i < |Table| && Table[i] == (id, Lookup(id).value);
      assert Values()[i] == Table[i].1;
    }
  }

  /** `Object.values(EDITORS)`. */
  function Values(): (r: seq<EditorConfig>)
    ensures |r| == |Table|
    ensures forall i :: 0 <= i < |Table| ==> r[i] == Table[i].1
  {
    seq(|Table|, i requires 0 <= i < |Table| => Table[i].1)
  }

  // ---------------------------------------------------------------------------
  // The file path

  predicate StartsWithSlash(s: string) {
    |s| > 0 && s[0] == '/'
  }

  /** No two slashes in a row. */
  predicate NoDoubleSlash(s: string) {
    forall i :: 0 <= i < |s| - 1 ==> !(s[i] == '/' && s[i + 1] == '/')
  }

  predicate EndsWithSlash(s: string) {
    |s| > 0 && s[|s| - 1] == '/'
  }

  /** The '/'-separated pieces of `s`, empty pieces dropped: a character
      other than '/' starts a new piece after a slash (or at the end of the
      string) and otherwise joins the piece that follows it. */
  function Pieces(s: string): (r: seq<string>)
    ensures |s| > 0 && s[0] != '/' ==> |r| > 0 && |r[0]| > 0 && r[0][0] == s[0]
    ensures forall i :: 0 <= i < |r| ==> r[i] != "" && '/' !in r[i]
    decreases |s|
  {
    if |s| == 0 then []
    else
      var rest := Pieces(s[1..]);
      if s[0] == '/' then rest
      else if |s| > 1 && s[1] != '/' then [[s[0]] + rest[0]] + rest[1..]
      else [[s[0]]] + rest
  }

  /** Joining two texts with a slash joins their pieces. */
  lemma {:induction false} PiecesJoin(a: string, b: string)
    ensures Pieces(a + "/" + b) == Pieces(a) + Pieces(b)
    decreases |a|
  {
    if |a| == 0 {
      assert a + "/" + b == ['/'] + b;
      PiecesCons('/', b);
    } else {
      var x, a' := a[0], a[1..];
      var t' := a' + "/" + b;
      assert a + "/" + b == [x] + t' && a == [x] + a';
      PiecesJoin(a', b);
      if x == '/' {
        PiecesCons(x, t');
        PiecesCons(x, a');
      } else if |a'| > 0 && a'[0] != '/' {
        assert t'[0] == a'[0];
        PiecesCons(x, t');
        PiecesCons(x, a');
        FirstPieceGrows(x, Pieces(a'), Pieces(b));
      } else {
        assert t'[0] == '/';
        PiecesCons(x, t');
        PiecesCons(x, a');
      }
    }
  }

  /** Growing the first piece commutes with appending more pieces. */
  lemma FirstPieceGrows(x: char, pa: seq<string>, pb: seq<string>)
    requires |pa| > 0
    ensures [[x] + (pa + pb)[0]] + (pa + pb)[1..] == ([[x] + pa[0]] + pa[1..]) + pb
  {
    assert (pa + pb)[0] == pa[0] && (pa + pb)[1..] == pa[1..] + pb;
  }

  /** A string without "//" whose pieces are all gone is "" or "/". */
  lemma NoPiecesShort(s: string)
    requires NoDoubleSlash(s) && Pieces(s) == []
    ensures |s| <= 1
  {
  }

  /** A string without "//" is determined by its pieces and by whether it
      starts and ends with a slash. */
  lemma {:induction false} SlashFormUnique(a: string, b: string)
    requires NoDoubleSlash(a) && NoDoubleSlash(b) && Pieces(a) == Pieces(b)
    requires StartsWithSlash(a) == StartsWithSlash(b) && EndsWithSlash(a) == EndsWithSlash(b)
    ensures a == b
    decreases |a| + |b|
  {
    if |a| == 0 || |b| == 0 {
      NoPiecesShort(a);
      NoPiecesShort(b);
    } else {
      var a', b' := a[1..], b[1..];
      assert NoDoubleSlash(a') by {
        forall i | 0 <= i < |a'| - 1 ensures !(a'[i] == '/' && a'[i + 1] == '/') {
          assert a'[i] == a[i + 1] && a'[i + 1] == a[i + 2];
        }
      }
      assert NoDoubleSlash(b') by {
        forall i | 0 <= i < |b'| - 1 ensures !(b'[i] == '/' && b'[i + 1] == '/') {
          assert b'[i] == b[i + 1] && b'[i + 1] == b[i + 2];
        }
      }
      var pa, pb := Pieces(a'), Pieces(b');
      if a[0] == '/' {
        assert b[0] == '/';
        if |a'| > 0 && |b'| > 0 {
          assert a'[0] == a[1] && b'[0] == b[1];
          assert a'[|a'| - 1] == a[|a| - 1] && b'[|b'| - 1] == b[|b| - 1];
          SlashFormUnique(a', b');
          assert a == [a[0]] + a' && b == [b[0]] + b';
        }
      } else {
        assert a[0] == Pieces(a)[0][0] == b[0];
        var joinA := |a| > 1 && a[1] != '/';
        var joinB := |b| > 1 && b[1] != '/';
        if joinA && !joinB {
          assert false;
        } else if joinB && !joinA {
          assert false;
        } else if joinA {
          assert Pieces(a) == [[a[0]] + pa[0]] + pa[1..] && Pieces(b) == [[b[0]] + pb[0]] + pb[1..];
          assert [a[0]] + pa[0] == [b[0]] + pb[0];
          assert pa[0] == ([a[0]] + pa[0])[1..] == ([b[0]] + pb[0])[1..] == pb[0];
          assert pa[1..] == Pieces(a)[1..] == Pieces(b)[1..] == pb[1..];
          assert pa == [pa[0]] + pa[1..] && pb == [pb[0]] + pb[1..];
          assert a'[0] == a[1] && b'[0] == b[1];
          assert a'[|a'| - 1] == a[|a| - 1] && b'[|b'| - 1] == b[|b| - 1];
          SlashFormUnique(a', b');
          assert a == [a[0]] + a' && b == [b[0]] + b';
        } else {
          assert pa == Pieces(a)[1..] == Pieces(b)[1..] == pb;
          if |a'| == 0 || |b'| == 0 {
            assert |a| == |b| == 1;
          } else {
            assert a'[0] == a[1] && b'[0] == b[1];
            assert a'[|a'| - 1] == a[|a| - 1] && b'[|b'| - 1] == b[|b| - 1];
            SlashFormUnique(a', b');
            assert a == [a[0]] + a' && b == [b[0]] + b';
          }
        }
      }
    }
  }

  /** `s.replace(/\/+/g, '/')`: every run of slashes becomes one slash. The
      pieces between the runs are kept, and so are a leading and a trailing
      slash; with `SlashFormUnique` this determines the result. */
  function CollapseSlashes(s: string): (r: string)
    ensures NoDoubleSlash(r)
    ensures Pieces(r) == Pieces(s)
    ensures StartsWithSlash(r) <==> StartsWithSlash(s)
    ensures EndsWithSlash(r) <==> EndsWithSlash(s)
    ensures r == "" <==> s == ""
    ensures NoDoubleSlash(s) ==> r == s
    ensures forall c :: c in r ==> c in s
  {
    if |s| <= 1 then s
    else if s[0] == '/' && s[1] == '/' then
      var r := CollapseSlashes(s[1..]);
      assert s[1..][0] == '/';
      assert s[1..][|s| - 2] == s[|s| - 1];
      r
    else
      var rest := CollapseSlashes(s[1..]);
      CollapseStep(s, rest);
      [s[0]] + rest
  }

  /** The step of `CollapseSlashes` that keeps the first character: what
      the collapsed rest promises carries over to the whole. */
  lemma CollapseStep(s: string, rest: string)
    requires |s| > 1 && !(s[0] == '/' && s[1] == '/')
    requires NoDoubleSlash(rest) && Pieces(rest) == Pieces(s[1..])
    requires (StartsWithSlash(rest) <==> StartsWithSlash(s[1..])) && (EndsWithSlash(rest) <==> EndsWithSlash(s[1..]))
    requires rest != "" && (NoDoubleSlash(s[1..]) ==> rest == s[1..])
    ensures NoDoubleSlash([s[0]] + rest) && Pieces([s[0]] + rest) == Pieces(s)
    ensures EndsWithSlash([s[0]] + rest) <==> EndsWithSlash(s)
    ensures NoDoubleSlash(s) ==> [s[0]] + rest == s
  {
    var r := [s[0]] + rest;
    assert Pieces(r) == Pieces(s) by {
      assert s[1..][0] == s[1];
      PiecesCons(s[0], rest);
      PiecesCons(s[0], s[1..]);
      assert s == [s[0]] + s[1..];
    }
    assert EndsWithSlash(r) <==> EndsWithSlash(s) by {
      assert s[1..][|s| - 2] == s[|s| - 1];
      assert r[|r| - 1] == rest[|rest| - 1];
    }
    assert NoDoubleSlash(r) by {
      assert s[1..][0] == s[1];
      forall i | 0 <= i < |r| - 1 ensures !(r[i] == '/' && r[i + 1] == '/') {
        if i > 0 { assert r[i] == rest[i - 1] && r[i + 1] == rest[i]; }
      }
    }
    assert s == [s[0]] + s[1..];
    assert NoDoubleSlash(s) ==> NoDoubleSlash(s[1..]) by {
      if NoDoubleSlash(s) {
        forall i | 0 <= i < |s[1..]| - 1 ensures !(s[1..][i] == '/' && s[1..][i + 1] == '/') {
          assert s[1..][i] == s[i + 1] && s[1..][i + 1] == s[i + 2];
        }
      }
    }
  }

  /** The pieces of a string in terms of its first character and the rest. */
  lemma PiecesCons(c: char, t: string)
    ensures Pieces([c] + t) ==
      if c == '/' then Pieces(t)
      else if |t| > 0 && t[0] != '/' then [[c] + Pieces(t)[0]] + Pieces(t)[1..]
      else [[c]] + Pieces(t)
  {
    assert ([c] + t)[1..] == t;
  }

  /** Collapsing is the only way to reach a string without "//" that keeps
      the pieces and the leading and trailing slashes. */
  lemma CollapseDetermined(s: string, r: string)
    requires NoDoubleSlash(r) && Pieces(r) == Pieces(s)
    requires StartsWithSlash(r) == StartsWithSlash(s) && EndsWithSlash(r) == EndsWithSlash(s)
    ensures r == CollapseSlashes(s)
  {
    SlashFormUnique(r, CollapseSlashes(s));
  }

  /** The path put into the link: the file name, with the project prefix
      and a '/' before it when the prefix is set and the name is relative
      (slash runs then collapsed), and with a leading '/' added when still
      missing. In the prefixed case the result is the prefix's pieces
      followed by the file's, '/'-separated with no "//", and it ends with
      a slash exactly when the file name is empty or ends with one. */
  function FilePath(fileName: string, prefix: string): (r: string)
    ensures StartsWithSlash(r)
    ensures StartsWithSlash(fileName) ==> r == fileName
    ensures !StartsWithSlash(fileName) && prefix == "" ==> r == "/" + fileName
    ensures !StartsWithSlash(fileName) && prefix != "" ==>
      NoDoubleSlash(r) && Pieces(r) == Pieces(prefix) + Pieces(fileName)
      && (EndsWithSlash(r) <==> fileName == "" || EndsWithSlash(fileName))
    ensures forall c :: c in r ==> c == '/' || c in prefix || c in fileName
  {
    var joined := if prefix != "" && !StartsWithSlash(fileName) then CollapseSlashes(prefix + "/" + fileName) else fileName;
    var r := if StartsWithSlash(joined) then joined else "/" + joined;
    assert !StartsWithSlash(fileName) && prefix != "" ==>
      NoDoubleSlash(r) && Pieces(r) == Pieces(prefix) + Pieces(fileName)
      && (EndsWithSlash(r) <==> fileName == "" || EndsWithSlash(fileName))
    by {
      if !StartsWithSlash(fileName) && prefix != "" {
        var t := prefix + "/" + fileName;
        PiecesJoin(prefix, fileName);
        assert t[|t| - 1] == if fileName == "" then '/' else fileName[|fileName| - 1];
        if !StartsWithSlash(joined) {
          assert ("/" + joined)[1..] == joined;
          assert joined != "";
          assert r[|r| - 1] == joined[|joined| - 1];
        }
      }
    }
    r
  }

  /** A non-empty text without '/' is a single piece. */
  lemma {:induction false} PiecesOfWord(w: string)
    requires w != "" && '/' !in w
    ensures Pieces(w) == [w]
    decreases |w|
  {
    assert w[0] in w;
    PiecesCons(w[0], w[1..]);
    assert w == [w[0]] + w[1..];
    if |w| > 1 {
      assert w[1..][0] == w[1] && w[1] in w;
      assert forall c :: c in w[1..] ==> c in w;
      PiecesOfWord(w[1..]);
      assert Pieces(w) == [[w[0]] + w[1..]] + [w[1..]][1..];
    } else {
      assert w[1..] == [] && Pieces(w[1..]) == [] && [w[0]] == w;
    }
  }

  /** "/a/b" for slash-free non-empty a and b has the pieces a and b. */
  lemma TwoPieces(a: string, b: string, t: string)
    requires a != "" && '/' !in a && b != "" && '/' !in b && t == "/" + a + "/" + b
    ensures Pieces(t) == [a, b]
  {
    calc {
      Pieces(t);
      { assert t == ['/'] + (a + "/" + b); PiecesCons('/', a + "/" + b); }
      Pieces(a + "/" + b);
      { PiecesJoin(a, b); }
      Pieces(a) + Pieces(b);
      { PiecesOfWord(a); PiecesOfWord(b); }
      [a] + [b];
    }
  }

  lemma TwoPiecesSingleSlashes(a: string, b: string)
    requires a != "" && '/' !in a && '/' !in b
    ensures NoDoubleSlash("/" + a + "/" + b)
  {
    var t := "/" + a + "/" + b;
    forall i | 0 <= i < |t| - 1 ensures !(t[i] == '/' && t[i + 1] == '/') {
      if i == 0 { assert t[1] == a[0] && a[0] in a; }
      else if i <= |a| { assert t[i] == a[i - 1] && a[i - 1] in a; }
      else { assert t[i + 1] == b[i - |a| - 1] && b[i - |a| - 1] in b; }
    }
  }

  /** A relative file under a slash-free prefix lands at "/prefix/file". */
  lemma FilePathUnderPrefix(fileName: string, prefix: string)
    requires prefix != "" && '/' !in prefix && fileName != "" && '/' !in fileName
    ensures FilePath(fileName, prefix) == "/" + prefix + "/" + fileName
  {
    var r := FilePath(fileName, prefix);
    assert fileName[0] in fileName && fileName[|fileName| - 1] in fileName;
    assert Pieces(r) == [prefix, fileName] by {
      PiecesOfWord(prefix);
      PiecesOfWord(fileName);
    }
    var t := "/" + prefix + "/" + fileName;
    TwoPieces(prefix, fileName, t);
    TwoPiecesSingleSlashes(prefix, fileName);
    assert t[|t| - 1] == fileName[|fileName| - 1];
    SlashFormUnique(r, t);
  }

  /** `String(n || 1)`: 0 and NaN (`None`) become 1. */
  function NumberText(n: Option<int>): (r: string)
    ensures ParseInt(r) == Some(if n.None? || n.value == 0 then 1 else n.value)
    ensures forall c :: c in r ==> c == '-' || IsDigit(c)
  {
    var v := if n.None? || n.value == 0 then 1 else n.value;
    ParseIntToString(v);
    IntToString(v)
  }

  // ---------------------------------------------------------------------------
  // Building the link

  /** The template used: the custom URL for the custom editor when one is
      set, otherwise the table's. */
  function TemplateFor(id: string, config: EditorConfig, customUrl: string): string {
    if id == "custom" && customUrl != "" then customUrl else UrlTemplate(config)
  }

  /** The three placeholder replacements, each of the first occurrence
      only, `{filePath}` first. */
  function Substitute(template: string, path: string, line: string, column: string): string {
    ReplaceFirst(ReplaceFirst(ReplaceFirst(template, "{filePath}", path), "{line}", line), "{column}", column)
  }

  /** `buildEditorUrl`: an unknown editor and an editor without a template
      are errors; otherwise the template with the file path, the line and
      the column put in. */
  function BuildEditorUrl(id: string, source: SourceInfo, prefix: string, customUrl: string): (r: Result<string, string>)
    ensures Lookup(id).None? ==> r == Err("Unknown editor: " + id)
    ensures Lookup(id).Some? && TemplateFor(id, Lookup(id).value, customUrl) == "" ==>
      r == Err("No URL template for editor: " + id)
    ensures r.Ok? <==> Lookup(id).Some? && TemplateFor(id, Lookup(id).value, customUrl) != ""
    ensures r.Ok? ==>
      r.value == Substitute(TemplateFor(id, Lookup(id).value, customUrl),
                               FilePath(source.fileName, prefix), NumberText(source.line), NumberText(source.column))
  {
    match Lookup(id)
    case None => Err("Unknown editor: " + id)
    case Some(config) =>
      var template := TemplateFor(id, config, customUrl);
      if template == "" then Err("No URL template for editor: " + id)
      else Ok(Substitute(template, FilePath(source.fileName, prefix), NumberText(source.line), NumberText(source.column)))
  }

  /** Every table entry except the custom one always yields a link; the
      custom one yields a link exactly when a custom URL is set. */
  lemma BuildEditorUrlSucceeds(id: string, source: SourceInfo, prefix: string, customUrl: string)
    requires Lookup(id).Some?
    ensures BuildEditorUrl(id, source, prefix, customUrl).Ok? <==> id != "custom" || customUrl != ""
  {
    TableTemplates();
    LookupTemplate(Table, id);
    RenderEmpty(Lookup(id).value.layout);
  }

  /** In a table whose heads hold no '{', neither does the head of the
      entry an id finds. */
  lemma LookupHead(entries: seq<(string, EditorConfig)>, id: string)
    requires forall i :: 0 <= i < |entries| && !entries[i].1.layout.NoTemplate? ==> '{' !in entries[i].1.layout.head
    requires LookupIn(entries, id).Some? && !LookupIn(entries, id).value.layout.NoTemplate?
    ensures '{' !in LookupIn(entries, id).value.layout.head
  {
    var i :| 0 <= i < |entries| && entries[i] == (id, LookupIn(entries, id).value);
  }

  /** Only the missing template renders empty. */
  lemma RenderEmpty(layout: Layout)
    ensures Render(layout) == "" <==> layout.NoTemplate?
  {
    if !layout.NoTemplate? {
      assert |Render(layout)| > 0;
    }
  }

  /** In a table where only the custom entry lacks a template, so does the
      entry an id finds. */
  lemma LookupTemplate(entries: seq<(string, EditorConfig)>, id: string)
    requires forall i :: 0 <= i < |entries| ==> (entries[i].1.layout.NoTemplate? <==> entries[i].0 == "custom")
    requires LookupIn(entries, id).Some?
    ensures LookupIn(entries, id).value.layout.NoTemplate? <==> id == "custom"
  {
    var i :| 0 <= i < |entries| && entries[i] == (id, LookupIn(entries, id).value);
  }

  /** A layout with its slots filled. */
  function Place(layout: Layout, path: string, line: string, column: string): string {
    match layout
    case ColonLayout(head) => head + path + ":" + line + ":" + column
    case QueryLayout(head, true) => head + path + "&line=" + line + "&column=" + column
    case QueryLayout(head, false) => head + path + "&line=" + line
    case NoTemplate => ""
  }

  /** Substituting into a rendered layout fills each slot with its value,
      as long as neither the head, the path nor the line holds a '{'. */
  lemma SubstituteLayout(layout: Layout, path: string, line: string, column: string)
    requires !layout.NoTemplate? ==> '{' !in layout.head
    requires '{' !in path && '{' !in line
    ensures Substitute(Render(layout), path, line, column) == Place(layout, path, line, column)
  {
    match layout
    case ColonLayout(head) =>
      SubstituteInPlace(head, ":", ":", "", path, line, column);
      assert head + "{filePath}" + ":" + "{line}" + ":" + "{column}" + "" == Render(layout);
      assert head + path + ":" + line + ":" + column + "" == Place(layout, path, line, column);
    case QueryLayout(head, true) =>
      SubstituteInPlace(head, "&line=", "&column=", "", path, line, column);
      assert head + "{filePath}" + "&line=" + "{line}" + "&column=" + "{column}" + "" == Render(layout);
      assert head + path + "&line=" + line + "&column=" + column + "" == Place(layout, path, line, column);
    case QueryLayout(head, false) =>
      SubstituteWithoutColumn(head, "&line=", "", path, line, column);
      assert head + "{filePath}" + "&line=" + "{line}" + "" == Render(layout);
      assert head + path + "&line=" + line + "" == Place(layout, path, line, column);
    case NoTemplate =>
      ReplaceFirstAbsent("", "{filePath}", path);
      ReplaceFirstAbsent("", "{line}", line);
      ReplaceFirstAbsent("", "{column}", column);
  }

  /** For a table editor other than the custom one, the link is the
      editor's layout filled with the path, the line and the column, when
      the file name and the prefix hold no '{'. */
  lemma TableEditorLink(id: string, source: SourceInfo, prefix: string, customUrl: string)
    requires Lookup(id).Some? && id != "custom"
    requires '{' !in source.fileName && '{' !in prefix
    ensures BuildEditorUrl(id, source, prefix, customUrl)
         == Ok(Place(Lookup(id).value.layout, FilePath(source.fileName, prefix),
                     NumberText(source.line), NumberText(source.column)))
  {
    TableLookupPlain(id);
    ConfigLink(id, Lookup(id).value, source, prefix, customUrl);
  }

  /** Every table editor other than the custom one has a template whose
      head holds no '{'. */
  lemma TableLookupPlain(id: string)
    requires Lookup(id).Some? && id != "custom"
    ensures !Lookup(id).value.layout.NoTemplate? && '{' !in Lookup(id).value.layout.head
  {
    TableTemplates();
    TableHeads();
    LookupPlain(Table, id);
  }

  /** The link of an editor with a template whose head holds no '{'. */
  lemma ConfigLink(id: string, config: EditorConfig, source: SourceInfo, prefix: string, customUrl: string)
    requires id != "custom" && !config.layout.NoTemplate? && '{' !in config.layout.head
    requires '{' !in source.fileName && '{' !in prefix
    ensures TemplateFor(id, config, customUrl) == Render(config.layout) != ""
    ensures Substitute(TemplateFor(id, config, customUrl), FilePath(source.fileName, prefix),
                       NumberText(source.line), NumberText(source.column))
         == Place(config.layout, FilePath(source.fileName, prefix), NumberText(source.line), NumberText(source.column))
  {
    RenderEmpty(config.layout);
    var path := FilePath(source.fileName, prefix);
    assert '{' !in path;
    SubstituteLayout(config.layout, path, NumberText(source.line), NumberText(source.column));
  }

  /** In a table where only the custom entry lacks a template and no head
      holds a '{', the entry any other id finds has a template whose head
      holds no '{'. */
  lemma LookupPlain(entries: seq<(string, EditorConfig)>, id: string)
    requires forall i :: 0 <= i < |entries| ==> (entries[i].1.layout.NoTemplate? <==> entries[i].0 == "custom")
    requires forall i :: 0 <= i < |entries| && !entries[i].1.layout.NoTemplate? ==> '{' !in entries[i].1.layout.head
    requires LookupIn(entries, id).Some? && id != "custom"
    ensures !LookupIn(entries, id).value.layout.NoTemplate? && '{' !in LookupIn(entries, id).value.layout.head
  {
    LookupTemplate(entries, id);
    LookupHead(entries, id);
  }

  /** Replacing the first occurrence of a pattern whose first character
      does not occur before it. */
  lemma ReplaceFirstAt(x: string, pat: string, y: string, rep: string)
    requires |pat| > 0 && pat[0] !in x
    ensures ReplaceFirst(x + pat + y, pat, rep) == x + rep + y
  {
    var s := x + pat + y;
    assert OccursAt(s, pat, |x|) by {
      assert s[|x|..|x| + |pat|] == pat;
    }
    assert forall j :: 0 <= j < |x| ==> s[j] == x[j];
    assert s[..|x|] == x;
    assert s[|x| + |pat|..] == y;
  }

  /** Replacing a pattern whose first character does not occur at all
      changes nothing. */
  lemma ReplaceFirstAbsent(s: string, pat: string, rep: string)
    requires |pat| > 0 && pat[0] !in s
    ensures ReplaceFirst(s, pat, rep) == s
  {
  }

  /** A template of the shape `a{filePath}b{line}c{column}d`, whose literal
      parts before `{column}` have no '{', receives each value in its place
      (provided the path and the line carry no '{' either). */
  lemma SubstituteInPlace(a: string, b: string, c: string, d: string, path: string, line: string, column: string)
    requires '{' !in a && '{' !in b && '{' !in c && '{' !in path && '{' !in line
    ensures Substitute(a + "{filePath}" + b + "{line}" + c + "{column}" + d, path, line, column)
         == a + path + b + line + c + column + d
  {
    var t := a + "{filePath}" + b + "{line}" + c + "{column}" + d;
    var s1 := a + path + b + "{line}" + c + "{column}" + d;
    var s2 := a + path + b + line + c + "{column}" + d;
    assert ReplaceFirst(t, "{filePath}", path) == s1 by {
      var y := b + "{line}" + c + "{column}" + d;
      assert t == a + "{filePath}" + y;
      assert s1 == a + path + y;
      ReplaceFirstAt(a, "{filePath}", y, path);
    }
    assert ReplaceFirst(s1, "{line}", line) == s2 by {
      var x := a + path + b;
      var y := c + "{column}" + d;
      assert s1 == x + "{line}" + y;
      assert s2 == x + line + y;
      ReplaceFirstAt(x, "{line}", y, line);
    }
    assert ReplaceFirst(s2, "{column}", column) == a + path + b + line + c + column + d by {
      ReplaceFirstAt(a + path + b + line + c, "{column}", d, column);
    }
  }

  /** A template without `{column}` (`a{filePath}b{line}c`, no '{' in its
      literal parts) ignores the column. */
  lemma SubstituteWithoutColumn(a: string, b: string, c: string, path: string, line: string, column: string)
    requires '{' !in a && '{' !in b && '{' !in c && '{' !in path && '{' !in line
    ensures Substitute(a + "{filePath}" + b + "{line}" + c, path, line, column) == a + path + b + line + c
  {
    var t := a + "{filePath}" + b + "{line}" + c;
    var s1 := a + path + b + "{line}" + c;
    assert ReplaceFirst(t, "{filePath}", path) == s1 by {
      var y := b + "{line}" + c;
      assert t == a + "{filePath}" + y;
      assert s1 == a + path + y;
      ReplaceFirstAt(a, "{filePath}", y, path);
    }
    assert ReplaceFirst(s1, "{line}", line) == a + path + b + line + c by {
      ReplaceFirstAt(a + path + b, "{line}", c, line);
    }
    ReplaceFirstAbsent(a + path + b + line + c, "{column}", column);
  }

  /** VS Code, `src/App.tsx` at line 10, column 4, no prefix: the path
      gains a leading '/', after the one the scheme already ends with. */
  lemma VsCodeExample()
    ensures BuildEditorUrl("vscode", SourceInfo("src/App.tsx", Some(10), Some(4), "App"), "", "")
         == Ok("vscode://file/" + "/src/App.tsx" + ":" + "10" + ":" + "4")
  {
    var source := SourceInfo("src/App.tsx", Some(10), Some(4), "App");
    assert Lookup("vscode") == Some(Table[0].1) by {
      LookupFirst(Table, "vscode");
    }
    assert '{' !in source.fileName;
    assert FilePath(source.fileName, "") == "/src/App.tsx" by {
      assert !StartsWithSlash(source.fileName);
    }
    assert Table[0].1.layout == ColonLayout("vscode://file/");
    NumberTextExample();
    TableEditorLink("vscode", source, "", "");
  }

  /** Cursor is in the table. */
  lemma CursorListed()
    ensures Lookup("cursor").Some?
  {
    assert Table[2].0 == "cursor";
  }

  lemma LookupFirst(entries: seq<(string, EditorConfig)>, id: string)
    requires |entries| > 0 && entries[0].0 == id
    ensures LookupIn(entries, id) == Some(entries[0].1)
  {
  }

  lemma NumberTextExample()
    ensures NumberText(Some(10)) == "10" && NumberText(Some(4)) == "4"
  {
    assert NatToString(10) == NatToString(1) + [DigitChar(0)];
  }

  // ---------------------------------------------------------------------------
  // The editor list

  /** Position in the "common editors first" list. */
  function PriorityRank(id: string): (r: Option<nat>)
    ensures r.Some? ==> r.value < 4
  {
    if id == "vscode" then Some(0)
    else if id == "cursor" then Some(1)
    else if id == "webstorm" then Some(2)
    else if id == "sublime" then Some(3)
    else None
  }

  /** The comparator of `getEditorList`, as "`compare(a, b) <= 0`": common
      editors by their rank and before every other editor; the rest by
      `nameBefore`, which stands for `localeCompare` on the names. */
  function EditorBefore(nameBefore: (string, string) -> bool, a: EditorConfig, b: EditorConfig): bool {
    match (PriorityRank(a.id), PriorityRank(b.id))
    case (Some(i), Some(j)) => i <= j
    case (Some(_), None) => true
    case (None, Some(_)) => false
    case (None, None) => nameBefore(a.name, b.name)
  }

  function Comparator(nameBefore: (string, string) -> bool): (EditorConfig, EditorConfig) -> bool {
    (a: EditorConfig, b: EditorConfig) => EditorBefore(nameBefore, a, b)
  }

  /** The common editors, in order. */
  const Common: seq<EditorConfig> := [
    EditorConfig("vscode", "VS Code", ColonLayout("vscode://file/")),
    EditorConfig("cursor", "Cursor", ColonLayout("cursor://file/")),
    EditorConfig("webstorm", "WebStorm", QueryLayout("webstorm://open?file=", true)),
    EditorConfig("sublime", "Sublime Text", QueryLayout("subl://open?url=file://", true))
  ]

  /** `getEditorList`: the table's editors, sorted. */
  function EditorList(nameBefore: (string, string) -> bool): (r: seq<EditorConfig>)
    ensures multiset(r) == multiset(Values())
  {
    InsertionSort(Values(), Comparator(nameBefore))
  }

  /** With a consistent name order, the list starts with VS Code, Cursor,
      WebStorm and Sublime Text, and the other editors follow in name
      order. */
  lemma EditorListOrder(nameBefore: (string, string) -> bool)
    requires TotalPreorder(nameBefore)
    ensures |EditorList(nameBefore)| >= 4 && EditorList(nameBefore)[..4] == Common
    ensures forall i, j :: 4 <= i < j < |EditorList(nameBefore)| ==>
      nameBefore(EditorList(nameBefore)[i].name, EditorList(nameBefore)[j].name)
  {
    CommonRanks();
    ValuesRanked();
    SortedEditors(Values(), Common, nameBefore);
  }

  /** `common` lists one editor of each rank, in rank order. */
  ghost predicate RankOrdered(common: seq<EditorConfig>) {
    |common| == 4 && forall k :: 0 <= k < 4 ==> PriorityRank(common[k].id) == Some(k)
  }

  lemma CommonRanks()
    ensures RankOrdered(Common)
  {
  }

  /** What the editor list relies on about a list of editors: each common
      editor occurs in it, every ranked editor is the common editor of its
      rank, and a ranked editor occurs once. */
  ghost predicate RankedOnce(vs: seq<EditorConfig>, common: seq<EditorConfig>)
    requires RankOrdered(common)
  {
    (forall k :: 0 <= k < 4 ==> common[k] in vs)
    && (forall i :: 0 <= i < |vs| && PriorityRank(vs[i].id).Some? ==> vs[i] == common[PriorityRank(vs[i].id).value])
    && (forall i, j :: 0 <= i < j < |vs| && PriorityRank(vs[i].id).Some? ==> vs[j] != vs[i])
  }

  /** Sorting any list in which each common editor occurs once puts the
      common editors first and orders the rest by name. */
  lemma SortedEditors(vs: seq<EditorConfig>, common: seq<EditorConfig>, nameBefore: (string, string) -> bool)
    requires TotalPreorder(nameBefore)
    requires RankOrdered(common) && RankedOnce(vs, common)
    ensures var r := InsertionSort(vs, Comparator(nameBefore));
      |r| >= 4 && r[..4] == common
      && forall i, j :: 4 <= i < j < |r| ==> nameBefore(r[i].name, r[j].name)
  {
    var r := InsertionSort(vs, Comparator(nameBefore));
    ComparatorConsistent(nameBefore);
    InsertionSortSorted(vs, Comparator(nameBefore));
    RanksIncrease(vs, common, r, nameBefore);
    CommonFirst(r, common, Rank);
    forall i, j | 4 <= i < j < |r|
      ensures nameBefore(r[i].name, r[j].name)
    {
      if PriorityRank(r[i].id).None? && PriorityRank(r[j].id).None? {
        assert Comparator(nameBefore)(r[i], r[j]);
      }
    }
  }

  lemma ComparatorConsistent(nameBefore: (string, string) -> bool)
    requires TotalPreorder(nameBefore)
    ensures TotalPreorder(Comparator(nameBefore))
  {
    var before := Comparator(nameBefore);
    forall a, b, c | before(a, b) && before(b, c) ensures before(a, c) {
      if PriorityRank(a.id).None? && PriorityRank(b.id).None? && PriorityRank(c.id).None? {
        assert nameBefore(a.name, b.name) && nameBefore(b.name, c.name);
      }
    }
    forall a, b ensures before(a, b) || before(b, a) {
      if PriorityRank(a.id).None? && PriorityRank(b.id).None? {
        assert nameBefore(a.name, b.name) || nameBefore(b.name, a.name);
      }
    }
  }

  /** The rank of the table entry at position `i`: the common editors sit
      at positions 0, 2, 5 and 12. */
  function RankAt(i: int): Option<nat> {
    if i == 0 then Some(0) else if i == 2 then Some(1)
    else if i == 5 then Some(2) else if i == 12 then Some(3) else None
  }

  lemma TableRanks0()
    ensures forall i :: 0 <= i < 6 ==> PriorityRank(Table[i].0) == RankAt(i)
  {
  }

  lemma TableRanks1()
    ensures forall i :: 6 <= i < 12 ==> PriorityRank(Table[i].0) == RankAt(i)
  {
  }

  lemma TableRanks2()
    ensures forall i :: 12 <= i < 18 ==> PriorityRank(Table[i].0) == RankAt(i)
  {
  }

  lemma TableRanks3()
    ensures forall i :: 18 <= i < |Table| ==> PriorityRank(Table[i].0) == RankAt(i)
  {
  }

  lemma TableCommon()
    ensures Table[0].1 == Common[0] && Table[2].1 == Common[1]
    ensures Table[5].1 == Common[2] && Table[12].1 == Common[3]
  {
  }

  /** The table's common editors sit at positions 0, 2, 5 and 12, and no
      other entry has a rank. */
  lemma ValuesRanked()
    ensures RankOrdered(Common) && RankedOnce(Values(), Common)
  {
    CommonRanks();
    TableKeysAreIds();
    TableRanks0();
    TableRanks1();
    TableRanks2();
    TableRanks3();
    TableCommon();
    var vs := Values();
    assert forall i :: 0 <= i < |vs| ==> PriorityRank(vs[i].id) == RankAt(i);
    assert vs[0] == Common[0] && vs[2] == Common[1] && vs[5] == Common[2] && vs[12] == Common[3];
  }

  /** A value counted twice sits at two positions. */
  lemma {:induction false} CountedTwice<T>(s: seq<T>, x: T)
    requires multiset(s)[x] >= 2
    ensures exists i, j :: 0 <= i < j < |s| && s[i] == x && s[j] == x
  {
    assert s == [s[0]] + s[1..];
    if s[0] == x {
      assert x in multiset(s[1..]);
      var j :| 0 <= j < |s[1..]| && s[1..][j] == x;
      assert s[j + 1] == x;
    } else {
      CountedTwice(s[1..], x);
      var i, j :| 0 <= i < j < |s[1..]| && s[1..][i] == x && s[1..][j] == x;
      assert s[i + 1] == x && s[j + 1] == x;
    }
  }

  /** Two positions holding the same value give it a count of at least two. */
  lemma TwiceCounted<T>(s: seq<T>, i: nat, j: nat)
    requires i < j < |s| && s[i] == s[j]
    ensures multiset(s)[s[i]] >= 2
  {
    assert s == s[..j] + s[j..];
    assert s[..j][i] == s[i];
    assert s[j..][0] == s[j];
    assert multiset(s) == multiset(s[..j]) + multiset(s[j..]);
  }

  /** In an ordering by the editor comparator of a list where each common
      editor occurs once, the ranked editors come first, by rank. */
  lemma RanksIncrease(vs: seq<EditorConfig>, common: seq<EditorConfig>, r: seq<EditorConfig>, nameBefore: (string, string) -> bool)
    requires RankOrdered(common) && RankedOnce(vs, common)
    requires multiset(r) == multiset(vs)
    requires Sorted(r, Comparator(nameBefore))
    ensures forall k :: 0 <= k < 4 ==> common[k] in r
    ensures forall i, j :: 0 <= i < j < |r| && PriorityRank(r[j].id).Some? ==>
      PriorityRank(r[i].id).Some? && PriorityRank(r[i].id).value < PriorityRank(r[j].id).value
  {
    var before := Comparator(nameBefore);
    forall k | 0 <= k < 4 ensures common[k] in r {
      assert common[k] in multiset(vs);
    }
    forall i, j | 0 <= i < j < |r| && PriorityRank(r[j].id).Some?
      ensures PriorityRank(r[i].id).Some? && PriorityRank(r[i].id).value < PriorityRank(r[j].id).value
    {
      assert before(r[i], r[j]);
      if PriorityRank(r[i].id) == PriorityRank(r[j].id) {
        assert r[i] in multiset(vs) && r[j] in multiset(vs);
        RankedInList(vs, common, r[i]);
        RankedInList(vs, common, r[j]);
        TwiceCounted(r, i, j);
        CountedTwice(vs, r[i]);
        assert false;
      }
    }
  }

  /** A sequence holding four values of ranks 0 to 3, whose ranked
      positions form a prefix with strictly increasing ranks, starts with
      them. */
  lemma CommonFirst<T>(r: seq<T>, common: seq<T>, rank: T -> Option<nat>)
    requires |common| == 4 && forall k :: 0 <= k < 4 ==> rank(common[k]) == Some(k)
    requires forall k :: 0 <= k < 4 ==> common[k] in r
    requires forall i, j :: 0 <= i < j < |r| && rank(r[j]).Some? ==>
      rank(r[i]).Some? && rank(r[i]).value < rank(r[j]).value
    ensures |r| >= 4 && r[..4] == common
  {
    var at: seq<nat> := [];
    for k := 0 to 4
      invariant |at| == k
      invariant forall m :: 0 <= m < k ==> at[m] < |r| && r[at[m]] == common[m]
    {
      var p :| 0 <= p < |r| && r[p] == common[k];
      at := at + [p];
    }
    forall m | 0 <= m < 4 ensures at[m] <= m {
      RankAtLeastPosition(r, at[m], rank);
    }
    forall n, m | 0 <= n < m < 4 ensures at[n] < at[m] {
      assert rank(r[at[n]]) == Some(n) && rank(r[at[m]]) == Some(m);
    }
    assert at[0] == 0 && at[1] == 1 && at[2] == 2 && at[3] == 3;
  }

  /** The rank of an editor, by its id. */
  function Rank(x: EditorConfig): Option<nat> {
    PriorityRank(x.id)
  }

  /** A ranked member of such a list is the common editor of its rank. */
  lemma RankedInList(vs: seq<EditorConfig>, common: seq<EditorConfig>, x: EditorConfig)
    requires RankOrdered(common) && RankedOnce(vs, common)
    requires x in vs && PriorityRank(x.id).Some?
    ensures x == common[PriorityRank(x.id).value]
  {
    var i :| 0 <= i < |vs| && vs[i] == x;
  }

  /** Along a sequence whose ranked positions form a prefix with strictly
      increasing ranks, a ranked position is at most its rank. */
  lemma {:induction false} RankAtLeastPosition<T>(r: seq<T>, j: nat, rank: T -> Option<nat>)
    requires j < |r| && rank(r[j]).Some?
    requires forall i, k :: 0 <= i < k < |r| && rank(r[k]).Some? ==>
      rank(r[i]).Some? && rank(r[i]).value < rank(r[k]).value
    ensures j <= rank(r[j]).value
  {
    if j > 0 {
      RankAtLeastPosition(r, j - 1, rank);
    }
  }
}

=== FILE: live_edit.dfy ===
/** The overlay's live-edit session. When the panel opens it records a
    baseline (the element's class, style attribute and HTML); the user then
    edits a class input, the style rules and an HTML text area, each of which
    is written straight through to the element when the descriptor carries
    one. "Copy changes" compares the working values with the baseline, puts
    a snippet on the clipboard and, when that succeeds, makes the working
    values the new baseline; "Reset" puts the baseline back. */
module LiveEdit {
  import opened Options
  import opened Text
  import opened Search
  import opened Dom
  import opened StyleRules

  /** The three things the panel edits, as text. */
  datatype Snapshot = Snapshot(className: string, style: string, outerHTML: string)

  /** The overlay's state. `current` is the descriptor being shown;
      `baseline` is what the last show, or the last successful copy,
      recorded; `rules` are the style editor's rows; `classInput` and
      `htmlInput` are what the two inputs hold; `live` is the element's
      own class, style attribute and HTML as the edits left them. */
  datatype Session = Session(
    visible: bool,
    current: Option<ElementInfo>,
    baseline: Snapshot,
    rules: seq<Rule>,
    classInput: string,
    htmlInput: string,
    live: Snapshot)

  /** Before the panel first opens. */
  function Initial(): (s: Session)
    ensures !s.visible && s.current.None? && s.rules == []
  {
    Session(false, None, Snapshot("", "", ""), [], "", "", Snapshot("", "", ""))
  }

  /** The edits reach the page only when the descriptor carries the element
      (only the React adapter supplies it). */
  predicate HasElement(s: Session) {
    s.current.Some? && s.current.value.element.Some?
  }

  /** The element's `className` cannot be assigned (an SVG element): the
      assignment throws, and the listener or `resetChanges` stops there. */
  predicate ClassAssignThrows(s: Session) {
    HasElement(s) && !s.current.value.element.value.classNameIsString
  }

  /** The values "Copy changes" compares with the baseline: the inputs and
      the style the rules serialise to. */
  function Working(s: Session): Snapshot {
    Snapshot(s.classInput, Serialize(s.rules), s.htmlInput)
  }

  // ---------------------------------------------------------------------------
  // Showing and hiding

  /** What `show` records about the element: `info.className || ''`, the
      element's `style` attribute and its HTML (empty without an element). */
  function Capture(info: ElementInfo): (b: Snapshot)
    ensures info.element.None? ==> b.style == "" && b.outerHTML == ""
    ensures info.element.Some? ==>
      b.style == StyleAttr(info.element.value) && b.outerHTML == info.element.value.outerHTML
    ensures b.className == info.className.GetOr("")
  {
    match info.element
    case None => Snapshot(info.className.GetOr(""), "", "")
    case Some(e) => Snapshot(info.className.GetOr(""), StyleAttr(e), e.outerHTML)
  }

  /** `show(info)`: the panel opens on `info`, the baseline is captured,
      the rules are parsed from the captured style and the inputs start
      from the captured class and HTML. */
  function Show(s: Session, info: ElementInfo): (r: Session)
    ensures r.visible && r.current == Some(info)
    ensures r.baseline == Capture(info)
    ensures r.rules == ParseStyle(r.baseline.style)
    ensures r.classInput == r.baseline.className && r.htmlInput == r.baseline.outerHTML
    ensures HasElement(r) <==> info.element.Some?
    ensures HasElement(r) ==> r.live == Snapshot(ClassName(info.element.value), r.baseline.style, r.baseline.outerHTML)
    ensures !HasElement(r) ==> r.live == s.live
  {
    var b := Capture(info);
    var live := match info.element
      case None => s.live
      case Some(e) => Snapshot(ClassName(e), StyleAttr(e), e.outerHTML);
    Session(true, Some(info), b, ParseStyle(b.style), b.className, b.outerHTML, live)
  }

  /** `hide()`: the panel closes and forgets the descriptor; the baseline,
      the rules and the element's edits stay as they are. */
  function Hide(s: Session): (r: Session)
    ensures !r.visible && r.current.None?
    ensures r.baseline == s.baseline && r.rules == s.rules && r.live == s.live
    ensures r.classInput == s.classInput && r.htmlInput == s.htmlInput
  {
    s.(visible := false, current := None)
  }

  /** `isShowing()`. */
  predicate IsShowing(s: Session) {
    s.visible
  }

  /** Showing makes `isShowing` true and hiding makes it false. */
  lemma ShowHideShowing(s: Session, info: ElementInfo)
    ensures IsShowing(Show(s, info)) && !IsShowing(Hide(s))
  {
  }

  // ---------------------------------------------------------------------------
  // Editing

  /** The class input changed: the element's class follows when there is an
      element whose `className` can be assigned; for an SVG element the
      assignment throws and the class stays. */
  function EditClass(s: Session, value: string): (r: Session)
    ensures r.classInput == value
    ensures HasElement(s) && !ClassAssignThrows(s) ==> r.live.className == value
    ensures !HasElement(s) || ClassAssignThrows(s) ==> r.live == s.live
    ensures r.live.style == s.live.style && r.live.outerHTML == s.live.outerHTML
    ensures r.baseline == s.baseline && r.rules == s.rules && r.htmlInput == s.htmlInput && r.current == s.current
  {
    var live := if HasElement(s) && !ClassAssignThrows(s) then s.live.(className := value) else s.live;
    s.(classInput := value, live := live)
  }

  /** The HTML text area changed: the element's HTML is replaced when there
      is an element and the browser accepts the text (`accepted`). */
  function EditHtml(s: Session, value: string, accepted: bool): (r: Session)
    ensures r.htmlInput == value
    ensures HasElement(s) && accepted ==> r.live.outerHTML == value
    ensures !(HasElement(s) && accepted) ==> r.live == s.live
    ensures r.live.className == s.live.className && r.live.style == s.live.style
    ensures r.baseline == s.baseline && r.rules == s.rules && r.classInput == s.classInput && r.current == s.current
  {
    var live := if HasElement(s) && accepted then s.live.(outerHTML := value) else s.live;
    s.(htmlInput := value, live := live)
  }

  /** `applyStyleRules`: the element's style attribute becomes the
      serialised rules, when there is an element. */
  function ApplyStyle(s: Session, rules: seq<Rule>): (r: Session)
    ensures r.rules == rules
    ensures HasElement(s) ==> r.live.style == Serialize(rules)
    ensures !HasElement(s) ==> r.live == s.live
    ensures r.live.className == s.live.className && r.live.outerHTML == s.live.outerHTML
    ensures r.baseline == s.baseline && r.classInput == s.classInput && r.htmlInput == s.htmlInput && r.current == s.current
  {
    var live := if HasElement(s) then s.live.(style := Serialize(rules)) else s.live;
    s.(rules := rules, live := live)
  }

  /** The checkbox of row `i` changed. */
  function ToggleRule(s: Session, i: nat, enabled: bool): (r: Session)
    requires i < |s.rules|
    ensures |r.rules| == |s.rules| && r.rules[i].enabled == enabled
    ensures r.rules[i].property == s.rules[i].property && r.rules[i].value == s.rules[i].value
    ensures forall k :: 0 <= k < |s.rules| && k != i ==> r.rules[k] == s.rules[k]
    ensures HasElement(s) ==> r.live.style == Serialize(r.rules)
  {
    ApplyStyle(s, s.rules[i := s.rules[i].(enabled := enabled)])
  }

  /** The property input of row `i` changed. */
  function SetProperty(s: Session, i: nat, property: string): (r: Session)
    requires i < |s.rules|
    ensures |r.rules| == |s.rules| && r.rules[i].property == property
    ensures r.rules[i].value == s.rules[i].value && r.rules[i].enabled == s.rules[i].enabled
    ensures forall k :: 0 <= k < |s.rules| && k != i ==> r.rules[k] == s.rules[k]
    ensures HasElement(s) ==> r.live.style == Serialize(r.rules)
  {
    ApplyStyle(s, s.rules[i := s.rules[i].(property := property)])
  }

  /** The value input of row `i` changed. */
  function SetValue(s: Session, i: nat, value: string): (r: Session)
    requires i < |s.rules|
    ensures |r.rules| == |s.rules| && r.rules[i].value == value
    ensures r.rules[i].property == s.rules[i].property && r.rules[i].enabled == s.rules[i].enabled
    ensures forall k :: 0 <= k < |s.rules| && k != i ==> r.rules[k] == s.rules[k]
    ensures HasElement(s) ==> r.live.style == Serialize(r.rules)
  {
    ApplyStyle(s, s.rules[i := s.rules[i].(value := value)])
  }

  /** The delete button of row `i` (`splice(i, 1)`). */
  function DeleteRule(s: Session, i: nat): (r: Session)
    requires i < |s.rules|
    ensures |r.rules| == |s.rules| - 1
    ensures forall k :: 0 <= k < i ==> r.rules[k] == s.rules[k]
    ensures forall k :: i <= k < |r.rules| ==> r.rules[k] == s.rules[k + 1]
    ensures HasElement(s) ==> r.live.style == Serialize(r.rules)
  {
    ApplyStyle(s, s.rules[..i] + s.rules[i + 1..])
  }

  /** "Add property": an empty, enabled row at the end. The style attribute
      is not rewritten, and need not be: the empty row is not written. */
  function AddRule(s: Session): (r: Session)
    ensures r.rules == s.rules + [Rule("", "", true)]
    ensures r.live == s.live && r.baseline == s.baseline
    ensures Serialize(r.rules) == Serialize(s.rules)
  {
    ActiveRulesEmptyTail(s.rules);
    s.(rules := s.rules + [Rule("", "", true)])
  }

  lemma {:induction false} ActiveRulesEmptyTail(rules: seq<Rule>)
    ensures ActiveRules(rules + [Rule("", "", true)]) == ActiveRules(rules)
  {
    if |rules| == 0 {
      assert rules + [Rule("", "", true)] == [Rule("", "", true)];
      assert [Rule("", "", true)][1..] == [];
    } else {
      var t := rules + [Rule("", "", true)];
      assert t[0] == rules[0] && t[1..] == rules[1..] + [Rule("", "", true)];
      ActiveRulesEmptyTail(rules[1..]);
    }
  }

  /** Every edit of the rules leaves the element's style attribute equal to
      the serialised rules, once it was. */
  predicate StyleInSync(s: Session) {
    HasElement(s) ==> s.live.style == Serialize(s.rules)
  }

  lemma EditsKeepStyleInSync(s: Session, i: nat, property: string, value: string, enabled: bool, text: string, accepted: bool)
    requires StyleInSync(s) && i < |s.rules|
    ensures StyleInSync(ToggleRule(s, i, enabled)) && StyleInSync(SetProperty(s, i, property))
    ensures StyleInSync(SetValue(s, i, value)) && StyleInSync(DeleteRule(s, i)) && StyleInSync(AddRule(s))
    ensures StyleInSync(EditClass(s, text)) && StyleInSync(EditHtml(s, text, accepted))
  {
  }

  // ---------------------------------------------------------------------------
  // The snippet

  /** `className="…"`. */
  function ClassAttribute(className: string): string {
    "className=\"" + className + "\""
  }

  /** The text "Copy changes" puts on the clipboard: the class attribute
      when the class is non-empty and the JSX style when some rule is
      written, joined by a space; or, when the HTML changed, the new HTML
      instead. */
  function Snippet(className: string, rules: seq<Rule>, htmlChanged: bool, html: string): (r: string)
    ensures htmlChanged ==> r == html
    ensures !htmlChanged ==> (ClassAttribute(className) <= r <==> className != "")
    ensures !htmlChanged ==> (r == "" <==> className == "" && |ActiveRules(rules)| == 0)
    ensures !htmlChanged && |ActiveRules(rules)| > 0 ==>
      |JsxStyle(rules)| <= |r| && r[|r| - |JsxStyle(rules)|..] == JsxStyle(rules)
    ensures !htmlChanged && |ActiveRules(rules)| == 0 ==> r == "" || r == ClassAttribute(className)
    ensures !htmlChanged && className != "" && |ActiveRules(rules)| > 0 ==>
      r == ClassAttribute(className) + " " + JsxStyle(rules)
    ensures !htmlChanged && className == "" && |ActiveRules(rules)| > 0 ==> r == JsxStyle(rules)
  {
    var classPart := if className != "" then [ClassAttribute(className)] else [];
    var stylePart := if |ActiveRules(rules)| > 0 then [JsxStyle(rules)] else [];
    var parts := classPart + stylePart;
    SnippetParts(className, rules, parts);
    if htmlChanged then html else Join(parts, " ")
  }

  lemma SnippetParts(className: string, rules: seq<Rule>, parts: seq<string>)
    requires parts == (if className != "" then [ClassAttribute(className)] else [])
      + (if |ActiveRules(rules)| > 0 then [JsxStyle(rules)] else [])
    ensures ClassAttribute(className) <= Join(parts, " ") <==> className != ""
    ensures Join(parts, " ") == "" <==> className == "" && |ActiveRules(rules)| == 0
    ensures |ActiveRules(rules)| > 0 ==>
      var r := Join(parts, " ");
      |JsxStyle(rules)| <= |r| && r[|r| - |JsxStyle(rules)|..] == JsxStyle(rules)
    ensures |ActiveRules(rules)| == 0 ==> Join(parts, " ") == "" || Join(parts, " ") == ClassAttribute(className)
    ensures className != "" && |ActiveRules(rules)| > 0 ==>
      Join(parts, " ") == ClassAttribute(className) + " " + JsxStyle(rules)
    ensures className == "" && |ActiveRules(rules)| > 0 ==> Join(parts, " ") == JsxStyle(rules)
  {
    var c := ClassAttribute(className);
    var j := JsxStyle(rules);
    if className != "" && |ActiveRules(rules)| > 0 {
      assert parts == [c, j];
      JoinCons(parts, " ");
      assert parts[1..] == [j];
      assert Join(parts, " ") == c + " " + j;
    } else if className == "" && |ActiveRules(rules)| > 0 {
      assert parts == [j];
      assert !(c <= j) by {
        assert c[0] == 'c' && j[0] == 's';
      }
    }
  }

  // ---------------------------------------------------------------------------
  // Copy and reset

  /** What "Copy changes" reports. */
  datatype CopyOutcome =
    | NotShown              // no descriptor: nothing happens
    | NoChanges             // "No changes to copy"
    | Copied(text: string)  // "Copied! …"
    | CopyFailed(text: string)  // "Failed to copy to clipboard"

  /** `copyChanges`, with the clipboard's success as `clipboardOk`. */
  function Copy(s: Session, clipboardOk: bool): (r: (Session, CopyOutcome))
    ensures s.current.None? ==> r == (s, NotShown)
    ensures r.1 == NoChanges <==> s.current.Some? && Working(s) == s.baseline
    ensures r.1.Copied? <==> s.current.Some? && Working(s) != s.baseline && clipboardOk
    ensures r.1.CopyFailed? <==> s.current.Some? && Working(s) != s.baseline && !clipboardOk
    ensures r.1.Copied? ==> r.0 == s.(baseline := Working(s))
    ensures !r.1.Copied? ==> r.0 == s
    ensures (r.1.Copied? || r.1.CopyFailed?) && s.htmlInput != s.baseline.outerHTML ==> r.1.text == s.htmlInput
    ensures (r.1.Copied? || r.1.CopyFailed?) && s.htmlInput == s.baseline.outerHTML ==>
      r.1.text == Snippet(s.classInput, s.rules, false, "")
  {
    if s.current.None? then (s, NotShown)
    else
      var w := Working(s);
      if w == s.baseline then (s, NoChanges)
      else
        var text := Snippet(w.className, s.rules, w.outerHTML != s.baseline.outerHTML, w.outerHTML);
        if clipboardOk then (s.(baseline := w), Copied(text)) else (s, CopyFailed(text))
  }

  /** With no class and the HTML untouched, the copied text is the JSX style
      and reads back as exactly the written rules, when each rule is clean
      and readable in JSX. */
  lemma CopiedStyleReadsBack(s: Session, ok: bool)
    requires s.current.Some? && Working(s) != s.baseline
    requires s.classInput == "" && s.htmlInput == s.baseline.outerHTML && |ActiveRules(s.rules)| > 0
    requires forall k :: 0 <= k < |s.rules| ==> Clean(s.rules[k]) && JsxReadable(s.rules[k])
    ensures ReadJsxStyle(Copy(s, ok).1.text) == Some(ActiveRules(s.rules))
  {
    JsxStyleRoundTrip(s.rules);
  }

  /** A copy that succeeded leaves nothing more to copy. */
  lemma CopyTwice(s: Session, ok: bool)
    requires Copy(s, true).1.Copied?
    ensures Copy(Copy(s, true).0, ok).1 == NoChanges
  {
  }

  /** `resetChanges`, with `accepted` the browser's acceptance of the
      baseline HTML. The rules are re-parsed from the baseline style; the
      inputs and the element are restored only when there is an element. On
      an SVG element the class assignment throws right after the class input
      is reset, so nothing else is restored. */
  function Reset(s: Session, accepted: bool): (r: Session)
    ensures !ClassAssignThrows(s) ==> r.rules == ParseStyle(s.baseline.style)
    ensures r.baseline == s.baseline && r.current == s.current && r.visible == s.visible
    ensures HasElement(s) ==> r.classInput == s.baseline.className
    ensures HasElement(s) && !ClassAssignThrows(s) ==>
      r.htmlInput == s.baseline.outerHTML
      && r.live.className == s.baseline.className && r.live.style == s.baseline.style
    ensures HasElement(s) && !ClassAssignThrows(s) && accepted ==> r.live == s.baseline
    ensures HasElement(s) && !ClassAssignThrows(s) && !accepted ==> r.live.outerHTML == s.live.outerHTML
    ensures ClassAssignThrows(s) ==> r == s.(classInput := s.baseline.className)
    ensures !HasElement(s) ==> r.classInput == s.classInput && r.htmlInput == s.htmlInput && r.live == s.live
  {
    if ClassAssignThrows(s) then
      s.(classInput := s.baseline.className)
    else if HasElement(s) then
      var html := if accepted then s.baseline.outerHTML else s.live.outerHTML;
      s.(classInput := s.baseline.className, rules := ParseStyle(s.baseline.style),
         htmlInput := s.baseline.outerHTML,
         live := Snapshot(s.baseline.className, s.baseline.style, html))
    else
      s.(rules := ParseStyle(s.baseline.style))
  }

  /** A style attribute the editor would write back unchanged. */
  predicate NormalStyle(style: string) {
    Serialize(ParseStyle(style)) == style
  }

  /** Right after the panel opens on an element whose style attribute is
      in the editor's own form, there is nothing to copy. */
  lemma ShowThenCopy(s: Session, info: ElementInfo, ok: bool)
    requires NormalStyle(Capture(info).style)
    ensures Copy(Show(s, info), ok).1 == NoChanges
  {
  }

  /** After a reset on an element whose baseline style is in the editor's
      own form, there is nothing to copy, unless the element is an SVG
      element (see `SvgResetKeepsRuleEdits`). */
  lemma ResetThenCopy(s: Session, ok: bool)
    requires HasElement(s) && !ClassAssignThrows(s) && NormalStyle(s.baseline.style)
    ensures Copy(Reset(s, true), ok).1 == NoChanges
  {
  }

  /** On an SVG element a reset stops at the class assignment: the edited
      rules stay, so a rule edit is still there to copy. */
  lemma SvgResetKeepsRuleEdits(s: Session, accepted: bool, ok: bool)
    requires ClassAssignThrows(s) && Serialize(s.rules) != s.baseline.style
    ensures Reset(s, accepted).rules == s.rules
    ensures Copy(Reset(s, accepted), ok).1 != NoChanges
  {
  }

  /** A successful copy of clean rules records a baseline style in the
      editor's own form, and a reset then brings back exactly the rules
      that were written (on an SVG element the rules are simply kept). */
  lemma CopyThenReset(s: Session, accepted: bool)
    requires forall k :: 0 <= k < |s.rules| ==> Clean(s.rules[k])
    requires Copy(s, true).1.Copied?
    ensures NormalStyle(Copy(s, true).0.baseline.style)
    ensures !ClassAssignThrows(s) ==> Reset(Copy(s, true).0, accepted).rules == ActiveRules(s.rules)
    ensures ClassAssignThrows(s) ==> Reset(Copy(s, true).0, accepted).rules == s.rules
  {
    ParseSerialize(s.rules);
    ActiveRulesActive(s.rules);
  }

  /** Style is compared as text with the raw attribute: a panel opened on
      `style="color:red"` and left untouched still has a change to copy,
      because the editor writes "color: red". */
  lemma RawStyleCountsAsChange(s: Session, info: ElementInfo, ok: bool)
    requires Capture(info).style == "color:red"
    ensures Copy(Show(s, info), ok).1 != NoChanges
  {
    ColorRedRewritten(Capture(info).style);
    assert |Declaration(Rule("color", "red", true))| == 10;
  }

  lemma ColorRedRewritten(style: string)
    requires style == "color:red"
    ensures Serialize(ParseStyle(style)) == Declaration(Rule("color", "red", true))
  {
    ColorRedParsed();
    SerializeOne(Rule("color", "red", true));
  }

  /** A single written rule serialises to its declaration. */
  lemma SerializeOne(rule: Rule)
    requires Active(rule)
    ensures Serialize([rule]) == Declaration(rule)
  {
    assert [rule][1..] == [];
    assert ActiveRules([rule]) == [rule];
    assert Declarations([rule]) == [Declaration(rule)];
  }

  lemma ColorRedParsed()
    ensures ParseStyle("color:red") == [Rule("color", "red", true)]
  {
    SplitNoSeparator("color:red", ';');
    ColorRedChunk();
  }

  lemma ColorRedChunk()
    ensures ParseChunk("color:red") == Some(Rule("color", "red", true))
  {
    var t := "color:red";
    assert Trimmed(t);
    assert Trim(t) == t;
    assert Trimmed("color") && Trimmed("red");
    assert t[..5] == "color" && t[6..] == "red";
    ParseChunkAt(t, t, 5, "color", "red");
  }

  // ---------------------------------------------------------------------------
  // Display caps

  /** A list cut for display: the items shown and how many are left for
      the "…and n more" line. */
  datatype Listing<T> = Listing(shown: seq<T>, more: nat)

  /** At most 10 props and at most 15 hierarchy rows are rendered. */
  const PropsCap: nat := 10
  const TreeCap: nat := 15

  /** The first `cap` items, and the count of the rest. */
  function Capped<T>(xs: seq<T>, cap: nat): (r: Listing<T>)
    ensures |r.shown| <= cap && r.shown <= xs
    ensures |r.shown| + r.more == |xs|
    ensures r.more > 0 ==> |r.shown| == cap
  {
    var shown := Prefix(xs, cap);
    Listing(shown, |xs| - |shown|)
  }

  /** `buildPropsHTML`: `None` is the "No props" line. */
  function PropsListing(props: Option<ShownProps>): (r: Option<Listing<(string, Shown)>>)
    ensures r.None? <==> props.None? || |props.value| == 0
    ensures r.Some? ==> |r.value.shown| + r.value.more == |props.value| && r.value.shown <= props.value
    ensures r.Some? ==> |r.value.shown| == if |props.value| < PropsCap then |props.value| else PropsCap
  {
    match props
    case None => None
    case Some(ps) => if |ps| == 0 then None else Some(Capped(ps, PropsCap))
  }

  /** `buildTreeHTML`: `None` renders nothing. */
  function TreeListing(hierarchy: Option<seq<ComponentNode>>): (r: Option<Listing<ComponentNode>>)
    ensures r.None? <==> hierarchy.None? || |hierarchy.value| == 0
    ensures r.Some? ==> |r.value.shown| + r.value.more == |hierarchy.value| && r.value.shown <= hierarchy.value
    ensures r.Some? ==> |r.value.shown| == if |hierarchy.value| < TreeCap then |hierarchy.value| else TreeCap
  {
    match hierarchy
    case None => None
    case Some(h) => if |h| == 0 then None else Some(Capped(h, TreeCap))
  }
}

=== FILE: locator_formats.dfy ===
/** The two textual location formats that build tools write into the page
    and that the data-attribute and SolidJS adapters read back:
    `path:line:column`, matched with `/(.+):(\d+):(\d+)$/`, and the LocatorJS
    id form `path::id`. */
module LocatorFormats {
  import opened Options
  import opened Text
  import opened Dom
  import opened AdapterInterface

  /** The characters a regular-expression `.` does not match. */
  predicate IsLineTerminator(c: char) {
    c == '\n' || c == '\r' || c == '\U{2028}' || c == '\U{2029}'
  }

  predicate NoLineTerminator(s: string) {
    forall i :: 0 <= i < |s| ==> !IsLineTerminator(s[i])
  }

  predicate EndsWith(s: string, suffix: string) {
    |suffix| <= |s| && s[|s| - |suffix|..] == suffix
  }

  /** Index just past the last line terminator of `s` (0 when there is none). */
  function LineStart(s: string): (k: nat)
    ensures k <= |s|
    ensures NoLineTerminator(s[k..])
    ensures k > 0 ==> IsLineTerminator(s[k - 1])
  {
    if |s| == 0 then 0
    else if IsLineTerminator(s[|s| - 1]) then |s|
    else
      var k := LineStart(s[..|s| - 1]);
      assert s[k..] == s[..|s| - 1][k..] + [s[|s| - 1]];
      k
  }

  /** The three groups of a `path:line:column` match. */
  datatype Location = Location(path: string, line: string, column: string)

  function LocationText(m: Location): string {
    m.path + ":" + m.line + ":" + m.column
  }

  /** `value.match(/(.+):(\d+):(\d+)$/)`. The column digits follow the last
      colon and the line digits the colon before it (digits contain no colon,
      so greedy backtracking settles there). The leftmost match starts just
      after the last line terminator, because `.` stops at one; the path
      group must be non-empty. */
  function MatchLocation(s: string): (r: Option<Location>)
    ensures r.Some? ==>
      r.value.path != "" && NoLineTerminator(r.value.path)
      && IsDigitRun(r.value.line) && IsDigitRun(r.value.column)
    ensures r.Some? ==> EndsWith(s, LocationText(r.value))
    ensures r.Some? ==>
      var before := s[..|s| - |LocationText(r.value)|];
      before == "" || IsLineTerminator(before[|before| - 1])
  {
    match LastIndexOf(s, ':')
    case None => None
    case Some(c2) =>
      var column := s[c2 + 1..];
      var head := s[..c2];
      match LastIndexOf(head, ':')
      case None => None
      case Some(c1) =>
        var line := head[c1 + 1..];
        var before := head[..c1];
        var k := LineStart(before);
        var path := before[k..];
        if IsDigitRun(line) && IsDigitRun(column) && path != "" then
          var m := Location(path, line, column);
          Reassemble(s, c2, c1, k);
          Some(m)
        else None
  }

  /** `s` is what precedes the path, then the path, line and column groups
      with the two colons between them. */
  lemma Reassemble(s: string, c2: nat, c1: nat, k: nat)
    requires c2 < |s| && s[c2] == ':'
    requires c1 < c2 && s[..c2][c1] == ':'
    requires k <= c1
    ensures s == s[..c2][..c1][..k] + LocationText(Location(s[..c2][..c1][k..], s[..c2][c1 + 1..], s[c2 + 1..]))
  {
    var head, column := s[..c2], s[c2 + 1..];
    var before, line := head[..c1], head[c1 + 1..];
    assert head + [':'] + column == s;
    assert before + [':'] + line == head;
    assert before[..k] + before[k..] == before;
    assert LocationText(Location(before[k..], line, column)) == before[k..] + [':'] + line + [':'] + column;
  }

  /** Every well-formed `path:line:column` text, possibly preceded by earlier
      lines, matches with exactly its own groups. Together with the
      postconditions of `MatchLocation` this characterises the pattern. */
  lemma {:induction false} MatchLocationOf(before: string, m: Location)
    requires before == "" || IsLineTerminator(before[|before| - 1])
    requires m.path != "" && NoLineTerminator(m.path)
    requires IsDigitRun(m.line) && IsDigitRun(m.column)
    ensures MatchLocation(before + LocationText(m)) == Some(m)
  {
    var s := before + LocationText(m);
    var pre := before + m.path;
    var head := pre + ":" + m.line;
    assert s == head + ":" + m.column by {
      LocationTextShape(before, m);
    }
    LastColonBeforeDigits(head, m.column);
    LastColonBeforeDigits(pre, m.line);
    LineStartAfter(before, m.path);
    MatchLocationSplits(s, |head|, |pre|, m);
  }

  lemma LocationTextShape(before: string, m: Location)
    ensures before + LocationText(m) == before + m.path + ":" + m.line + ":" + m.column
  {
    assert LocationText(m) == m.path + ":" + m.line + ":" + m.column;
  }

  /** How `MatchLocation` cuts `s` once the two colons are known. */
  lemma MatchLocationSplits(s: string, c2: nat, c1: nat, m: Location)
    requires LastIndexOf(s, ':') == Some(c2)
    requires s[c2 + 1..] == m.column
    requires LastIndexOf(s[..c2], ':') == Some(c1)
    requires s[..c2][c1 + 1..] == m.line
    requires s[..c2][..c1][LineStart(s[..c2][..c1])..] == m.path
    requires IsDigitRun(m.line) && IsDigitRun(m.column) && m.path != ""
    ensures MatchLocation(s) == Some(m)
  {
  }

  /** In `head + ":" + digits` the last colon is the one before the digits. */
  lemma LastColonBeforeDigits(head: string, digits: string)
    requires AllDigits(digits)
    ensures LastIndexOf(head + ":" + digits, ':') == Some(|head|)
    ensures (head + ":" + digits)[..|head|] == head
    ensures (head + ":" + digits)[|head| + 1..] == digits
  {
    var t := head + ":";
    assert ':' !in digits;
    LastIndexOfSkips(t, digits, ':');
    assert t[..|head|] == head;
  }

  /** Characters other than `c` appended at the end do not move the last
      `c`. */
  lemma {:induction false} LastIndexOfSkips(t: string, d: string, c: char)
    requires c !in d
    ensures LastIndexOf(t + d, c) == LastIndexOf(t, c)
    decreases |d|
  {
    if |d| == 0 {
      assert t + d == t;
    } else {
      var init := d[..|d| - 1];
      assert d == init + [d[|d| - 1]];
      assert (t + d)[..|t + d| - 1] == t + init;
      LastIndexOfSkips(t, init, c);
    }
  }

  /** After a line break (or at the start), the line starts where `text` does. */
  lemma LineStartAfter(before: string, text: string)
    requires before == "" || IsLineTerminator(before[|before| - 1])
    requires NoLineTerminator(text)
    ensures LineStart(before + text) == |before|
    ensures (before + text)[|before|..] == text
  {
    var s := before + text;
    var k := LineStart(s);
    assert forall i :: |before| <= i < |s| ==> s[i] == text[i - |before|];
    assert |before| > 0 ==> s[|before| - 1] == before[|before| - 1];
  }

  /** The source a `path:line:column` value denotes: the groups as file,
      line and column, and the component name derived from the file. */
  function ParseLocation(value: string): (r: Option<SourceInfo>)
    ensures r.Some? <==> MatchLocation(value).Some?
    ensures r.Some? ==>
      var m := MatchLocation(value).value;
      r.value.fileName == m.path
      && r.value.line == Some(DigitsValue(m.line))
      && r.value.column == Some(DigitsValue(m.column))
      && r.value.componentName == ExtractComponentName(m.path)
  {
    match MatchLocation(value)
    case None => None
    case Some(m) =>
      ParseDigits(m.line);
      ParseDigits(m.column);
      Some(SourceInfo(m.path, ParseInt(m.line), ParseInt(m.column), ExtractComponentName(m.path)))
  }

  /** Writing a location as `path:line:column` and parsing it gives it back. */
  lemma ParseLocationRoundTrip(path: string, line: nat, column: nat)
    requires path != "" && NoLineTerminator(path)
    ensures ParseLocation(path + ":" + NatToString(line) + ":" + NatToString(column))
      == Some(SourceInfo(path, Some(line), Some(column), ExtractComponentName(path)))
  {
    var m := Location(path, NatToString(line), NatToString(column));
    MatchLocationOf("", m);
    assert "" + LocationText(m) == path + ":" + NatToString(line) + ":" + NatToString(column);
  }

  // ---------------------------------------------------------------------------
  // The LocatorJS id form

  /** `value.split('::')[0]` when `value.includes('::')`: the text before the
      first `::`. */
  function IdFormFile(value: string): (r: Option<string>)
    ensures r.Some? <==> Contains(value, "::")
    ensures r.Some? ==>
      OccursAt(value, "::", |r.value|) && r.value == value[..|r.value|]
      && forall j :: 0 <= j < |r.value| ==> !OccursAt(value, "::", j)
  {
    match IndexOf(value, "::")
    case None => None
    case Some(i) => Some(value[..i])
  }

  /** A file path with no `::` and no trailing colon is recovered from
      `path::id` whatever the id. */
  lemma IdFormFileOf(path: string, id: string)
    requires !Contains(path, "::")
    requires path == "" || path[|path| - 1] != ':'
    ensures IdFormFile(path + "::" + id) == Some(path)
  {
    var s := path + "::" + id;
    assert OccursAt(s, "::", |path|) by {
      assert s[|path|..|path| + 2] == "::";
    }
    forall j | 0 <= j < |path| ensures !OccursAt(s, "::", j) {
      if j + 1 < |path| {
        assert s[j..j + 2] == path[j..j + 2];
        assert !OccursAt(path, "::", j);
      } else {
        assert s[j] == path[|path| - 1];
      }
    }
    assert IndexOf(s, "::").Some?;
    assert IndexOf(s, "::").value == |path|;
    assert s[..|path|] == path;
  }

  lemma NoDoubleColonWithoutColon(s: string)
    requires ':' !in s
    ensures !Contains(s, "::")
  {
    forall j | 0 <= j <= |s| ensures !OccursAt(s, "::", j) {
      if j < |s| {
        assert s[j] in s;
      }
    }
  }

  /** Joining two texts with a single colon creates no `::` when neither
      side brings a colon to the joint. */
  lemma NoDoubleColonAcross(a: string, b: string)
    requires !Contains(a, "::") && !Contains(b, "::")
    requires a == "" || a[|a| - 1] != ':'
    requires b == "" || b[0] != ':'
    ensures !Contains(a + ":" + b, "::")
  {
    var s := a + ":" + b;
    forall j | 0 <= j <= |s| ensures !OccursAt(s, "::", j) {
      ColonPairAt(s, j);
      if j + 2 <= |s| {
        if j + 2 <= |a| {
          ColonPairAt(a, j);
          assert s[j] == a[j] && s[j + 1] == a[j + 1];
        } else if j + 1 == |a| {
          assert s[j] == a[|a| - 1];
        } else if j == |a| {
          assert s[j + 1] == b[0];
        } else {
          var k := j - |a| - 1;
          ColonPairAt(b, k);
          assert s[j] == b[k] && s[j + 1] == b[k + 1];
        }
      }
    }
  }

  /** `::` occurs at `j` exactly when the characters at `j` and `j + 1` are
      both colons. */
  lemma ColonPairAt(s: string, j: nat)
    ensures OccursAt(s, "::", j) <==> j + 2 <= |s| && s[j] == ':' && s[j + 1] == ':'
  {
    if j + 2 <= |s| {
      assert |s[j..j + 2]| == 2 && s[j..j + 2][0] == s[j] && s[j..j + 2][1] == s[j + 1];
    }
  }

  /** The source an id-form value denotes: the file path, at line 1 and
      column 1 (the id itself is not resolved). */
  function ParseIdForm(value: string): (r: Option<SourceInfo>)
    ensures r.Some? <==> Contains(value, "::")
    ensures r.Some? ==>
      r.value.fileName == IdFormFile(value).value
      && r.value.line == Some(1) && r.value.column == Some(1)
      && r.value.componentName == ExtractComponentName(r.value.fileName)
  {
    match IdFormFile(value)
    case None => None
    case Some(f) => Some(SourceInfo(f, Some(1), Some(1), ExtractComponentName(f)))
  }
}

=== FILE: options.dfy ===
/** Optional values and fallible results. JavaScript's `null`/`undefined`
    returns become `None`; thrown errors become `Err`. */
module Options {

  datatype Option<+T> = None | Some(value: T) {

    /** The wrapped value, or `default` when absent (JavaScript `x ?? d`). */
    function GetOr(default: T): T {
      match this
      case Some(v) => v
      case None => default
    }
  }

  datatype Result<+T, +E> = Ok(value: T) | Err(error: E)
}

=== FILE: preact.dfy ===
/** The Preact adapter (`src/injected/adapters/preact.ts`): the `__source`
    records that Preact's JSX development transform attaches to component
    instances (`_component.__c`) and vnodes (`_component.__v`). */
module Preact {
  import opened Options
  import opened Search
  import opened Dom
  import opened AdapterInterface

  /** `getComponentName`: the constructor's `displayName`, else its `name`,
      else 'Unknown'. */
  function ComponentName(c: PreactComponent): (r: string)
    ensures r != ""
    ensures r == "Unknown" || (c.instance.Some? && c.instance.value.ctor.Some?
      && r in {c.instance.value.ctor.value.displayName, c.instance.value.ctor.value.name})
    ensures c.instance.Some? && c.instance.value.ctor.Some? && c.instance.value.ctor.value.displayName != "" ==>
      r == c.instance.value.ctor.value.displayName
    ensures (c.instance.Some? && c.instance.value.ctor.Some? && c.instance.value.ctor.value.displayName == ""
             && c.instance.value.ctor.value.name != "") ==> r == c.instance.value.ctor.value.name
    ensures (c.instance.None? || c.instance.value.ctor.None?
             || (c.instance.value.ctor.value.displayName == "" && c.instance.value.ctor.value.name == "")) ==>
      r == "Unknown"
  {
    match c.instance
    case Some(PreactInstance(Some(ctor), _)) =>
      if ctor.displayName != "" then ctor.displayName
      else if ctor.name != "" then ctor.name
      else "Unknown"
    case _ => "Unknown"
  }

  /** `getVNodeName`: the same rule React uses for fiber names. */
  function VNodeName(v: PreactVNode): (r: string)
    ensures r != ""
    ensures v.vnodeType.HostType? && v.vnodeType.tag != "" ==> r == v.vnodeType.tag
    ensures v.vnodeType.NoType? ==> r == "Unknown"
  {
    TypeName(v.vnodeType)
  }

  /** `_component.__c.__source`, named by the component. */
  function InstanceSource(e: Element): (r: Option<SourceInfo>)
    ensures r.Some? ==>
      e.preactComponent.Some? && e.preactComponent.value.instance.Some?
      && e.preactComponent.value.instance.value.source == Some(DebugRecord(r.value))
      && r.value.componentName == ComponentName(e.preactComponent.value)
      && r.value.line.Some?
    ensures r.Some? <==>
      e.preactComponent.Some? && e.preactComponent.value.instance.Some?
      && e.preactComponent.value.instance.value.source.Some?
  {
    match e.preactComponent
    case Some(c) =>
      (match c.instance
       case Some(PreactInstance(_, Some(ds))) => Some(Located(ds, ComponentName(c)))
       case _ => None)
    case None => None
  }

  /** `_component.__v.__source`, named by the vnode. */
  function VNodeSource(e: Element): (r: Option<SourceInfo>)
    ensures r.Some? ==>
      e.preactComponent.Some? && e.preactComponent.value.vnode.Some?
      && e.preactComponent.value.vnode.value.source == Some(DebugRecord(r.value))
      && r.value.componentName == VNodeName(e.preactComponent.value.vnode.value)
      && r.value.line.Some?
    ensures r.Some? <==>
      e.preactComponent.Some? && e.preactComponent.value.vnode.Some?
      && e.preactComponent.value.vnode.value.source.Some?
  {
    match e.preactComponent
    case Some(c) =>
      (match c.vnode
       case Some(v) =>
         (match v.source
          case Some(ds) => Some(Located(ds, VNodeName(v)))
          case None => None)
       case None => None)
    case None => None
  }

  /** `getSourceInfo`: on the element, the component record before the
      vnode record; then the nearest element of the lineage with a
      component record. Vnode records are never read on ancestors, and
      positions are copied without conversion. */
  function GetSourceInfo(e: Element): (r: Option<SourceInfo>)
    ensures InstanceSource(e).Some? ==> r == InstanceSource(e)
    ensures InstanceSource(e).None? && VNodeSource(e).Some? ==> r == VNodeSource(e)
    ensures InstanceSource(e).None? && VNodeSource(e).None? ==> r == FirstSome(Lineage(e), InstanceSource)
    ensures r.None? <==>
      VNodeSource(e).None? && forall i :: 0 <= i < |Lineage(e)| ==> InstanceSource(Lineage(e)[i]).None?
  {
    if InstanceSource(e).Some? then
      assert Lineage(e)[0] == e;
      InstanceSource(e)
    else if VNodeSource(e).Some? then
      VNodeSource(e)
    else
      WalkFrom(Some(e), InstanceSource)
  }

  /** `getElementInfo`: a descriptor exactly when there is a source. */
  function GetElementInfo(e: Element): (r: Option<ElementInfo>)
    ensures r.None? <==> GetSourceInfo(e).None?
    ensures r.Some? ==> r.value == CreateElementInfo(e, GetSourceInfo(e).value)
  {
    Describe(e, GetSourceInfo(e))
  }

  /** An element carrying a component record is located at that record,
      named by the component. */
  lemma OwnInstanceRecordLocated(e: Element)
    requires e.preactComponent.Some? && e.preactComponent.value.instance.Some?
    requires e.preactComponent.value.instance.value.source.Some?
    ensures GetSourceInfo(e).Some?
    ensures DebugRecord(GetSourceInfo(e).value) == e.preactComponent.value.instance.value.source.value
    ensures GetSourceInfo(e).value.componentName == ComponentName(e.preactComponent.value)
  {
  }

  /** Without a component record, a vnode record on the element is used. */
  lemma OwnVNodeRecordLocated(e: Element)
    requires e.preactComponent.Some? && e.preactComponent.value.instance.Some? ==>
      e.preactComponent.value.instance.value.source.None?
    requires e.preactComponent.Some? && e.preactComponent.value.vnode.Some?
    requires e.preactComponent.value.vnode.value.source.Some?
    ensures GetSourceInfo(e).Some?
    ensures DebugRecord(GetSourceInfo(e).value) == e.preactComponent.value.vnode.value.source.value
    ensures GetSourceInfo(e).value.componentName == VNodeName(e.preactComponent.value.vnode.value)
  {
  }
}

=== FILE: react.dfy ===
/** The React adapter (`src/injected/adapters/react.ts`): development builds
    of React record a `_debugSource` on the fibers of JSX elements; the
    adapter finds the fiber behind an element, walks up the fiber tree to a
    fiber with such a record, and reports the component hierarchy, the
    serialised props and the inline style as well. */
module React {
  import opened Options
  import opened Text
  import opened Search
  import opened Dom

  /** How many fibers `findDebugSource` examines. */
  const DebugSourceBound: nat := 50

  /** How many fibers `getComponentHierarchy` examines. */
  const HierarchyBound: nat := 20

  // ---------------------------------------------------------------------------
  // The fiber tree

  /** The fiber followed by its `return` ancestors, nearest first. */
  function ReturnChain(f: Fiber): (r: seq<Fiber>)
    ensures |r| >= 1 && r[0] == f
    decreases f
  {
    match f.returnFiber
    case None => [f]
    case Some(p) => [f] + ReturnChain(p)
  }

  /** The fibers above `f`. */
  function Above(f: Fiber): (r: seq<Fiber>)
    ensures ReturnChain(f) == [f] + r
  {
    match f.returnFiber
    case None => []
    case Some(p) => ReturnChain(p)
  }

  /** `getFiberName`. */
  function FiberName(f: Fiber): (r: string)
    ensures r != ""
    ensures f.fiberType.HostType? && f.fiberType.tag != "" ==> r == f.fiberType.tag
    ensures f.fiberType.NoType? ==> r == "Unknown"
    ensures f.fiberType.UserType? ==>
      r == (if f.fiberType.displayName != "" then f.fiberType.displayName
            else if f.fiberType.name != "" then f.fiberType.name else "Anonymous")
  {
    TypeName(f.fiberType)
  }

  /** One step of `findDebugSource`: the fiber itself when it has a debug
      record, else its owner when the owner has one. */
  function Carrier(f: Fiber): (r: Option<Fiber>)
    ensures r.Some? ==> r.value.debugSource.Some?
    ensures f.debugSource.Some? ==> r == Some(f)
    ensures r.Some? && r != Some(f) ==> f.debugSource.None? && f.debugOwner == r
    ensures r.None? ==>
      f.debugSource.None? && (f.debugOwner.None? || f.debugOwner.value.debugSource.None?)
  {
    if f.debugSource.Some? then Some(f)
    else match f.debugOwner
      case Some(o) => if o.debugSource.Some? then Some(o) else None
      case None => None
  }

  /** The loop of `findDebugSource` from `current` with `budget` steps
      left: the first carrier among the next `budget` fibers of the chain. */
  function FindFrom(current: Option<Fiber>, budget: nat): (r: Option<Fiber>)
    ensures current.None? ==> r.None?
    ensures current.Some? ==> r == FirstSome(Prefix(ReturnChain(current.value), budget), Carrier)
    decreases budget
  {
    match current
    case None => None
    case Some(f) =>
      if budget == 0 then
        assert Prefix(ReturnChain(f), 0) == [];
        None
      else
        var r := if Carrier(f).Some? then Carrier(f) else FindFrom(f.returnFiber, budget - 1);
        assert r == FirstSome(Prefix(ReturnChain(f), budget), Carrier) by {
          PrefixCons(f, Above(f), budget);
          FirstSomeCons(f, Prefix(Above(f), budget - 1), Carrier);
          if f.returnFiber.None? {
            assert Prefix(Above(f), budget - 1) == [];
          }
        }
        r
  }

  /** `findDebugSource`: the first of the fiber and its first 49 ancestors
      that has a debug record, or whose owner has one (then the owner). A
      record farther up the tree is not found. */
  function FindDebugSource(f: Fiber): (r: Option<Fiber>)
    ensures r == FirstSome(Prefix(ReturnChain(f), DebugSourceBound), Carrier)
    ensures r.Some? ==> r.value.debugSource.Some?
  {
    FindFrom(Some(f), DebugSourceBound)
  }

  // ---------------------------------------------------------------------------
  // Props

  /** `memoizedProps || pendingProps`: an empty object is still used. */
  function RawProps(f: Fiber): (r: Option<Props>)
    ensures f.memoizedProps.Some? ==> r == f.memoizedProps
    ensures r.None? <==> f.memoizedProps.None? && f.pendingProps.None?
  {
    if f.memoizedProps.Some? then f.memoizedProps else f.pendingProps
  }

  /** The prop keys shown: not `children`, not starting with `__`. */
  predicate ShownKey(key: string) {
    key != "children" && !("__" <= key)
  }

  /** The shown props of an entry list, each value serialised at depth 0,
      in their original order. */
  function ShowProps(entries: Props): (r: ShownProps)
    ensures |r| <= |entries|
    ensures |r| == 0 <==> forall i :: 0 <= i < |entries| ==> !ShownKey(entries[i].0)
    ensures forall k :: 0 <= k < |r| ==>
      exists i :: 0 <= i < |entries| && ShownKey(entries[i].0) && r[k] == (entries[i].0, Serialize(entries[i].1, 0))
    ensures forall i :: 0 <= i < |entries| && ShownKey(entries[i].0) ==>
      (entries[i].0, Serialize(entries[i].1, 0)) in r
  {
    KeepShown(entries, ShownKey, ShowTop)
  }

  function ShowTop(v: JsValue): Shown {
    Serialize(v, 0)
  }

  /** The entries whose key `keep` accepts, each value mapped by `show`, in
      their original order. */
  function KeepShown<K, V, W>(entries: seq<(K, V)>, keep: K -> bool, show: V -> W): (r: seq<(K, W)>)
    ensures |r| <= |entries|
    ensures |r| == 0 <==> forall i :: 0 <= i < |entries| ==> !keep(entries[i].0)
    ensures forall k :: 0 <= k < |r| ==>
      exists i :: 0 <= i < |entries| && keep(entries[i].0) && r[k] == (entries[i].0, show(entries[i].1))
    ensures forall i :: 0 <= i < |entries| && keep(entries[i].0) ==> (entries[i].0, show(entries[i].1)) in r
  {
    if |entries| == 0 then []
    else
      var rest := KeepShown(entries[1..], keep, show);
      assert forall i :: 1 <= i < |entries| ==> entries[i] == entries[1..][i - 1];
      if keep(entries[0].0) then [(entries[0].0, show(entries[0].1))] + rest
      else rest
  }

  /** The head entry of a list is shown ahead of the rest, or dropped. */
  lemma KeepShownCons<K, V, W>(x: (K, V), xs: seq<(K, V)>, keep: K -> bool, show: V -> W)
    ensures KeepShown([x] + xs, keep, show)
      == (if keep(x.0) then [(x.0, show(x.1))] else []) + KeepShown(xs, keep, show)
  {
    assert ([x] + xs)[0] == x;
    assert ([x] + xs)[1..] == xs;
  }

  /** `KeepShown` keeps the order and multiplicity of the entries: it
      distributes over concatenation. */
  lemma {:induction false} KeepShownAppend<K, V, W>(a: seq<(K, V)>, b: seq<(K, V)>, keep: K -> bool, show: V -> W)
    ensures KeepShown(a + b, keep, show) == KeepShown(a, keep, show) + KeepShown(b, keep, show)
  {
    if |a| == 0 {
      assert a + b == b;
    } else {
      var x, t := a[0], a[1..];
      var head := if keep(x.0) then [(x.0, show(x.1))] else [];
      calc {
        KeepShown(a + b, keep, show);
      == { assert a + b == [x] + (t + b); }
        KeepShown([x] + (t + b), keep, show);
      == { KeepShownCons(x, t + b, keep, show); }
        head + KeepShown(t + b, keep, show);
      == { KeepShownAppend(t, b, keep, show); }
        head + (KeepShown(t, keep, show) + KeepShown(b, keep, show));
      ==
        (head + KeepShown(t, keep, show)) + KeepShown(b, keep, show);
      == { KeepShownCons(x, t, keep, show); assert a == [x] + t; }
        KeepShown(a, keep, show) + KeepShown(b, keep, show);
      }
    }
  }

  /** One entry is shown, serialised at depth 0, exactly when its key is. */
  lemma ShowPropsSingle(key: string, v: JsValue)
    ensures ShowProps([(key, v)]) == if ShownKey(key) then [(key, Serialize(v, 0))] else []
  {
    assert [(key, v)][1..] == [];
  }

  /** `getProps`: undefined when the fiber has no props or none of them is
      shown. */
  function GetProps(f: Fiber): (r: Option<ShownProps>)
    ensures r.None? <==>
      RawProps(f).None? || forall i :: 0 <= i < |RawProps(f).value| ==> !ShownKey(RawProps(f).value[i].0)
    ensures r.Some? ==> r.value != [] && r.value == ShowProps(RawProps(f).value)
  {
    match RawProps(f)
    case None => None
    case Some(p) =>
      var shown := ShowProps(p);
      if |shown| > 0 then Some(shown) else None
  }

  // ---------------------------------------------------------------------------
  // Serialising prop values

  const MaxSerializeDepth: nat := 2
  const StringCap: nat := 50
  const ArrayCap: nat := 3
  const ObjectCap: nat := 5

  /** `serializeValue`: strings are cut to 50 characters, arrays of more
      than 3 items and objects of more than 5 keys are summarised, and
      anything nested deeper than two levels becomes `[...]`. */
  function Serialize(v: JsValue, depth: nat): (r: Shown)
    ensures Capped(r, if depth > MaxSerializeDepth then 0 else MaxSerializeDepth + 1 - depth)
    ensures depth <= MaxSerializeDepth && v.JsString? && |v.s| <= StringCap ==> r == ShownText(v.s)
    ensures depth <= MaxSerializeDepth && v.JsString? && |v.s| > StringCap ==>
      r.ShownText? && |r.text| == StringCap + 3 && v.s[..StringCap] <= r.text && r.text[StringCap..] == "..."
    ensures depth > MaxSerializeDepth ==> r == ShownText("[...]")
    ensures depth <= MaxSerializeDepth && v.JsArray? && |v.items| == 0 ==> r == ShownText("[]")
    ensures depth <= MaxSerializeDepth && v.JsArray? && |v.items| > ArrayCap ==>
      r == ShownText("[" + IntToString(|v.items|) + " items]")
    ensures depth <= MaxSerializeDepth && v.JsArray? && 1 <= |v.items| <= ArrayCap ==>
      r.ShownList? && |r.items| == |v.items|
      && forall i :: 0 <= i < |v.items| ==> r.items[i] == Serialize(v.items[i], depth + 1)
    ensures depth <= MaxSerializeDepth && v.JsObject? && |v.entries| == 0 ==> r == ShownText("{}")
    ensures depth <= MaxSerializeDepth && v.JsObject? && |v.entries| > ObjectCap ==>
      r == ShownText("{" + IntToString(|v.entries|) + " keys}")
    ensures depth <= MaxSerializeDepth && v.JsObject? && 1 <= |v.entries| <= ObjectCap ==>
      r.ShownRecord? && |r.fields| == |v.entries|
      && forall i :: 0 <= i < |v.entries| ==>
        r.fields[i] == (v.entries[i].0, Serialize(v.entries[i].1, depth + 1))
    ensures depth <= MaxSerializeDepth && (v.JsNumber? || v.JsBool?) ==> Unshow(r) == v
    ensures depth <= MaxSerializeDepth && v.JsNull? ==> r == ShownText("null")
    ensures depth <= MaxSerializeDepth && v.JsUndefined? ==> r == ShownText("undefined")
    ensures depth <= MaxSerializeDepth && v.JsFunction? ==>
      r == ShownText("\U{0192} " + (if v.name == "" then "anonymous" else v.name) + "()")
    ensures depth <= MaxSerializeDepth && v.JsReactElement? ==>
      r == ShownText("<" + (if v.typeLabel == "" then "Element" else v.typeLabel) + " />")
    decreases v
  {
    if depth > MaxSerializeDepth then ShownText("[...]")
    else match v
      case JsNull => ShownText("null")
      case JsUndefined => ShownText("undefined")
      case JsString(s) => if |s| > StringCap then ShownText(s[..StringCap] + "...") else ShownText(s)
      case JsNumber(n) => ShownNumber(n)
      case JsBool(b) => ShownBool(b)
      case JsFunction(name) => ShownText("\U{0192} " + (if name == "" then "anonymous" else name) + "()")
      case JsArray(items) =>
        if |items| == 0 then ShownText("[]")
        else if |items| > ArrayCap then ShownText("[" + IntToString(|items|) + " items]")
        else ShownList(seq(|items|, i requires 0 <= i < |items| => Serialize(items[i], depth + 1)))
      case JsReactElement(typeName) => ShownText("<" + (if typeName == "" then "Element" else typeName) + " />")
      case JsObject(entries) =>
        if |entries| == 0 then ShownText("{}")
        else if |entries| > ObjectCap then ShownText("{" + IntToString(|entries|) + " keys}")
        else ShownRecord(seq(|entries|, i requires 0 <= i < |entries| =>
          (entries[i].0, Serialize(entries[i].1, depth + 1))))
  }

  /** A serialised value has at most `levels` levels of lists and records,
      each holding 1 to 3 items or 1 to 5 fields. */
  predicate Capped(s: Shown, levels: nat) {
    match s
    case ShownList(items) =>
      0 < levels && 1 <= |items| <= ArrayCap && forall i :: 0 <= i < |items| ==> Capped(items[i], levels - 1)
    case ShownRecord(fields) =>
      0 < levels && 1 <= |fields| <= ObjectCap
      && forall i :: 0 <= i < |fields| ==> Capped(fields[i].1, levels - 1)
    case _ => true
  }

  /** The value a serialised value displays. */
  function Unshow(s: Shown): JsValue {
    match s
    case ShownText(t) => JsString(t)
    case ShownNumber(n) => JsNumber(n)
    case ShownBool(b) => JsBool(b)
    case ShownList(items) => JsArray(seq(|items|, i requires 0 <= i < |items| => Unshow(items[i])))
    case ShownRecord(fields) =>
      JsObject(seq(|fields|, i requires 0 <= i < |fields| => (fields[i].0, Unshow(fields[i].1))))
  }

  /** Values that serialisation leaves intact at `depth`: short strings,
      numbers, booleans, and small enough arrays and objects of such values
      that end above the depth limit. */
  predicate Plain(v: JsValue, depth: nat) {
    match v
    case JsString(s) => |s| <= StringCap
    case JsNumber(_) => true
    case JsBool(_) => true
    case JsArray(items) =>
      depth < MaxSerializeDepth && 1 <= |items| <= ArrayCap
      && forall i :: 0 <= i < |items| ==> Plain(items[i], depth + 1)
    case JsObject(entries) =>
      depth < MaxSerializeDepth && 1 <= |entries| <= ObjectCap
      && forall i :: 0 <= i < |entries| ==> Plain(entries[i].1, depth + 1)
    case _ => false
  }

  /** Serialisation loses nothing on plain values. */
  lemma {:induction false} SerializePlain(v: JsValue, depth: nat)
    requires depth <= MaxSerializeDepth && Plain(v, depth)
    ensures Unshow(Serialize(v, depth)) == v
    decreases v
  {
    match v
    case JsString(_) =>
    case JsNumber(_) =>
    case JsBool(_) =>
    case JsArray(items) =>
      var shown := Serialize(v, depth).items;
      forall i | 0 <= i < |items| ensures Unshow(shown[i]) == items[i] {
        SerializePlain(items[i], depth + 1);
      }
      assert Unshow(Serialize(v, depth)).items == items;
    case JsObject(entries) =>
      var shown := Serialize(v, depth).fields;
      forall i | 0 <= i < |entries| ensures (shown[i].0, Unshow(shown[i].1)) == entries[i] {
        SerializePlain(entries[i].1, depth + 1);
      }
      assert Unshow(Serialize(v, depth)).entries == entries;
  }

  /** Depth is what cuts nesting short: a one-item array three levels deep
      shows its innermost level as `[...]`. */
  lemma DeepArrayCut(x: JsValue)
    ensures Serialize(JsArray([JsArray([JsArray([x])])]), 0)
      == ShownList([ShownList([ShownList([ShownText("[...]")])])])
  {
    var inner := Serialize(JsArray([x]), 2);
    assert Serialize([x][0], 3) == ShownText("[...]");
    assert inner.items == [ShownText("[...]")];
    var middle := Serialize(JsArray([JsArray([x])]), 1);
    assert middle == ShownList([inner]);
  }

  // ---------------------------------------------------------------------------
  // The component hierarchy

  /** Fibers of components: their type is neither absent nor a host tag. */
  predicate IsComponent(f: Fiber) {
    f.fiberType.UserType?
  }

  /** The component fibers of `xs`, in order: each component fiber is kept
      as often as it occurs, every other fiber is dropped, and (with
      `ComponentsOfAppend`) the order is that of `xs`. */
  function ComponentsOf(xs: seq<Fiber>): (r: seq<Fiber>)
    ensures |r| <= |xs|
    ensures forall k :: 0 <= k < |r| ==> IsComponent(r[k]) && r[k] in xs
    ensures forall i :: 0 <= i < |xs| && IsComponent(xs[i]) ==> xs[i] in r
  {
    if |xs| == 0 then []
    else
      var rest := ComponentsOf(xs[1..]);
      assert forall i :: 1 <= i < |xs| ==> xs[i] == xs[1..][i - 1];
      if IsComponent(xs[0]) then [xs[0]] + rest else rest
  }

  /** Each component fiber is kept as often as it occurs in `xs`, and every
      other fiber is dropped. */
  lemma {:induction false} ComponentsOfCount(xs: seq<Fiber>)
    ensures forall f :: multiset(ComponentsOf(xs))[f] == if IsComponent(f) then multiset(xs)[f] else 0
  {
    if |xs| > 0 {
      ComponentsOfCount(xs[1..]);
      ComponentsOfCons(xs[0], xs[1..]);
      assert xs == [xs[0]] + xs[1..];
    }
  }

  lemma ComponentsOfCons(x: Fiber, xs: seq<Fiber>)
    ensures ComponentsOf([x] + xs) == (if IsComponent(x) then [x] else []) + ComponentsOf(xs)
  {
    assert ([x] + xs)[1..] == xs;
  }

  /** The components of a concatenation are those of the first part
      followed by those of the second. */
  lemma {:induction false} ComponentsOfAppend(a: seq<Fiber>, b: seq<Fiber>)
    ensures ComponentsOf(a + b) == ComponentsOf(a) + ComponentsOf(b)
  {
    if |a| > 0 {
      var x, t := a[0], a[1..];
      var head := if IsComponent(x) then [x] else [];
      calc {
        ComponentsOf(a + b);
        { assert a + b == [x] + (t + b); }
        ComponentsOf([x] + (t + b));
        { ComponentsOfCons(x, t + b); }
        head + ComponentsOf(t + b);
        { ComponentsOfAppend(t, b); }
        head + (ComponentsOf(t) + ComponentsOf(b));
        (head + ComponentsOf(t)) + ComponentsOf(b);
        { ComponentsOfCons(x, t); assert a == [x] + t; }
        ComponentsOf(a) + ComponentsOf(b);
      }
    } else {
      assert a + b == b;
    }
  }

  /** The panel row for a component fiber. */
  function Node(f: Fiber, isTarget: bool): ComponentNode {
    var name := FiberName(f);
    ComponentNode(
      name,
      match f.debugSource
      case None => None
      case Some(ds) => Some(Located(ds, name)),
      GetProps(f),
      isTarget)
  }

  /** The loop of `getComponentHierarchy` from `current` at `depth`: one
      row for each component among the fibers still within the bound. */
  function HierarchyFrom(current: Option<Fiber>, depth: nat): (r: seq<ComponentNode>)
    requires depth <= HierarchyBound
    ensures current.None? ==> r == []
    ensures current.Some? ==>
      var cs := ComponentsOf(Prefix(ReturnChain(current.value), HierarchyBound - depth));
      |r| == |cs|
      && forall k :: 0 <= k < |r| ==>
        r[k] == Node(cs[k], k == 0 && depth == 0 && IsComponent(current.value))
  {
    RowsFrom(Node, current, HierarchyBound - depth, depth == 0)
  }

  /** The hierarchy loop with `node` building the rows, over the next `n`
      fibers; `lead` says whether `current` is the fiber the loop starts
      from. */
  function RowsFrom<N>(node: (Fiber, bool) -> N, current: Option<Fiber>, n: nat, lead: bool): (r: seq<N>)
    ensures current.None? ==> r == []
    ensures current.Some? ==>
      var cs := ComponentsOf(Prefix(ReturnChain(current.value), n));
      |r| == |cs|
      && forall k :: 0 <= k < |r| ==> r[k] == node(cs[k], k == 0 && lead && IsComponent(current.value))
  {
    match current
    case None => []
    case Some(f) =>
      if n == 0 then []
      else
        var rest := RowsFrom(node, f.returnFiber, n - 1, false);
        ComponentsStep(f, n);
        RowsCons(node, f, IsComponent(f), lead, rest, ComponentsOf(Prefix(Above(f), n - 1)));
        if IsComponent(f) then [node(f, lead)] + rest else rest
  }

  /** The components within `n` fibers of `f`: `f` when it is one, then
      those within `n - 1` fibers above it. */
  lemma ComponentsStep(f: Fiber, n: nat)
    requires n >= 1
    ensures f.returnFiber.None? ==> Prefix(Above(f), n - 1) == []
    ensures ComponentsOf(Prefix(ReturnChain(f), n))
      == (if IsComponent(f) then [f] else []) + ComponentsOf(Prefix(Above(f), n - 1))
  {
    PrefixCons(f, Above(f), n);
    ComponentsOfCons(f, Prefix(Above(f), n - 1));
  }

  /** One step of the hierarchy loop: a component fiber adds its row in
      front of the rows of the fibers above it. */
  lemma RowsCons<F, N>(node: (F, bool) -> N, f: F, isComponent: bool, lead: bool, rest: seq<N>, above: seq<F>)
    requires |rest| == |above| && forall k :: 0 <= k < |rest| ==> rest[k] == node(above[k], false)
    ensures var r := if isComponent then [node(f, lead)] + rest else rest;
      var cs := (if isComponent then [f] else []) + above;
      |r| == |cs| && forall k :: 0 <= k < |r| ==> r[k] == node(cs[k], k == 0 && lead && isComponent)
  {
    if isComponent {
      RowsConsComponent(node, f, lead, rest, above);
    } else {
      assert [] + above == above;
    }
  }

  lemma RowsConsComponent<F, N>(node: (F, bool) -> N, f: F, lead: bool, rest: seq<N>, above: seq<F>)
    requires |rest| == |above| && forall k :: 0 <= k < |rest| ==> rest[k] == node(above[k], false)
    ensures |[node(f, lead)] + rest| == |[f] + above|
    ensures forall k :: 0 <= k < |rest| + 1 ==> ([node(f, lead)] + rest)[k] == node(([f] + above)[k], k == 0 && lead)
  {
    var r := [node(f, lead)] + rest;
    var cs := [f] + above;
    forall k | 0 <= k < |r| ensures r[k] == node(cs[k], k == 0 && lead) {
      if k > 0 {
        assert r[k] == rest[k - 1];
        assert cs[k] == above[k - 1];
      }
    }
  }

  /** `getComponentHierarchy`: the components among the fiber and its first
      19 ancestors, nearest first; only the fiber itself, when it is a
      component, is marked as the current target. */
  function Hierarchy(f: Fiber): (r: seq<ComponentNode>)
    ensures |r| <= HierarchyBound
    ensures var cs := ComponentsOf(Prefix(ReturnChain(f), HierarchyBound));
      |r| == |cs| && forall k :: 0 <= k < |r| ==> r[k].name == FiberName(cs[k]) && r[k].props == GetProps(cs[k])
    ensures forall k :: 0 <= k < |r| ==> (r[k].isCurrentTarget <==> k == 0 && IsComponent(f))
    ensures IsComponent(f) ==> |r| >= 1 && r[0] == Node(f, true)
  {
    var r := HierarchyFrom(Some(f), 0);
    ComponentsOfCons(f, Prefix(Above(f), HierarchyBound - 1));
    PrefixCons(f, Above(f), HierarchyBound);
    r
  }

  // ---------------------------------------------------------------------------
  // From element to fiber

  /** The fiber an element's own fiber key holds: `None` when the element
      has no key, `Some(None)` when the key holds null. */
  function SlotOf(e: Element): (r: Option<Option<Fiber>>)
    ensures r.None? <==> e.reactSlot.NoFiberKey?
  {
    match e.reactSlot
    case NoFiberKey => None
    case FiberKey(fiber) => Some(fiber)
  }

  /** Asking one DevTools renderer for the element's fiber. A renderer that
      throws answers `None`. */
  function Ask(e: Element): (Element -> Option<Fiber>) -> Option<Fiber> {
    (renderer: Element -> Option<Fiber>) => renderer(e)
  }

  function Flatten<T>(o: Option<Option<T>>): (r: Option<T>)
    ensures r.Some? <==> o.Some? && o.value.Some?
    ensures r.Some? ==> o == Some(r)
  {
    match o
    case None => None
    case Some(inner) => inner
  }

  /** `findFiberByElement`: the element's own fiber key (even when it holds
      null); else the first renderer of the DevTools hook that knows the
      element; else the fiber key of the nearest ancestor that has one. */
  function FindFiberByElement(e: Element, renderers: seq<Element -> Option<Fiber>>): (r: Option<Fiber>)
    ensures e.reactSlot.FiberKey? ==> r == e.reactSlot.fiber
    ensures e.reactSlot.NoFiberKey? && FirstSome(renderers, Ask(e)).Some? ==> r == FirstSome(renderers, Ask(e))
    ensures e.reactSlot.NoFiberKey? && FirstSome(renderers, Ask(e)).None? ==>
      r == Flatten(FirstSome(Lineage(e), SlotOf))
    ensures r.Some? && e.reactSlot.NoFiberKey? && FirstSome(renderers, Ask(e)).None? ==>
      exists i :: 0 <= i < |Lineage(e)| && Lineage(e)[i].reactSlot == FiberKey(r)
  {
    match e.reactSlot
    case FiberKey(fiber) => fiber
    case NoFiberKey =>
      var asked := FirstSome(renderers, Ask(e));
      if asked.Some? then asked
      else
        var found := WalkFrom(Some(e), SlotOf);
        assert Flatten(found).Some? ==>
          exists i :: 0 <= i < |Lineage(e)| && Lineage(e)[i].reactSlot == FiberKey(Flatten(found)) by {
          if Flatten(found).Some? {
            var i :| 0 <= i < |Lineage(e)| && SlotOf(Lineage(e)[i]) == found;
          }
        }
        Flatten(found)
  }

  // ---------------------------------------------------------------------------
  // Inline style

  /** One `prop: value` rule of a `style` attribute: the text before the
      first ':' and the text between it and the next, both trimmed; kept only
      when neither is empty. */
  function StyleEntry(rule: string): (r: Option<(string, string)>)
    ensures r.Some? ==> r.value.0 != "" && r.value.1 != "" && Trimmed(r.value.0) && Trimmed(r.value.1)
    ensures r.Some? ==> ':' !in r.value.0 && ':' !in r.value.1
    ensures ':' !in rule ==> r.None?
  {
    var parts := Split(rule, ':');
    assert ':' !in rule ==> |parts| == 1 by {
      if ':' !in rule {
        SplitNoSeparator(rule, ':');
      }
    }
    var prop := Trim(parts[0]);
    var value := if |parts| > 1 then Trim(parts[1]) else "";
    if prop != "" && value != "" then Some((prop, value)) else None
  }

  /** What each rule of a `style` attribute yields, in order. */
  function Entries(rules: seq<string>): (r: seq<Option<(string, string)>>)
    ensures |r| == |rules| && forall i :: 0 <= i < |rules| ==> r[i] == StyleEntry(rules[i])
  {
    seq(|rules|, i requires 0 <= i < |rules| => StyleEntry(rules[i]))
  }

  /** The entry yields a value for `key`. */
  predicate Declares(entry: Option<(string, string)>, key: string) {
    entry.Some? && entry.value.0 == key
  }

  /** `value` is what the last entry of `es` for `key` gives it. */
  predicate LastEntry(es: seq<Option<(string, string)>>, key: string, value: string) {
    exists i :: 0 <= i < |es| && es[i] == Some((key, value))
      && forall j :: i < j < |es| ==> !Declares(es[j], key)
  }

  /** `m` maps exactly the keys some entry declares, each to the value of
      its last declaration. */
  ghost predicate Folded(es: seq<Option<(string, string)>>, m: map<string, string>) {
    (forall key :: key in m <==> exists i :: 0 <= i < |es| && Declares(es[i], key))
    && (forall key :: key in m ==> LastEntry(es, key, m[key]))
  }

  /** `style[prop] = val` for one rule that yields an entry. */
  function Apply(m: map<string, string>, entry: Option<(string, string)>): (r: map<string, string>)
    ensures forall key :: key in r <==> key in m || Declares(entry, key)
    ensures forall key :: Declares(entry, key) ==> r[key] == entry.value.1
    ensures forall key :: key in m && !Declares(entry, key) ==> r[key] == m[key]
  {
    match entry
    case None => m
    case Some(e) => m[e.0 := e.1]
  }

  /** Applying the next entry adds exactly the key it declares. */
  lemma {:induction false} FoldStepKeys(es: seq<Option<(string, string)>>, m: map<string, string>, r: map<string, string>)
    requires |es| > 0 && r == Apply(m, es[|es| - 1])
    requires forall key :: key in m <==> exists i :: 0 <= i < |es| - 1 && Declares(es[i], key)
    ensures forall key :: key in r <==> exists i :: 0 <= i < |es| && Declares(es[i], key)
  {
    var n := |es| - 1;
    forall key ensures key in r <==> exists i :: 0 <= i < |es| && Declares(es[i], key) {
      if exists i :: 0 <= i < |es| && Declares(es[i], key) {
        var i :| 0 <= i < |es| && Declares(es[i], key);
        if i < n {
          assert key in m;
        }
      }
    }
  }

  /** Applying the next entry makes it the last declaration of its key and
      leaves the other keys' last declarations alone. */
  lemma {:induction false} FoldStepValues(es: seq<Option<(string, string)>>, m: map<string, string>, r: map<string, string>)
    requires |es| > 0 && r == Apply(m, es[|es| - 1])
    requires forall key :: key in m ==> LastEntry(es[..|es| - 1], key, m[key])
    ensures forall key :: key in r ==> LastEntry(es, key, r[key])
  {
    var n := |es| - 1;
    var front := es[..n];
    forall key | key in r ensures LastEntry(es, key, r[key]) {
      if Declares(es[n], key) {
        assert es[n] == Some((key, r[key]));
      } else {
        assert LastEntry(front, key, m[key]);
        var i :| 0 <= i < n && front[i] == Some((key, m[key]))
          && forall j :: i < j < n ==> !Declares(front[j], key);
        assert es[i] == Some((key, r[key]));
        assert forall j :: i < j < |es| ==> !Declares(es[j], key) by {
          assert forall j :: i < j < n ==> front[j] == es[j];
        }
      }
    }
  }

  /** The entries folded into a map from left to right: each declared
      property maps to the value of its last declaration. */
  function FoldEntries(es: seq<Option<(string, string)>>): (r: map<string, string>)
    ensures Folded(es, r)
  {
    if |es| == 0 then map[]
    else
      var m := FoldEntries(es[..|es| - 1]);
      assert forall key :: key in m <==> exists i :: 0 <= i < |es| - 1 && Declares(es[i], key) by {
        assert forall i :: 0 <= i < |es| - 1 ==> es[..|es| - 1][i] == es[i];
      }
      FoldStepKeys(es, m, Apply(m, es[|es| - 1]));
      FoldStepValues(es, m, Apply(m, es[|es| - 1]));
      Apply(m, es[|es| - 1])
  }

  /** The style map `getElementInfo` builds from the `style` attribute:
      rules are separated by ';' and a later rule for the same property
      wins. */
  function InlineStyleMap(style: string): (r: map<string, string>)
    ensures style == "" ==> r == map[]
    ensures Folded(Entries(Split(style, ';')), r)
    ensures forall key :: key in r ==> key != "" && r[key] != "" && ':' !in r[key]
  {
    var es := Entries(Split(style, ';'));
    if style == "" then
      EmptyStyleEntries();
      map[]
    else
      var r := FoldEntries(es);
      FoldedStyleClean(es, r);
      r
  }

  lemma EmptyStyleEntries()
    ensures Entries(Split("", ';')) == [None]
  {
    SplitNoSeparator("", ';');
  }

  /** Every property the fold keeps was declared by some rule, so it and its
      value are non-empty and its value holds no ':'. */
  lemma FoldedStyleClean(es: seq<Option<(string, string)>>, r: map<string, string>)
    requires Folded(es, r)
    requires forall i :: 0 <= i < |es| && es[i].Some? ==> es[i].value.1 != "" && ':' !in es[i].value.1 && es[i].value.0 != ""
    ensures forall key :: key in r ==> key != "" && r[key] != "" && ':' !in r[key]
  {
    forall key | key in r ensures key != "" && r[key] != "" && ':' !in r[key] {
      assert LastEntry(es, key, r[key]);
      var i :| 0 <= i < |es| && es[i] == Some((key, r[key]));
    }
  }

  /** A value holding ':' is cut there: `background: url(a:b)` keeps only
      `url(a`, as if the rule ended at the second colon. */
  lemma {:induction false} ValueCutAtColon(prop: string, value: string, rest: string)
    requires ':' !in prop && ':' !in value
    ensures StyleEntry(prop + ":" + value + ":" + rest) == StyleEntry(prop + ":" + value)
  {
    assert prop + ":" + value + ":" + rest == prop + [':'] + (value + [':'] + rest);
    assert prop + ":" + value == prop + [':'] + value;
    SplitAfterSeparator(prop, value + [':'] + rest, ':');
    SplitAfterSeparator(value, rest, ':');
    SplitAfterSeparator(prop, value, ':');
    SplitNoSeparator(value, ':');
  }

  /** A well-formed `prop:value` rule yields exactly its two parts. */
  lemma {:induction false} StyleEntryOf(prop: string, value: string)
    requires prop != "" && value != "" && Trimmed(prop) && Trimmed(value)
    requires ':' !in prop && ':' !in value
    ensures StyleEntry(prop + ":" + value) == Some((prop, value))
  {
    assert prop + ":" + value == prop + [':'] + value;
    SplitAfterSeparator(prop, value, ':');
    SplitNoSeparator(value, ':');
  }

  /** Folding a single entry gives the one-key map. */
  lemma FoldSingle(key: string, value: string)
    ensures FoldEntries([Some((key, value))]) == map[key := value]
  {
    var es := [Some((key, value))];
    var m := FoldEntries(es);
    assert Declares(es[0], key);
    forall k | k in m ensures k == key {
      var i :| 0 <= i < |es| && Declares(es[i], k);
    }
    assert LastEntry(es, key, m[key]);
  }

  /** A single well-formed rule yields the one entry it declares. */
  lemma SingleRule(prop: string, value: string)
    requires prop != "" && value != "" && Trimmed(prop) && Trimmed(value)
    requires ':' !in prop && ':' !in value && ';' !in prop && ';' !in value
    ensures InlineStyleMap(prop + ":" + value) == map[prop := value]
  {
    var rule := prop + ":" + value;
    StyleEntryOf(prop, value);
    assert ';' !in rule;
    SplitNoSeparator(rule, ';');
    assert Entries(Split(rule, ';')) == [Some((prop, value))];
    FoldSingle(prop, value);
  }

  // ---------------------------------------------------------------------------
  // The adapter

  /** `getSourceInfo`: the debug record found from the element's fiber,
      named after the element's own fiber (for a host element, its tag). */
  function GetSourceInfo(e: Element, renderers: seq<Element -> Option<Fiber>>): (r: Option<SourceInfo>)
    ensures r.Some? <==>
      FindFiberByElement(e, renderers).Some? && FindDebugSource(FindFiberByElement(e, renderers).value).Some?
    ensures r.Some? ==>
      var f := FindFiberByElement(e, renderers).value;
      FindDebugSource(f).value.debugSource == Some(DebugRecord(r.value))
      && r.value.componentName == FiberName(f)
  {
    match FindFiberByElement(e, renderers)
    case None => None
    case Some(f) =>
      match FindDebugSource(f)
      case None => None
      case Some(carrier) => Some(Located(carrier.debugSource.value, FiberName(f)))
  }

  /** `getElementInfo`: the same location, but named after the fiber that
      carries the debug record, together with the hierarchy and props from
      the element's fiber and the element's class and inline style. An SVG
      element's class is reported as empty, since its `className` is not a
      string. */
  function GetElementInfo(e: Element, renderers: seq<Element -> Option<Fiber>>): (r: Option<ElementInfo>)
    ensures r.Some? <==> GetSourceInfo(e, renderers).Some?
    ensures r.Some? ==>
      var f := FindFiberByElement(e, renderers).value;
      var carrier := FindDebugSource(f).value;
      r.value.source == GetSourceInfo(e, renderers).value.(componentName := FiberName(carrier))
      && r.value.componentName == FiberName(carrier)
      && r.value.hierarchy == Some(Hierarchy(f))
      && r.value.props == GetProps(f)
      && r.value.element == Some(e)
      && r.value.className == Some(if e.classNameIsString then ClassName(e) else "")
      && r.value.style == Some(InlineStyleMap(StyleAttr(e)))
    ensures r.Some? ==>
      |r.value.tagName| == |e.tagName|
      && forall i :: 0 <= i < |e.tagName| ==> r.value.tagName[i] == LowerChar(e.tagName[i])
  {
    match FindFiberByElement(e, renderers)
    case None => None
    case Some(f) =>
      match FindDebugSource(f)
      case None => None
      case Some(carrier) =>
        var name := FiberName(carrier);
        Some(ElementInfo(
          Located(carrier.debugSource.value, name),
          name,
          ToLower(e.tagName),
          Some(Hierarchy(f)),
          GetProps(f),
          Some(e),
          Some(StringClassName(e)),
          Some(InlineStyleMap(StyleAttr(e)))))
  }

  /** A host `div` rendered by `App` (which carries the record): the source
      is named `div`, the descriptor `App`. */
  lemma HostElementNames(ds: DebugSource, e: Element)
    requires
      var app := Fiber(UserType("", "App"), None, None, None, Some(ds), None);
      e.reactSlot == FiberKey(Some(Fiber(HostType("div"), None, None, None, None, Some(app))))
    ensures GetSourceInfo(e, []).Some? && GetSourceInfo(e, []).value.componentName == "div"
    ensures GetElementInfo(e, []).Some? && GetElementInfo(e, []).value.componentName == "App"
  {
    var app := Fiber(UserType("", "App"), None, None, None, Some(ds), None);
    var div := Fiber(HostType("div"), None, None, None, None, Some(app));
    assert Carrier(div) == Some(app);
    assert ReturnChain(div) == [div];
    assert Prefix([div], DebugSourceBound) == [div];
    FirstSomeCons(div, [], Carrier);
  }
}

=== FILE: registry.dfy ===
/** The adapter registry of the injected script (`src/injected/index.ts`):
    the six framework adapters in priority order, their applicability
    probes, and the resolution of an element's source location and element
    descriptor by the first applicable adapter that has an answer. */
module Registry {
  import opened Options
  import opened Search
  import opened Sorting
  import opened Dom
  import DataAttrs

  datatype Adapter = ReactAdapter | VueAdapter | SvelteAdapter | SolidAdapter | PreactAdapter | DataAttributeAdapter

  /** Each adapter's `priority`. */
  function Priority(a: Adapter): int {
    match a
    case ReactAdapter => 100
    case VueAdapter => 90
    case SvelteAdapter => 80
    case SolidAdapter => 70
    case PreactAdapter => 60
    case DataAttributeAdapter => 0
  }

  /** The order in which the adapters are constructed. */
  const Declared: seq<Adapter> :=
    [ReactAdapter, VueAdapter, SvelteAdapter, SolidAdapter, PreactAdapter, DataAttributeAdapter]

  /** The comparator `(a, b) => b.priority - a.priority`, as
      "`compare(a, b) <= 0`". */
  function ByPriority(): (Adapter, Adapter) -> bool {
    (a: Adapter, b: Adapter) => Priority(b) - Priority(a) <= 0
  }

  /** `this.adapters`: the constructed adapters, sorted. */
  function Adapters(): (r: seq<Adapter>)
    ensures multiset(r) == multiset(Declared)
  {
    InsertionSort(Declared, ByPriority())
  }

  /** The comparator orders adapters by descending priority, consistently. */
  lemma ByPriorityConsistent()
    ensures TotalPreorder(ByPriority())
    ensures forall a, b :: ByPriority()(a, b) <==> Priority(a) >= Priority(b)
  {
  }

  /** Whatever order the adapters are constructed in, the sorted list runs
      from the highest priority to the lowest. */
  lemma SortedByPriority(xs: seq<Adapter>)
    ensures var r := InsertionSort(xs, ByPriority());
      multiset(r) == multiset(xs)
      && forall i, j :: 0 <= i < j < |r| ==> Priority(r[i]) >= Priority(r[j])
  {
    ByPriorityConsistent();
    InsertionSortSorted(xs, ByPriority());
  }

  /** The adapters are already constructed in priority order, so the sort
      keeps that order: React, Vue, Svelte, Solid, Preact, and the data
      attribute fallback last. Priorities strictly decrease along it. */
  lemma AdaptersOrder()
    ensures Adapters() == Declared
    ensures forall i, j :: 0 <= i < j < |Declared| ==> Priority(Declared[i]) > Priority(Declared[j])
    ensures Declared[|Declared| - 1] == DataAttributeAdapter
  {
    AdaptersAreDeclared();
    DeclaredByPriority();
  }

  lemma AdaptersAreDeclared()
    ensures Adapters() == Declared
  {
    DeclaredByPriority();
    InsertionSortOfSorted(Declared, ByPriority());
  }

  /** Every adapter takes part. */
  lemma EveryAdapterListed(a: Adapter)
    ensures a in Adapters()
  {
    AdaptersAreDeclared();
    InDeclared(a);
  }

  lemma InDeclared(a: Adapter)
    ensures a in Declared
  {
    assert Declared[0] == ReactAdapter && Declared[1] == VueAdapter && Declared[2] == SvelteAdapter;
    assert Declared[3] == SolidAdapter && Declared[4] == PreactAdapter && Declared[5] == DataAttributeAdapter;
  }

  lemma DeclaredByPriority()
    ensures forall i, j :: 0 <= i < j < |Declared| ==> Priority(Declared[i]) > Priority(Declared[j])
    ensures Sorted(Declared, ByPriority())
  {
  }

  // ---------------------------------------------------------------------------
  // Applicability

  /** What the applicability probes and the adapters read besides the
      element: the page's globals, the document's elements in document
      order (`querySelectorAll('*')`), the React devtools renderers, and the
      line and column values the `data-source-file` parser reads. */
  datatype Page = Page(
    reactDevtoolsHook: bool,
    vueGlobal: bool,
    vueDevtoolsHook: bool,
    svelteHmr: bool,
    sapper: bool,
    solidHydration: bool,
    solidGlobal: bool,
    preactDevtools: bool,
    elements: seq<Element>,
    renderers: seq<Element -> Option<Fiber>>,
    loose: DataAttrs.LooseAttrs)

  /** The React probe looks at the document's elements up to and including
      this position: its loop stops after the element whose index exceeds
      10. */
  const ReactScanLast: nat := 11

  /** The React probe's element loop from position `i` on: an element with
      a fiber key answers yes; the loop stops after position 11. */
  function FiberKeyScan(els: seq<Element>, i: nat): (r: bool)
    requires i <= ReactScanLast
    ensures r <==> exists j :: i <= j < |els| && j <= ReactScanLast && els[j].reactSlot.FiberKey?
    decreases |els| - i
  {
    if i >= |els| then false
    else if els[i].reactSlot.FiberKey? then true
    else if i > 10 then false
    else FiberKeyScan(els, i + 1)
  }

  /** `isApplicable` of each adapter. */
  predicate Applicable(page: Page, a: Adapter) {
    match a
    case ReactAdapter => page.reactDevtoolsHook || FiberKeyScan(page.elements, 0)
    case VueAdapter => page.vueGlobal || page.vueDevtoolsHook
    case SvelteAdapter =>
      page.svelteHmr || page.sapper
      || exists i :: 0 <= i < |page.elements| && page.elements[i].svelteMeta.Some?
    case SolidAdapter =>
      page.solidHydration || page.solidGlobal
      || exists i :: 0 <= i < |page.elements| && "data-hk" in page.elements[i].attrs
    case PreactAdapter =>
      page.preactDevtools
      || exists i :: 0 <= i < |page.elements| && (page.elements[i].preactAttr || page.elements[i].preactComponent.Some?)
    case DataAttributeAdapter => true
  }

  /** A fiber key on the twelfth element of the document or later is not
      seen by the React probe. */
  lemma ReactProbeBound(page: Page)
    requires !page.reactDevtoolsHook
    requires forall j :: 0 <= j < |page.elements| && j <= ReactScanLast ==> page.elements[j].reactSlot.NoFiberKey?
    ensures !Applicable(page, ReactAdapter)
  {
  }

  // ---------------------------------------------------------------------------
  // Resolution

  /** One step of the resolution loop: an inapplicable adapter is skipped. */
  function Skip<T>(applicable: Adapter -> bool, answer: Adapter -> Option<T>): Adapter -> Option<T> {
    a => if applicable(a) then answer(a) else None
  }

  /** The resolution loop over `adapters`: the answer of the first
      applicable adapter that has one. No later adapter is asked and
      answers are never combined. */
  function Resolve<T>(adapters: seq<Adapter>, applicable: Adapter -> bool, answer: Adapter -> Option<T>): (r: Option<T>)
    ensures r.None? <==>
      forall i :: 0 <= i < |adapters| && applicable(adapters[i]) ==> answer(adapters[i]).None?
    ensures r.Some? ==>
      exists i :: 0 <= i < |adapters| && applicable(adapters[i]) && r == answer(adapters[i])
        && forall j :: 0 <= j < i && applicable(adapters[j]) ==> answer(adapters[j]).None?
  {
    var step := Skip(applicable, answer);
    var r := FirstSome(adapters, step);
    assert forall a :: step(a) == if applicable(a) then answer(a) else None;
    r
  }

  /** Two kinds of answer that the adapters have for the same elements are
      resolved by the same adapter. */
  lemma ResolveAgree<B, C>(adapters: seq<Adapter>, applicable: Adapter -> bool, f: Adapter -> Option<B>, g: Adapter -> Option<C>)
    requires forall a :: f(a).Some? <==> g(a).Some?
    ensures Resolve(adapters, applicable, f).Some? <==> Resolve(adapters, applicable, g).Some?
    ensures Resolve(adapters, applicable, f).Some? ==>
      exists i :: 0 <= i < |adapters| && applicable(adapters[i])
        && Resolve(adapters, applicable, f) == f(adapters[i]) && Resolve(adapters, applicable, g) == g(adapters[i])
  {
    var sf, sg := Skip(applicable, f), Skip(applicable, g);
    assert forall a :: sf(a) == if applicable(a) then f(a) else None;
    assert forall a :: sg(a) == if applicable(a) then g(a) else None;
    FirstSomeAgree(adapters, sf, sg);
  }

  /** Along adapters listed by strictly decreasing priority, an applicable
      adapter with an answer decides the resolution when no applicable
      adapter of higher priority has one. */
  lemma ResolveHighest<T>(adapters: seq<Adapter>, applicable: Adapter -> bool, answer: Adapter -> Option<T>, a: Adapter)
    requires forall i, j :: 0 <= i < j < |adapters| ==> Priority(adapters[i]) > Priority(adapters[j])
    requires a in adapters && applicable(a) && answer(a).Some?
    requires forall b :: Priority(b) > Priority(a) && applicable(b) ==> answer(b).None?
    ensures Resolve(adapters, applicable, answer) == answer(a)
  {
    var step := Skip(applicable, answer);
    assert forall b :: step(b) == if applicable(b) then answer(b) else None;
    var k :| 0 <= k < |adapters| && adapters[k] == a;
    forall j | 0 <= j < k ensures step(adapters[j]).None? {
      assert Priority(adapters[j]) > Priority(a);
    }
    FirstSomeAt(adapters, step, k);
  }

  /** An applicable adapter with an answer makes the resolution succeed. */
  lemma ResolveFinds<T>(adapters: seq<Adapter>, applicable: Adapter -> bool, answer: Adapter -> Option<T>, a: Adapter)
    requires a in adapters && applicable(a) && answer(a).Some?
    ensures Resolve(adapters, applicable, answer).Some?
  {
  }

  /** `isApplicable` of a page, as the registry asks it. */
  function Probe(page: Page): Adapter -> bool {
    a => Applicable(page, a)
  }


  /** An applicable adapter with an answer decides the registry's answer
      when no applicable adapter of higher priority has one; this holds
      for the source query and the descriptor query alike. */
  lemma HighestPriorityAnswers<T>(page: Page, answer: Adapter -> Option<T>, a: Adapter)
    requires Applicable(page, a) && answer(a).Some?
    requires forall b :: Priority(b) > Priority(a) && Applicable(page, b) ==> answer(b).None?
    ensures Resolve(Adapters(), Probe(page), answer) == answer(a)
  {
    AdaptersAreDeclared();
    DeclaredByPriority();
    InDeclared(a);
    ResolveHighest(Declared, Probe(page), answer, a);
  }

  /** The data attribute adapter is always applicable and asked last, so
      whatever it can answer gets an answer. */
  lemma FallbackAnswers<T>(page: Page, answer: Adapter -> Option<T>)
    requires answer(DataAttributeAdapter).Some?
    ensures Resolve(Adapters(), Probe(page), answer).Some?
  {
    assert Probe(page)(DataAttributeAdapter);
    InDeclared(DataAttributeAdapter);
    ResolveFinds(Declared, Probe(page), answer, DataAttributeAdapter);
    AdaptersAreDeclared();
  }
}

/** The registry's two queries, `getSourceInfo` and `getElementInfo` of
    `src/injected/index.ts`, over the six adapters' own answers. */
module RegistryQueries {
  import opened Options
  import opened Dom
  import opened Registry
  import DataAttrs
  import React
  import Vue
  import Svelte
  import Solid
  import Preact

  /** The adapter's `getSourceInfo`. */
  function SourceOf(page: Page, a: Adapter, e: Element): Option<SourceInfo> {
    match a
    case ReactAdapter => React.GetSourceInfo(e, page.renderers)
    case VueAdapter => Vue.GetSourceInfo(e)
    case SvelteAdapter => Svelte.GetSourceInfo(e)
    case SolidAdapter => Solid.GetSourceInfo(e)
    case PreactAdapter => Preact.GetSourceInfo(e)
    case DataAttributeAdapter => DataAttrs.GetSourceInfo(e, page.loose)
  }

  /** The adapter's `getElementInfo`. */
  function InfoOf(page: Page, a: Adapter, e: Element): Option<ElementInfo> {
    match a
    case ReactAdapter => React.GetElementInfo(e, page.renderers)
    case VueAdapter => Vue.GetElementInfo(e)
    case SvelteAdapter => Svelte.GetElementInfo(e)
    case SolidAdapter => Solid.GetElementInfo(e)
    case PreactAdapter => Preact.GetElementInfo(e)
    case DataAttributeAdapter => DataAttrs.GetElementInfo(e, page.loose)
  }

  /** Every adapter has a descriptor for exactly the elements it has a
      source location for. */
  lemma InfoExactlyWhenSource(page: Page, a: Adapter, e: Element)
    ensures InfoOf(page, a, e).Some? <==> SourceOf(page, a, e).Some?
  {
    match a
    case ReactAdapter => ReactInfoWhenSource(page, e);
    case VueAdapter => VueInfoWhenSource(page, e);
    case SvelteAdapter => SvelteInfoWhenSource(page, e);
    case SolidAdapter => SolidInfoWhenSource(page, e);
    case PreactAdapter => PreactInfoWhenSource(page, e);
    case DataAttributeAdapter => DataAttrsInfoWhenSource(page, e);
  }

  lemma ReactInfoWhenSource(page: Page, e: Element)
    ensures InfoOf(page, ReactAdapter, e).Some? <==> SourceOf(page, ReactAdapter, e).Some?
  {
  }

  lemma VueInfoWhenSource(page: Page, e: Element)
    ensures InfoOf(page, VueAdapter, e).Some? <==> SourceOf(page, VueAdapter, e).Some?
  {
  }

  lemma SvelteInfoWhenSource(page: Page, e: Element)
    ensures InfoOf(page, SvelteAdapter, e).Some? <==> SourceOf(page, SvelteAdapter, e).Some?
  {
  }

  lemma SolidInfoWhenSource(page: Page, e: Element)
    ensures InfoOf(page, SolidAdapter, e).Some? <==> SourceOf(page, SolidAdapter, e).Some?
  {
  }

  lemma PreactInfoWhenSource(page: Page, e: Element)
    ensures InfoOf(page, PreactAdapter, e).Some? <==> SourceOf(page, PreactAdapter, e).Some?
  {
  }

  lemma DataAttrsInfoWhenSource(page: Page, e: Element)
    ensures InfoOf(page, DataAttributeAdapter, e).Some? <==> SourceOf(page, DataAttributeAdapter, e).Some?
  {
  }

  function Sources(page: Page, e: Element): Adapter -> Option<SourceInfo> {
    a => SourceOf(page, a, e)
  }

  function Infos(page: Page, e: Element): Adapter -> Option<ElementInfo> {
    a => InfoOf(page, a, e)
  }

  /** `getSourceInfo` of the registry. */
  function GetSourceInfo(page: Page, e: Element): Option<SourceInfo> {
    Resolve(Adapters(), Probe(page), Sources(page, e))
  }

  /** `getElementInfo` of the registry. */
  function GetElementInfo(page: Page, e: Element): Option<ElementInfo> {
    Resolve(Adapters(), Probe(page), Infos(page, e))
  }

  /** The descriptor and the source location come from the same adapter:
      the first applicable one that knows the element. In particular there
      is a descriptor exactly when there is a source location. */
  lemma SameAdapter(page: Page, e: Element)
    ensures GetElementInfo(page, e).Some? <==> GetSourceInfo(page, e).Some?
    ensures GetSourceInfo(page, e).Some? ==>
      exists i :: 0 <= i < |Adapters()| && Applicable(page, Adapters()[i])
        && GetSourceInfo(page, e) == SourceOf(page, Adapters()[i], e)
        && GetElementInfo(page, e) == InfoOf(page, Adapters()[i], e)
  {
    forall a ensures Sources(page, e)(a).Some? <==> Infos(page, e)(a).Some? {
      InfoExactlyWhenSource(page, a, e);
    }
    ResolveAgree(Adapters(), Probe(page), Sources(page, e), Infos(page, e));
  }

  /** An element the data attributes locate is always located. */
  lemma FallbackLocates(page: Page, e: Element)
    requires DataAttrs.GetSourceInfo(e, page.loose).Some?
    ensures GetSourceInfo(page, e).Some?
  {
    DataAttrsAnswer(page, e);
    FallbackAnswers(page, Sources(page, e));
  }

  lemma DataAttrsAnswer(page: Page, e: Element)
    ensures Sources(page, e)(DataAttributeAdapter).Some? <==> DataAttrs.GetSourceInfo(e, page.loose).Some?
  {
  }

  /** The element's source location comes from the applicable adapter of
      highest priority that locates it. */
  lemma HighestPriorityLocates(page: Page, e: Element, a: Adapter)
    requires Applicable(page, a) && Sources(page, e)(a).Some?
    requires forall b :: Priority(b) > Priority(a) && Applicable(page, b) ==> Sources(page, e)(b).None?
    ensures GetSourceInfo(page, e) == Sources(page, e)(a)
  {
    HighestPriorityAnswers(page, Sources(page, e), a);
  }
}

=== FILE: search.dfy ===
/** "The first one that gives an answer": the search every adapter walk and
    the adapter registry perform. */
module Search {
  import opened Options

  /** The first `Some` that `f` yields along `xs`. */
  function FirstSome<A, B>(xs: seq<A>, f: A -> Option<B>): (r: Option<B>)
    ensures r.None? <==> forall i :: 0 <= i < |xs| ==> f(xs[i]).None?
    ensures r.Some? ==>
      exists i :: 0 <= i < |xs| && f(xs[i]) == r && forall j :: 0 <= j < i ==> f(xs[j]).None?
  {
    if |xs| == 0 then None
    else if f(xs[0]).Some? then f(xs[0])
    else
      var r := FirstSome(xs[1..], f);
      assert forall i :: 1 <= i < |xs| ==> xs[i] == xs[1..][i - 1];
      r
  }

  /** The answer is decided by the first element that has one. */
  lemma FirstSomeAt<A, B>(xs: seq<A>, f: A -> Option<B>, i: nat)
    requires i < |xs| && f(xs[i]).Some?
    requires forall j :: 0 <= j < i ==> f(xs[j]).None?
    ensures FirstSome(xs, f) == f(xs[i])
  {
    var r := FirstSome(xs, f);
    var k :| 0 <= k < |xs| && f(xs[k]) == r && forall j :: 0 <= j < k ==> f(xs[j]).None?;
    if k < i {
    } else if i < k {
    }
  }

  lemma FirstSomeCons<A, B>(x: A, xs: seq<A>, f: A -> Option<B>)
    ensures FirstSome([x] + xs, f) == if f(x).Some? then f(x) else FirstSome(xs, f)
  {
    assert ([x] + xs)[1..] == xs;
  }

  /** Searching a prefix agrees with searching the whole sequence when the
      prefix already holds an answer. */
  lemma FirstSomePrefix<A, B>(xs: seq<A>, n: nat, f: A -> Option<B>)
    requires n <= |xs|
    requires FirstSome(xs[..n], f).Some?
    ensures FirstSome(xs, f) == FirstSome(xs[..n], f)
  {
    var p := xs[..n];
    var k :| 0 <= k < |p| && f(p[k]) == FirstSome(p, f) && forall j :: 0 <= j < k ==> f(p[j]).None?;
    assert p[k] == xs[k];
    forall j | 0 <= j < k ensures f(xs[j]).None? {
      assert p[j] == xs[j];
    }
    FirstSomeAt(xs, f, k);
  }

  /** Two searches whose answers exist at the same places stop at the same
      place. */
  lemma FirstSomeAgree<A, B, C>(xs: seq<A>, f: A -> Option<B>, g: A -> Option<C>)
    requires forall i :: 0 <= i < |xs| ==> (f(xs[i]).Some? <==> g(xs[i]).Some?)
    ensures FirstSome(xs, f).Some? <==> FirstSome(xs, g).Some?
    ensures FirstSome(xs, f).Some? ==>
      exists i :: 0 <= i < |xs| && FirstSome(xs, f) == f(xs[i]) && FirstSome(xs, g) == g(xs[i])
  {
    if FirstSome(xs, f).Some? {
      var k :| 0 <= k < |xs| && f(xs[k]) == FirstSome(xs, f) && forall j :: 0 <= j < k ==> f(xs[j]).None?;
      FirstSomeAt(xs, g, k);
    }
  }

  /** The first `n` elements of `xs` (all of them when there are fewer). */
  function Prefix<A>(xs: seq<A>, n: nat): (r: seq<A>)
    ensures |r| <= n && r <= xs
    ensures |xs| <= n ==> r == xs
    ensures |xs| > n ==> |r| == n
  {
    if |xs| <= n then xs else xs[..n]
  }

  /** Dropping the head of a sequence and the bound by one commute. */
  lemma PrefixCons<A>(x: A, xs: seq<A>, n: nat)
    requires n >= 1
    ensures Prefix([x] + xs, n) == [x] + Prefix(xs, n - 1)
  {
    if |xs| > n - 1 {
      assert ([x] + xs)[..n] == [x] + xs[..n - 1];
    }
  }

  /** The answers `f` gives, in order, skipping the elements it rejects
      (`xs.map(f).filter(…)` fused). */
  function FilterMap<A, B>(xs: seq<A>, f: A -> Option<B>): (r: seq<B>)
    ensures |r| <= |xs|
  {
    if |xs| == 0 then []
    else
      var rest := FilterMap(xs[1..], f);
      match f(xs[0])
      case None => rest
      case Some(y) => [y] + rest
  }

  lemma {:induction false} FilterMapAppend<A, B>(xs: seq<A>, ys: seq<A>, f: A -> Option<B>)
    ensures FilterMap(xs + ys, f) == FilterMap(xs, f) + FilterMap(ys, f)
  {
    if |xs| > 0 {
      assert (xs + ys)[0] == xs[0];
      assert (xs + ys)[1..] == xs[1..] + ys;
      FilterMapAppend(xs[1..], ys, f);
    } else {
      assert xs + ys == ys;
    }
  }

  /** Every answer kept satisfies what every answer of `f` satisfies. */
  lemma {:induction false} FilterMapAll<A, B>(xs: seq<A>, f: A -> Option<B>, p: B -> bool)
    requires forall j :: 0 <= j < |xs| && f(xs[j]).Some? ==> p(f(xs[j]).value)
    ensures forall k :: 0 <= k < |FilterMap(xs, f)| ==> p(FilterMap(xs, f)[k])
  {
    if |xs| > 0 {
      assert forall j :: 0 <= j < |xs| - 1 ==> xs[1..][j] == xs[j + 1];
      FilterMapAll(xs[1..], f, p);
    }
  }
}

=== FILE: solid.dfy ===
/** The SolidJS adapter (`src/injected/adapters/solid.ts`): locations that
    the LocatorJS Babel plugin writes into `data-locatorjs-id` or
    `data-locatorjs`. */
module Solid {
  import opened Options
  import opened Text
  import opened Search
  import opened Dom
  import opened AdapterInterface
  import opened LocatorFormats

  /** `dataset.locatorjsId || getAttribute('data-locatorjs')`: the id form
      is read first, and an empty value counts as absent. */
  function LocatorData(e: Element): (r: Option<string>)
    ensures r.None? <==> NonEmptyAttr(e, "data-locatorjs-id").None? && NonEmptyAttr(e, "data-locatorjs").None?
    ensures NonEmptyAttr(e, "data-locatorjs-id").Some? ==> r == NonEmptyAttr(e, "data-locatorjs-id")
    ensures r.Some? ==> r.value != ""
  {
    if NonEmptyAttr(e, "data-locatorjs-id").Some? then NonEmptyAttr(e, "data-locatorjs-id")
    else NonEmptyAttr(e, "data-locatorjs")
  }

  /** `parseLocatorData`: a value holding `::` is an id (file before the
      first `::`, line and column 1); otherwise it must be `path:line:column`. */
  function ParseLocatorData(data: string): (r: Option<SourceInfo>)
    ensures Contains(data, "::") ==>
      r.Some? && r.value.fileName == IdFormFile(data).value
      && r.value.line == Some(1) && r.value.column == Some(1)
    ensures !Contains(data, "::") ==> (r.Some? <==> MatchLocation(data).Some?)
    ensures r.Some? ==> r.value.componentName == ExtractComponentName(r.value.fileName)
  {
    if Contains(data, "::") then ParseIdForm(data) else ParseLocation(data)
  }

  /** The id form wins even over a value that would also read as
      `path:line:column`: `f::1:2` names file `f` at line 1, column 1. */
  lemma IdFormWins(path: string, id: string)
    requires !Contains(path, "::")
    requires path == "" || path[|path| - 1] != ':'
    ensures ParseLocatorData(path + "::" + id)
      == Some(SourceInfo(path, Some(1), Some(1), ExtractComponentName(path)))
  {
    IdFormFileOf(path, id);
  }

  /** Without `::`, a well-formed `path:line:column` value is read back
      exactly. */
  lemma LocationFormRoundTrip(path: string, line: nat, column: nat)
    requires path != "" && NoLineTerminator(path)
    requires !Contains(path, "::") && path[|path| - 1] != ':'
    ensures ParseLocatorData(path + ":" + NatToString(line) + ":" + NatToString(column))
      == Some(SourceInfo(path, Some(line), Some(column), ExtractComponentName(path)))
  {
    var l := NatToString(line);
    var c := NatToString(column);
    assert ':' !in l && ':' !in c by {
      assert forall i :: 0 <= i < |l| ==> IsDigit(l[i]);
      assert forall i :: 0 <= i < |c| ==> IsDigit(c[i]);
    }
    NoDoubleColonWithoutColon(l);
    NoDoubleColonWithoutColon(c);
    NoDoubleColonAcross(l, c);
    assert l[0] != ':';
    NoDoubleColonAcross(path, l + ":" + c);
    assert path + ":" + (l + ":" + c) == path + ":" + l + ":" + c;
    ParseLocationRoundTrip(path, line, column);
  }

  /** `getSourceInfo`: the nearest element (itself first) that carries
      locator data decides; when its value does not parse the answer is
      `None` and farther ancestors are not consulted. */
  function GetSourceInfo(e: Element): (r: Option<SourceInfo>)
    ensures FirstSome(Lineage(e), LocatorData).None? ==> r.None?
    ensures FirstSome(Lineage(e), LocatorData).Some? ==>
      r == ParseLocatorData(FirstSome(Lineage(e), LocatorData).value)
    ensures LocatorData(e).Some? ==> r == ParseLocatorData(LocatorData(e).value)
  {
    if LocatorData(e).Some? then
      FirstSomeCons(e, if e.parent.None? then [] else Lineage(e.parent.value), LocatorData);
      ParseLocatorData(LocatorData(e).value)
    else
      match WalkFrom(Some(e), LocatorData)
      case None => None
      case Some(data) => ParseLocatorData(data)
  }

  /** `getElementInfo`: a descriptor exactly when there is a source. */
  function GetElementInfo(e: Element): (r: Option<ElementInfo>)
    ensures r.None? <==> GetSourceInfo(e).None?
    ensures r.Some? ==> r.value == CreateElementInfo(e, GetSourceInfo(e).value)
  {
    Describe(e, GetSourceInfo(e))
  }
}

=== FILE: sorting.dfy ===
/** `Array.prototype.sort` with a comparator, as the editor list and the
    adapter registry use it. ECMAScript requires the sort to be stable, so
    it is modelled as an insertion sort: each element is placed after every
    element already placed that does not come strictly after it. The
    comparator is given as `before(a, b)`, "`compare(a, b) <= 0`". */
module Sorting {

  /** `xs` is ordered by `before`. */
  ghost predicate Sorted<T>(xs: seq<T>, before: (T, T) -> bool) {
    forall i, j :: 0 <= i < j < |xs| ==> before(xs[i], xs[j])
  }

  /** `before` is a consistent comparator: total and transitive. */
  ghost predicate TotalPreorder<T(!new)>(before: (T, T) -> bool) {
    (forall a, b :: before(a, b) || before(b, a))
    && (forall a, b, c :: before(a, b) && before(b, c) ==> before(a, c))
  }

  /** Insert `x` into `s` after every element that does not come strictly
      after it. */
  function Insert<T>(x: T, s: seq<T>, before: (T, T) -> bool): (r: seq<T>)
    ensures multiset(r) == multiset(s) + multiset{x}
    ensures |r| == |s| + 1
  {
    if |s| == 0 then [x]
    else if !before(s[0], x) then [x] + s
    else
      var r := [s[0]] + Insert(x, s[1..], before);
      assert s == [s[0]] + s[1..];
      r
  }

  /** The stable sort of `xs`. */
  function InsertionSort<T>(xs: seq<T>, before: (T, T) -> bool): (r: seq<T>)
    ensures multiset(r) == multiset(xs)
    ensures |r| == |xs|
  {
    if |xs| == 0 then []
    else
      var r := Insert(xs[|xs| - 1], InsertionSort(xs[..|xs| - 1], before), before);
      assert xs == xs[..|xs| - 1] + [xs[|xs| - 1]];
      r
  }

  /** Inserting into an ordered sequence keeps it ordered. */
  lemma {:induction false} InsertSorted<T(!new)>(x: T, s: seq<T>, before: (T, T) -> bool)
    requires TotalPreorder(before)
    requires Sorted(s, before)
    ensures Sorted(Insert(x, s, before), before)
  {
    if |s| == 0 {
    } else if !before(s[0], x) {
      assert before(x, s[0]);
    } else {
      InsertSorted(x, s[1..], before);
      var tail := Insert(x, s[1..], before);
      var r := [s[0]] + tail;
      assert forall k :: 0 <= k < |tail| ==> before(s[0], tail[k]) by {
        forall k | 0 <= k < |tail| ensures before(s[0], tail[k]) {
          assert tail[k] in multiset(s[1..]) + multiset{x};
          if tail[k] in multiset(s[1..]) {
            var m :| 0 <= m < |s[1..]| && s[1..][m] == tail[k];
            assert s[m + 1] == tail[k];
          }
        }
      }
      assert forall i, j :: 0 < i < j < |r| ==> r[i] == tail[i - 1] && r[j] == tail[j - 1];
    }
  }

  /** With a consistent comparator the sort orders its input. */
  lemma {:induction false} InsertionSortSorted<T(!new)>(xs: seq<T>, before: (T, T) -> bool)
    requires TotalPreorder(before)
    ensures Sorted(InsertionSort(xs, before), before)
  {
    if |xs| > 0 {
      InsertionSortSorted(xs[..|xs| - 1], before);
      InsertSorted(xs[|xs| - 1], InsertionSort(xs[..|xs| - 1], before), before);
    }
  }

  /** An element that comes after everything already placed goes last. */
  lemma {:induction false} InsertLast<T>(x: T, s: seq<T>, before: (T, T) -> bool)
    requires forall k :: 0 <= k < |s| ==> before(s[k], x)
    ensures Insert(x, s, before) == s + [x]
  {
    if |s| > 0 {
      InsertLast(x, s[1..], before);
      assert [s[0]] + (s[1..] + [x]) == s + [x];
    }
  }

  /** Sorting an already ordered sequence leaves it as it is. */
  lemma {:induction false} InsertionSortOfSorted<T>(xs: seq<T>, before: (T, T) -> bool)
    requires Sorted(xs, before)
    ensures InsertionSort(xs, before) == xs
  {
    if |xs| > 0 {
      var init := xs[..|xs| - 1];
      assert Sorted(init, before);
      InsertionSortOfSorted(init, before);
      assert forall k :: 0 <= k < |init| ==> before(init[k], xs[|xs| - 1]);
      InsertLast(xs[|xs| - 1], init, before);
      assert init + [xs[|xs| - 1]] == xs;
    }
  }
}

=== FILE: storage.dfy ===
/** User settings and hotkey helpers (`src/shared/storage.ts`, with the
    settings record of `src/shared/types.ts` and the settings merge of
    `src/injected/index.ts`). */
module Storage {
  import opened Options
  import opened Text

  /** A modifier chord: the four flags of a `HotkeyConfig`, or the modifier
      state of a keyboard or mouse event. */
  datatype Modifiers = Modifiers(altKey: bool, ctrlKey: bool, metaKey: bool, shiftKey: bool)

  const NoModifiers := Modifiers(false, false, false, false)

  /** `SourceSnapSettings`. */
  datatype Settings = Settings(
    editor: string,
    customEditorUrl: string,
    hotkey: Modifiers,
    projectPathPrefix: string,
    enabled: bool,
    showTooltip: bool,
    disableAutoOpen: bool)

  /** At least one modifier is set. */
  predicate AnyModifier(m: Modifiers) {
    m.altKey || m.ctrlKey || m.metaKey || m.shiftKey
  }

  /** How many modifiers are set. */
  function ModifierCount(m: Modifiers): nat {
    (if m.altKey then 1 else 0) + (if m.ctrlKey then 1 else 0)
    + (if m.metaKey then 1 else 0) + (if m.shiftKey then 1 else 0)
  }

  /** `DEFAULT_SETTINGS` (also the injected script's initial settings):
      Cursor, Alt+Click, enabled, tooltip shown, opening on click. The
      default chord holds exactly one modifier, so it can activate. */
  function DefaultSettings(): (r: Settings)
    ensures r.editor == "cursor" && r.customEditorUrl == "" && r.projectPathPrefix == ""
    ensures r.hotkey.altKey && ModifierCount(r.hotkey) == 1 && AnyModifier(r.hotkey)
    ensures r.enabled && r.showTooltip && !r.disableAutoOpen
  {
    Settings("cursor", "", Modifiers(true, false, false, false), "", true, true, false)
  }

  /** `isHotkeyPressed` of the storage helpers: all four flags equal. */
  function ExactMatch(event: Modifiers, hotkey: Modifiers): (r: bool)
    ensures r <==> event == hotkey
  {
    event.altKey == hotkey.altKey && event.ctrlKey == hotkey.ctrlKey
    && event.metaKey == hotkey.metaKey && event.shiftKey == hotkey.shiftKey
  }

  /** The four modifier keys, in the order a label lists them. */
  datatype Key = Ctrl | Alt | Shift | Cmd

  const DisplayOrder: seq<Key> := [Ctrl, Alt, Shift, Cmd]

  function KeyLabel(k: Key): string {
    match k
    case Ctrl => "Ctrl"
    case Alt => "Alt"
    case Shift => "Shift"
    case Cmd => "Cmd"
  }

  /** The chord holds key `k`. */
  predicate Holds(m: Modifiers, k: Key) {
    match k
    case Ctrl => m.ctrlKey
    case Alt => m.altKey
    case Shift => m.shiftKey
    case Cmd => m.metaKey
  }

  /** The keys the chord holds, in display order, each once. */
  function HeldKeys(m: Modifiers): (r: seq<Key>)
    ensures |r| == ModifierCount(m)
    ensures forall k :: k in r <==> Holds(m, k)
  {
    (if m.ctrlKey then [Ctrl] else []) + (if m.altKey then [Alt] else [])
    + (if m.shiftKey then [Shift] else []) + (if m.metaKey then [Cmd] else [])
  }

  /** The labels of the set modifiers, in display order. */
  function ModifierNames(m: Modifiers): (r: seq<string>)
    ensures |r| == ModifierCount(m)
    ensures forall i :: 0 <= i < |r| ==> r[i] == KeyLabel(HeldKeys(m)[i])
  {
    var keys := HeldKeys(m);
    seq(|keys|, i requires 0 <= i < |keys| => KeyLabel(keys[i]))
  }

  /** Distinct keys have distinct labels, none of them "", "Click" or "+",
      and no label holds a space. */
  lemma KeyLabels(j: Key, k: Key)
    ensures KeyLabel(j) == KeyLabel(k) ==> j == k
    ensures KeyLabel(k) != "" && KeyLabel(k) != "Click" && KeyLabel(k) != "+"
    ensures ' ' !in KeyLabel(k)
  {
    if j != k {
      assert KeyLabel(j)[1] != KeyLabel(k)[1];
    }
  }

  /** A key's label is among the names exactly when the chord holds it. */
  lemma NamesHeld(m: Modifiers, k: Key)
    ensures KeyLabel(k) in ModifierNames(m) <==> Holds(m, k)
  {
    var names := ModifierNames(m);
    var keys := HeldKeys(m);
    if KeyLabel(k) in names {
      var i :| 0 <= i < |names| && names[i] == KeyLabel(k);
      KeyLabels(keys[i], k);
      assert keys[i] in keys;
    }
    if Holds(m, k) {
      var i :| 0 <= i < |keys| && keys[i] == k;
      assert names[i] == KeyLabel(k);
    }
  }

  /** The names hold no space. */
  lemma NamesSpaceFree(m: Modifiers)
    ensures forall i :: 0 <= i < |ModifierNames(m)| ==> ' ' !in ModifierNames(m)[i]
  {
    forall i | 0 <= i < |ModifierNames(m)| ensures ' ' !in ModifierNames(m)[i] {
      KeyLabels(HeldKeys(m)[i], HeldKeys(m)[i]);
    }
  }

  /** `formatHotkey`: Ctrl, Alt, Shift, Cmd joined by " + ", then " + Click".
      A chord without modifiers is shown as " + Click". */
  function FormatHotkey(m: Modifiers): (r: string)
    ensures EndsWithClick(r)
    ensures !AnyModifier(m) ==> r == " + Click"
  {
    ClickLabel(ModifierNames(m))
  }

  function ClickLabel(names: seq<string>): string {
    Join(names, " + ") + " + Click"
  }

  predicate EndsWithClick(s: string) {
    |s| >= 8 && s[|s| - 8..] == " + Click"
  }

  /** The modifiers a label names, read word by word. */
  function LabelModifiers(text: string): Modifiers {
    var words := Split(text, ' ');
    Modifiers(KeyLabel(Alt) in words, KeyLabel(Ctrl) in words, KeyLabel(Cmd) in words, KeyLabel(Shift) in words)
  }

  /** The label names exactly the chord's modifiers, so distinct chords get
      distinct labels. */
  lemma FormatHotkeyNamesChord(m: Modifiers)
    ensures LabelModifiers(FormatHotkey(m)) == m
  {
    LabelHasKey(m, Alt);
    LabelHasKey(m, Ctrl);
    LabelHasKey(m, Cmd);
    LabelHasKey(m, Shift);
  }

  /** A key's label is a word of the chord's label exactly when the chord
      holds the key. */
  lemma LabelHasKey(m: Modifiers, k: Key)
    ensures KeyLabel(k) in Split(FormatHotkey(m), ' ') <==> Holds(m, k)
  {
    NamesSpaceFree(m);
    KeyLabels(k, k);
    LabelHas(ModifierNames(m), KeyLabel(k));
    NamesHeld(m, k);
  }

  /** A word other than "", "Click" and "+" is a word of the label exactly
      when it is one of the (space-free) names. */
  lemma LabelHas(names: seq<string>, x: string)
    requires forall i :: 0 <= i < |names| ==> ' ' !in names[i]
    requires x != "" && x != "Click" && x != "+"
    ensures x in Split(ClickLabel(names), ' ') <==> x in names
  {
    LabelWords(names);
    ClickPartsMembers(names, x);
  }

  /** The " + "-separated parts of a label: the names (or one empty part
      when there are none), then "Click". */
  function ClickParts(names: seq<string>): (r: seq<string>)
    ensures |r| >= 2
  {
    (if names == [] then [""] else names) + ["Click"]
  }

  /** A word other than "", "Click" and "+" is a word of the label exactly
      when it is one of the names. */
  lemma ClickPartsMembers(names: seq<string>, x: string)
    requires x != "" && x != "Click" && x != "+"
    ensures x in Plussed(ClickParts(names)) <==> x in names
  {
    PlussedMembers(ClickParts(names), x);
  }

  /** The words of a label whose names are space-free. */
  lemma LabelWords(names: seq<string>)
    requires forall i :: 0 <= i < |names| ==> ' ' !in names[i]
    ensures Split(ClickLabel(names), ' ') == Plussed(ClickParts(names))
  {
    var parts := ClickParts(names);
    if names == [] {
      assert parts == ["", "Click"];
      assert Join(parts, " + ") == "" + " + " + "Click";
    } else {
      assert parts == names + ["Click"];
      JoinAppend(names, "Click", " + ");
    }
    assert Join(parts, " + ") == ClickLabel(names);
    assert forall i :: 0 <= i < |parts| ==> ' ' !in parts[i] by {
      forall i | 0 <= i < |parts| ensures ' ' !in parts[i] {
        if i < |parts| - 1 && names != [] { assert parts[i] == names[i]; }
      }
    }
    SplitPlussed(parts);
  }

  /** Splitting a " + "-joined label of space-free parts at its spaces. */
  lemma SplitPlussed(parts: seq<string>)
    requires |parts| >= 1
    requires forall i :: 0 <= i < |parts| ==> ' ' !in parts[i]
    ensures Split(Join(parts, " + "), ' ') == Plussed(parts)
  {
    JoinPlussed(parts);
    PlussedSpaceFree(parts);
    SplitJoin(Plussed(parts), ' ');
  }

  /** The words of a " + "-joined label: each part, with "+" between
      neighbours. */
  function Plussed(parts: seq<string>): (r: seq<string>)
    requires |parts| >= 1
    ensures |r| >= 1
  {
    if |parts| == 1 then parts else [parts[0], "+"] + Plussed(parts[1..])
  }

  lemma {:induction false} JoinPlussed(parts: seq<string>)
    requires |parts| >= 1
    ensures Join(parts, " + ") == Join(Plussed(parts), " ")
  {
    if |parts| > 1 {
      JoinPlussed(parts[1..]);
      var rest := Plussed(parts[1..]);
      assert Plussed(parts) == [parts[0], "+"] + rest;
      JoinCons(Plussed(parts), " ");
      assert Plussed(parts)[1..] == ["+"] + rest;
      if |rest| == 1 {
        assert Join(["+"] + rest, " ") == "+" + " " + rest[0];
      } else {
        JoinCons(["+"] + rest, " ");
        assert (["+"] + rest)[1..] == rest;
      }
    }
  }

  lemma {:induction false} PlussedSpaceFree(parts: seq<string>)
    requires |parts| >= 1
    requires forall i :: 0 <= i < |parts| ==> ' ' !in parts[i]
    ensures forall i :: 0 <= i < |Plussed(parts)| ==> ' ' !in Plussed(parts)[i]
  {
    if |parts| > 1 {
      PlussedSpaceFree(parts[1..]);
      assert Plussed(parts) == [parts[0], "+"] + Plussed(parts[1..]);
    }
  }

  lemma {:induction false} PlussedMembers(parts: seq<string>, x: string)
    requires |parts| >= 1 && x != "+"
    ensures x in Plussed(parts) <==> x in parts
  {
    if |parts| > 1 {
      PlussedMembers(parts[1..], x);
      assert parts == [parts[0]] + parts[1..];
    }
  }

  lemma FormatDefaultHotkey()
    ensures FormatHotkey(DefaultSettings().hotkey) == "Alt + Click"
  {
    assert ModifierNames(DefaultSettings().hotkey) == ["Alt"];
  }

  /** A `Partial<SourceSnapSettings>` payload: `None` for a field it does
      not carry. */
  datatype SettingsPatch = SettingsPatch(
    editor: Option<string>,
    customEditorUrl: Option<string>,
    hotkey: Option<Modifiers>,
    projectPathPrefix: Option<string>,
    enabled: Option<bool>,
    showTooltip: Option<bool>,
    disableAutoOpen: Option<bool>)

  const EmptyPatch := SettingsPatch(None, None, None, None, None, None, None)

  /** `{ ...settings, ...payload }`: every field the payload carries
      replaces the current one; the others stay. */
  function Merge(s: Settings, p: SettingsPatch): (r: Settings)
    ensures p == EmptyPatch ==> r == s
    ensures p.editor.Some? ==> r.editor == p.editor.value
    ensures p.editor.None? ==> r.editor == s.editor
    ensures p.customEditorUrl.Some? ==> r.customEditorUrl == p.customEditorUrl.value
    ensures p.customEditorUrl.None? ==> r.customEditorUrl == s.customEditorUrl
    ensures p.hotkey.Some? ==> r.hotkey == p.hotkey.value
    ensures p.hotkey.None? ==> r.hotkey == s.hotkey
    ensures p.projectPathPrefix.Some? ==> r.projectPathPrefix == p.projectPathPrefix.value
    ensures p.projectPathPrefix.None? ==> r.projectPathPrefix == s.projectPathPrefix
    ensures p.enabled.Some? ==> r.enabled == p.enabled.value
    ensures p.enabled.None? ==> r.enabled == s.enabled
    ensures p.showTooltip.Some? ==> r.showTooltip == p.showTooltip.value
    ensures p.showTooltip.None? ==> r.showTooltip == s.showTooltip
    ensures p.disableAutoOpen.Some? ==> r.disableAutoOpen == p.disableAutoOpen.value
    ensures p.disableAutoOpen.None? ==> r.disableAutoOpen == s.disableAutoOpen
  {
    Settings(
      p.editor.GetOr(s.editor),
      p.customEditorUrl.GetOr(s.customEditorUrl),
      p.hotkey.GetOr(s.hotkey),
      p.projectPathPrefix.GetOr(s.projectPathPrefix),
      p.enabled.GetOr(s.enabled),
      p.showTooltip.GetOr(s.showTooltip),
      p.disableAutoOpen.GetOr(s.disableAutoOpen))
  }

  /** The payload `q` laid over the payload `p`. */
  function Then(p: SettingsPatch, q: SettingsPatch): SettingsPatch {
    SettingsPatch(
      if q.editor.Some? then q.editor else p.editor,
      if q.customEditorUrl.Some? then q.customEditorUrl else p.customEditorUrl,
      if q.hotkey.Some? then q.hotkey else p.hotkey,
      if q.projectPathPrefix.Some? then q.projectPathPrefix else p.projectPathPrefix,
      if q.enabled.Some? then q.enabled else p.enabled,
      if q.showTooltip.Some? then q.showTooltip else p.showTooltip,
      if q.disableAutoOpen.Some? then q.disableAutoOpen else p.disableAutoOpen)
  }

  /** Two updates in a row amount to one update with the later fields
      winning; repeating an update changes nothing more. */
  lemma MergeTwice(s: Settings, p: SettingsPatch, q: SettingsPatch)
    ensures Merge(Merge(s, p), q) == Merge(s, Then(p, q))
    ensures Merge(Merge(s, p), p) == Merge(s, p)
  {
  }
}

=== FILE: style_rules.dfy ===
/** The overlay's inline-style editor: the parser that turns an element's
    `style` attribute into editable rules, the serialiser that writes the
    enabled rules back to the attribute, and the JSX rendering of the rules
    that "Copy changes" produces. */
module StyleRules {
  import opened Options
  import opened Text
  import opened Search

  /** One row of the style editor: a declaration that can be switched off. */
  datatype Rule = Rule(property: string, value: string, enabled: bool)

  /** What a parsed rule always looks like: both halves trimmed, no ';' in
      either, and no ':' in the property (the split is at the first ':'). */
  predicate Clean(r: Rule) {
    Trimmed(r.property) && Trimmed(r.value)
    && ';' !in r.property && ';' !in r.value && ':' !in r.property
  }

  // ---------------------------------------------------------------------------
  // Parsing the style attribute

  /** One ';'-separated chunk: trimmed, kept only when it contains ':', and
      split at its first ':' into a trimmed property and a trimmed value.
      Every parsed rule starts enabled. */
  function ParseChunk(chunk: string): (r: Option<Rule>)
    ensures r.Some? <==> ':' in Trim(chunk)
    ensures r.Some? ==> r.value.enabled && Trimmed(r.value.property) && Trimmed(r.value.value)
    ensures r.Some? ==> ':' !in r.value.property
    ensures r.Some? && ';' !in chunk ==> Clean(r.value)
  {
    var t := Trim(chunk);
    IndexOfChar(t, ':');
    match IndexOf(t, ":")
    case None => None
    case Some(i) =>
      assert ':' !in t[..i];
      Some(Rule(Trim(t[..i]), Trim(t[i + 1..]), true))
  }

  /** Every rule the parser produces is enabled and clean. */
  predicate Parsed(r: Rule) {
    r.enabled && Clean(r)
  }

  /** The style attribute as editable rules: split at every ';', and the
      chunks that yield a rule, in order. */
  function ParseStyle(style: string): (r: seq<Rule>)
    ensures style == "" ==> r == []
    ensures |r| <= |Split(style, ';')|
    ensures forall k :: 0 <= k < |r| ==> Parsed(r[k])
  {
    if style == "" then []
    else
      var chunks := Split(style, ';');
      FilterMapAll(chunks, ParseChunk, Parsed);
      FilterMap(chunks, ParseChunk)
  }

  /** A trailing ';' (as in "color: red;") makes no difference. */
  lemma TrailingSemicolon(style: string)
    ensures ParseStyle(style + ";") == ParseStyle(style)
  {
    SplitConcat(style, "", ';');
    assert style + ";" == style + [';'] + "";
    FilterMapAppend(Split(style, ';'), [""], ParseChunk);
    assert ParseChunk("").None? by {
      assert Trim("") == "";
    }
    assert FilterMap([""], ParseChunk) == [];
  }

  // ---------------------------------------------------------------------------
  // Writing the rules back

  /** A rule that is written back: enabled, with a property and a value. */
  predicate Active(r: Rule) {
    r.enabled && r.property != "" && r.value != ""
  }

  /** The rules that are written back, in order. */
  function ActiveRules(rules: seq<Rule>): (r: seq<Rule>)
    ensures |r| <= |rules|
    ensures forall k :: 0 <= k < |r| ==> Active(r[k]) && r[k] in rules
    ensures forall k :: 0 <= k < |rules| && Active(rules[k]) ==> rules[k] in r
    ensures (forall k :: 0 <= k < |rules| ==> Clean(rules[k])) ==>
      forall k :: 0 <= k < |r| ==> Clean(r[k])
  {
    if |rules| == 0 then []
    else
      var rest := ActiveRules(rules[1..]);
      assert forall k :: 0 <= k < |rules| - 1 ==> rules[1..][k] == rules[k + 1];
      if Active(rules[0]) then [rules[0]] + rest else rest
  }

  /** The declaration text of one rule. */
  function Declaration(r: Rule): (d: string)
    ensures |d| == |r.property| + 2 + |r.value|
    ensures d[..|r.property|] == r.property && d[|r.property| + 2..] == r.value
  {
    r.property + ": " + r.value
  }

  function Declarations(rules: seq<Rule>): (ds: seq<string>)
    ensures |ds| == |rules|
    ensures forall k :: 0 <= k < |rules| ==> ds[k] == Declaration(rules[k])
  {
    if |rules| == 0 then [] else [Declaration(rules[0])] + Declarations(rules[1..])
  }

  /** The style attribute the editor writes: the active rules as
      "property: value", joined by "; ". */
  function Serialize(rules: seq<Rule>): (s: string)
    ensures s == "" <==> |ActiveRules(rules)| == 0
  {
    var ds := Declarations(ActiveRules(rules));
    JoinEmpty(ds, "; ");
    Join(ds, "; ")
  }

  /** Joining non-empty parts gives "" only when there are none. */
  lemma JoinEmpty(parts: seq<string>, sep: string)
    requires forall k :: 0 <= k < |parts| ==> parts[k] != ""
    ensures Join(parts, sep) == "" <==> |parts| == 0
  {
    if |parts| >= 2 {
      JoinCons(parts, sep);
    }
  }

  // ---------------------------------------------------------------------------
  // Round trip

  /** A space in front of a trimmed string is what `trim` removes. */
  lemma TrimLeadingSpace(pre: string, x: string)
    requires pre == "" || pre == " "
    requires Trimmed(x)
    ensures Trim(pre + x) == x
  {
    if pre == " " {
      assert (pre + x)[1..] == x;
      assert TrimStart(pre + x) == TrimStart(x);
    }
    assert TrimStart(x) == x;
    assert TrimEnd(x) == x;
  }

  /** A chunk whose trimmed text has its first ':' at `i` parses to the
      trimmed text on either side of it. */
  lemma ParseChunkAt(chunk: string, t: string, i: nat, property: string, value: string)
    requires Trim(chunk) == t
    requires i < |t| && t[i] == ':' && forall j :: 0 <= j < i ==> t[j] != ':'
    requires Trim(t[..i]) == property && Trim(t[i + 1..]) == value
    ensures ParseChunk(chunk) == Some(Rule(property, value, true))
  {
    IndexOfChar(t, ':');
  }

  /** The declaration of an active, clean rule is trimmed and has its first
      ':' right after the property. */
  lemma DeclarationShape(rule: Rule)
    requires Active(rule) && Clean(rule)
    ensures Trimmed(Declaration(rule))
    ensures Declaration(rule)[|rule.property|] == ':'
    ensures forall j :: 0 <= j < |rule.property| ==> Declaration(rule)[j] != ':'
    ensures Declaration(rule)[..|rule.property|] == rule.property
    ensures Declaration(rule)[|rule.property| + 1..] == " " + rule.value
  {
    var d := Declaration(rule);
    assert d == rule.property + ": " + rule.value;
    assert d[0] == rule.property[0];
    assert d[|d| - 1] == rule.value[|rule.value| - 1];
  }

  /** The serialiser writes no ';' inside a declaration. */
  lemma DeclarationSemicolonFree(pre: string, rule: Rule)
    requires pre == "" || pre == " "
    requires Clean(rule)
    ensures ';' !in pre + Declaration(rule)
  {
    assert pre + Declaration(rule) == pre + rule.property + ": " + rule.value;
  }

  /** A chunk that trims to an active, clean rule's declaration parses to
      that rule. */
  lemma ParseDeclaration(chunk: string, rule: Rule)
    requires Active(rule) && Clean(rule)
    requires Trim(chunk) == Declaration(rule)
    ensures ParseChunk(chunk) == Some(rule)
  {
    var p := rule.property;
    DeclarationShape(rule);
    TrimLeadingSpace("", p);
    assert "" + p == p;
    TrimLeadingSpace(" ", rule.value);
    ParseChunkAt(chunk, Declaration(rule), |p|, p, rule.value);
  }

  /** A declaration written by the serialiser parses back to its rule. */
  lemma DeclarationChunk(pre: string, rule: Rule)
    requires pre == "" || pre == " "
    requires Active(rule) && Clean(rule)
    ensures ParseChunk(pre + Declaration(rule)) == Some(rule)
  {
    DeclarationShape(rule);
    TrimLeadingSpace(pre, Declaration(rule));
    ParseDeclaration(pre + Declaration(rule), rule);
  }

  /** Splitting parts joined by `sep` and a space at `sep` peels off the
      first part. */
  lemma SplitJoinedStep(sep: char, pre: string, ds: seq<string>)
    requires |ds| >= 2 && sep !in pre + ds[0]
    ensures Split(pre + Join(ds, [sep, ' ']), sep) == [pre + ds[0]] + Split(" " + Join(ds[1..], [sep, ' ']), sep)
  {
    var tail := Join(ds[1..], [sep, ' ']);
    JoinCons(ds, [sep, ' ']);
    assert pre + Join(ds, [sep, ' ']) == (pre + ds[0]) + [sep] + (" " + tail);
    SplitAfterSeparator(pre + ds[0], " " + tail, sep);
  }

  /** Parts joined by `sep` and a space ("; " in the style attribute, ", "
      in the JSX style object), possibly behind the space that follows a
      separator, come back from any chunk parser that reads each part, with
      or without that space, as its answer. */
  lemma {:induction false} ParseJoinedWith<B>(parse: string -> Option<B>, sep: char, pre: string, ds: seq<string>, ys: seq<B>)
    requires pre == "" || pre == " "
    requires sep != ' '
    requires |ds| == |ys| >= 1
    requires forall k :: 0 <= k < |ds| ==> sep !in ds[k]
    requires forall k :: 0 <= k < |ds| ==> parse(ds[k]) == Some(ys[k]) && parse(" " + ds[k]) == Some(ys[k])
    ensures FilterMap(Split(pre + Join(ds, [sep, ' ']), sep), parse) == ys
    decreases |ds|
  {
    var head := pre + ds[0];
    assert sep !in head && parse(head) == Some(ys[0]) by {
      assert head == ds[0] || head == " " + ds[0];
    }
    if |ds| == 1 {
      SplitNoSeparator(head, sep);
    } else {
      SplitJoinedStep(sep, pre, ds);
      ParseJoinedWith(parse, sep, " ", ds[1..], ys[1..]);
      var chunks := [head] + Split(" " + Join(ds[1..], [sep, ' ']), sep);
      assert chunks[0] == head && chunks[1..] == Split(" " + Join(ds[1..], [sep, ' ']), sep);
      assert [ys[0]] + ys[1..] == ys;
    }
  }

  /** Each declaration the serialiser writes is ';'-free and parses back to
      its rule, with or without the space in front. */
  lemma DeclarationsParse(active: seq<Rule>)
    requires forall k :: 0 <= k < |active| ==> Active(active[k]) && Clean(active[k])
    ensures forall k :: 0 <= k < |active| ==> ';' !in Declarations(active)[k]
    ensures forall k :: 0 <= k < |active| ==>
      ParseChunk(Declarations(active)[k]) == Some(active[k])
      && ParseChunk(" " + Declarations(active)[k]) == Some(active[k])
  {
    forall k | 0 <= k < |active|
      ensures ';' !in Declaration(active[k])
      ensures ParseChunk(Declaration(active[k])) == Some(active[k])
      ensures ParseChunk(" " + Declaration(active[k])) == Some(active[k])
    {
      DeclarationSemicolonFree("", active[k]);
      assert "" + Declaration(active[k]) == Declaration(active[k]);
      DeclarationChunk("", active[k]);
      DeclarationChunk(" ", active[k]);
    }
  }

  /** Parsing the serialised rules gives back exactly the rules that were
      written, all enabled, when each rule's halves are trimmed and free of
      ';' and its property has no ':'. */
  lemma ParseSerialize(rules: seq<Rule>)
    requires forall k :: 0 <= k < |rules| ==> Clean(rules[k])
    ensures ParseStyle(Serialize(rules)) == ActiveRules(rules)
  {
    var active := ActiveRules(rules);
    if |active| > 0 {
      DeclarationsParse(active);
      ParseJoinedWith(ParseChunk, ';', "", Declarations(active), active);
      assert "; " == [';', ' '];
      assert "" + Join(Declarations(active), "; ") == Serialize(rules);
    }
  }

  /** Serialising only the active rules writes the same attribute. */
  lemma {:induction false} ActiveRulesActive(rules: seq<Rule>)
    ensures ActiveRules(ActiveRules(rules)) == ActiveRules(rules)
  {
    if |rules| > 0 {
      ActiveRulesActive(rules[1..]);
      var rest := ActiveRules(rules[1..]);
      if Active(rules[0]) {
        assert ([rules[0]] + rest)[1..] == rest;
      }
    }
  }

  /** Parsing normalises: the serialisation of what was parsed is stable
      under a second parse and serialise. */
  lemma NormalFormStable(style: string)
    ensures Serialize(ParseStyle(Serialize(ParseStyle(style)))) == Serialize(ParseStyle(style))
  {
    var rules := ParseStyle(style);
    ParseSerialize(rules);
    ActiveRulesActive(rules);
  }

  // ---------------------------------------------------------------------------
  // JSX rendering

  predicate IsLower(c: char) {
    'a' <= c <= 'z'
  }

  predicate IsUpper(c: char) {
    'A' <= c <= 'Z'
  }

  /** `property.replace(/-([a-z])/g, upper)`: each '-' followed by a
      lower-case letter becomes that letter in upper case, scanning left to
      right without overlap. */
  function Camel(s: string): (r: string)
    ensures |r| <= |s|
    ensures |s| > 0 ==> |r| > 0 && (IsLower(r[0]) ==> r[0] == s[0])
    ensures forall i :: 0 <= i < |r| - 1 ==> !(r[i] == '-' && IsLower(r[i + 1]))
    ensures |s| > 0 ==> r[0] == s[0] || IsUpper(r[0])
  {
    if |s| == 0 then ""
    else if |s| >= 2 && s[0] == '-' && IsLower(s[1]) then [UpperChar(s[1])] + Camel(s[2..])
    else [s[0]] + Camel(s[1..])
  }

  /** The inverse direction: each upper-case letter becomes '-' and its
      lower-case form. */
  function Kebab(s: string): (r: string)
    ensures |r| >= |s|
    ensures forall i :: 0 <= i < |r| ==> !IsUpper(r[i]) || exists j :: 0 <= j < |s| && r[i] == s[j] && !IsUpper(s[j])
  {
    if |s| == 0 then ""
    else
      var rest := Kebab(s[1..]);
      if IsUpper(s[0]) then ['-', LowerChar(s[0])] + rest else [s[0]] + rest
  }

  /** Property names without capitals come back from their camel form. */
  lemma {:induction false} KebabCamel(s: string)
    requires forall i :: 0 <= i < |s| ==> !IsUpper(s[i])
    ensures Kebab(Camel(s)) == s
  {
    if |s| >= 2 && s[0] == '-' && IsLower(s[1]) {
      KebabCamel(s[2..]);
      var c := Camel(s[2..]);
      var r := [UpperChar(s[1])] + c;
      assert r[0] == UpperChar(s[1]) && r[1..] == c;
      assert s == ['-', s[1]] + s[2..];
    } else if |s| > 0 {
      KebabCamel(s[1..]);
      var c := Camel(s[1..]);
      var r := [s[0]] + c;
      assert r[0] == s[0] && r[1..] == c;
      assert s == [s[0]] + s[1..];
    }
  }

  /** A text without '-' is its own camel form. */
  lemma {:induction false} CamelNoHyphen(w: string)
    requires '-' !in w
    ensures Camel(w) == w
  {
    if |w| > 0 {
      assert forall c :: c in w[1..] ==> c in w;
      CamelNoHyphen(w[1..]);
      assert w == [w[0]] + w[1..];
    }
  }

  /** Two hyphen-free words joined by '-', the second starting with a
      lower-case letter, are written as the first followed by the second
      capitalised: "z-index" is `zIndex`. */
  lemma {:induction false} CamelHyphen(a: string, c: char, t: string)
    requires '-' !in a && '-' !in t && IsLower(c)
    ensures Camel(a + ['-', c] + t) == a + [UpperChar(c)] + t
    decreases |a|
  {
    var s := a + ['-', c] + t;
    if |a| == 0 {
      assert s == ['-', c] + t && s[2..] == t;
      CamelNoHyphen(t);
    } else {
      assert s[0] == a[0] && s[1..] == a[1..] + ['-', c] + t;
      assert a[0] in a && forall x :: x in a[1..] ==> x in a;
      CamelHyphen(a[1..], c, t);
      assert a == [a[0]] + a[1..];
    }
  }

  /** The largest integer a double holds exactly (`Number.MAX_SAFE_INTEGER`). */
  const MaxSafeInteger: int := 9007199254740991

  /** `String(parseFloat(v)) === v`, for the values this model recognises as
      numbers: the canonical decimal text of a safe integer. */
  predicate IsNumberLiteral(v: string) {
    match ParseInt(v)
    case None => false
    case Some(n) => -MaxSafeInteger <= n <= MaxSafeInteger && IntToString(n) == v
  }

  /** Every safe integer's own text is emitted bare. */
  lemma NumberLiteralOfInt(n: int)
    requires -MaxSafeInteger <= n <= MaxSafeInteger
    ensures IsNumberLiteral(IntToString(n))
  {
    ParseIntToString(n);
  }

  /** A value in JSX: bare when it is a number literal, single-quoted
      otherwise. */
  function JsxValue(v: string): (r: string)
    ensures r == v <==> IsNumberLiteral(v)
    ensures r != v ==> |r| == |v| + 2 && r[0] == '\'' && r[|r| - 1] == '\'' && r[1..|r| - 1] == v
  {
    if IsNumberLiteral(v) then v else "'" + v + "'"
  }

  /** "10" is emitted bare. */
  lemma JsxValueBareExample()
    ensures JsxValue("10") == "10"
  {
    assert NatToString(10) == NatToString(1) + [DigitChar(0)];
    NumberLiteralOfInt(10);
  }

  /** Keyword values such as `auto`, which start with a letter, are
      emitted quoted. */
  lemma JsxValueQuotedWord(v: string)
    requires |v| > 0 && 'a' <= v[0] <= 'z'
    ensures JsxValue(v) == "'" + v + "'"
  {
    ParseIntNoDigit(v);
  }

  /** Reading a JSX value back: a single-quoted text loses its quotes, a
      bare one is kept. */
  function UnquoteJsx(t: string): string {
    if |t| >= 2 && t[0] == '\'' && t[|t| - 1] == '\'' then t[1..|t| - 1] else t
  }

  /** Every value comes back from its JSX form. */
  lemma UnquoteJsxValue(v: string)
    ensures UnquoteJsx(JsxValue(v)) == v
  {
    if IsNumberLiteral(v) {
      var n := ParseInt(v).value;
      assert v == IntToString(n);
      assert v[0] == '-' || IsDigit(v[0]);
    }
  }

  /** One entry of the JSX style object. */
  function JsxEntry(r: Rule): string {
    Camel(r.property) + ": " + JsxValue(r.value)
  }

  function JsxEntries(rules: seq<Rule>): (es: seq<string>)
    ensures |es| == |rules|
    ensures forall k :: 0 <= k < |rules| ==> es[k] == JsxEntry(rules[k])
  {
    if |rules| == 0 then [] else [JsxEntry(rules[0])] + JsxEntries(rules[1..])
  }

  /** The `style={{ … }}` attribute for the active rules, entries joined by
      ", ". */
  function JsxStyle(rules: seq<Rule>): (r: string)
    ensures "style={{ " <= r
    ensures |r| >= 12 && r[|r| - 3..] == " }}"
  {
    "style={{ " + Join(JsxEntries(ActiveRules(rules)), ", ") + " }}"
  }

  // ---------------------------------------------------------------------------
  // Reading the JSX style back

  /** Reading one entry back: an optional leading space, the key up to the
      first ':', then ": " and the value. The key goes back to kebab case
      and the value loses its quotes. */
  function ReadJsxEntry(e: string): Option<Rule> {
    var t := if |e| > 0 && e[0] == ' ' then e[1..] else e;
    match IndexOf(t, ":")
    case None => None
    case Some(i) =>
      if i + 1 < |t| && t[i + 1] == ' ' then Some(Rule(Kebab(t[..i]), UnquoteJsx(t[i + 2..]), true))
      else None
  }

  /** Reading a `style={{ … }}` attribute back: the entries between the
      brackets, split at ','. */
  function ReadJsxStyle(s: string): Option<seq<Rule>> {
    if |s| >= 12 && s[..9] == "style={{ " && s[|s| - 3..] == " }}" then
      Some(FilterMap(Split(s[9..|s| - 3], ','), ReadJsxEntry))
    else None
  }

  /** Rules whose JSX form can be read back: a property without capitals,
      and no ',' in either half. */
  predicate JsxReadable(r: Rule) {
    (forall i :: 0 <= i < |r.property| ==> !IsUpper(r.property[i])) && ',' !in r.property && ',' !in r.value
  }

  /** Camel case only adds capitals: every other character of the key
      comes from the property. */
  lemma {:induction false} CamelChars(s: string)
    ensures forall c :: c in Camel(s) ==> c in s || IsUpper(c)
    decreases |s|
  {
    if |s| >= 2 && s[0] == '-' && IsLower(s[1]) {
      CamelChars(s[2..]);
      assert forall c :: c in s[2..] ==> c in s;
    } else if |s| > 0 {
      CamelChars(s[1..]);
      assert forall c :: c in s[1..] ==> c in s;
    }
  }

  /** The camel key of an active, clean, readable rule: non-empty, no
      leading space, no ':' and no ','. */
  lemma CamelKeyShape(rule: Rule)
    requires Active(rule) && Clean(rule) && JsxReadable(rule)
    ensures Camel(rule.property) != "" && Camel(rule.property)[0] != ' '
    ensures ':' !in Camel(rule.property) && ',' !in Camel(rule.property)
  {
    CamelChars(rule.property);
  }

  /** The first ':' of `key: text` is the one after a ':'-free key. */
  lemma ColonAfterKey(key: string, text: string)
    requires ':' !in key
    ensures IndexOf(key + ": " + text, ":") == Some(|key|)
  {
    var e := key + ": " + text;
    IndexOfChar(e, ':');
    assert e[|key|] == ':';
    assert forall j :: 0 <= j < |key| ==> e[j] == key[j];
  }

  /** An entry `key: value` whose key is non-empty, free of ':' and does
      not start with a space reads back as the rule the key and the value
      stand for, with or without a space in front. */
  lemma ReadEntryOf(pre: string, key: string, text: string, p: string, v: string)
    requires pre == "" || pre == " "
    requires key != "" && key[0] != ' ' && ':' !in key
    requires Kebab(key) == p && UnquoteJsx(text) == v
    ensures ReadJsxEntry(pre + (key + ": " + text)) == Some(Rule(p, v, true))
  {
    var e := key + ": " + text;
    assert (if |pre + e| > 0 && (pre + e)[0] == ' ' then (pre + e)[1..] else pre + e) == e by {
      assert e[0] == key[0];
      if pre == " " { assert (pre + e)[1..] == e; } else { assert pre + e == e; }
    }
    ColonAfterKey(key, text);
    var i := |key|;
    assert e[..i] == key && e[i + 1] == ' ' && e[i + 2..] == text;
  }

  /** An entry written for an active, clean, readable rule has no ',' and
      reads back as that rule, with or without a space in front. */
  lemma JsxEntryReads(pre: string, rule: Rule)
    requires pre == "" || pre == " "
    requires Active(rule) && Clean(rule) && JsxReadable(rule)
    ensures ',' !in JsxEntry(rule)
    ensures ReadJsxEntry(pre + JsxEntry(rule)) == Some(rule)
  {
    var cp := Camel(rule.property);
    var jv := JsxValue(rule.value);
    CamelKeyShape(rule);
    assert ',' !in jv;
    KebabCamel(rule.property);
    UnquoteJsxValue(rule.value);
    ReadEntryOf(pre, cp, jv, rule.property, rule.value);
  }

  /** The brackets come off: what lies between them is split at ','. */
  lemma ReadJsxStyleOf(body: string)
    ensures ReadJsxStyle("style={{ " + body + " }}") == Some(FilterMap(Split(body, ','), ReadJsxEntry))
  {
    var s := "style={{ " + body + " }}";
    assert s[..9] == "style={{ " && s[|s| - 3..] == " }}" && s[9..|s| - 3] == body;
  }

  /** The active rules of clean, readable rules are active, clean and
      readable. */
  lemma ActiveReadable(rules: seq<Rule>)
    requires forall k :: 0 <= k < |rules| ==> Clean(rules[k]) && JsxReadable(rules[k])
    ensures forall k :: 0 <= k < |ActiveRules(rules)| ==>
      Active(ActiveRules(rules)[k]) && Clean(ActiveRules(rules)[k]) && JsxReadable(ActiveRules(rules)[k])
  {
    var active := ActiveRules(rules);
    forall k | 0 <= k < |active| ensures JsxReadable(active[k]) {
      var j :| 0 <= j < |rules| && rules[j] == active[k];
    }
  }

  /** Each entry written for active, clean, readable rules has no ',' and
      reads back as its rule, with or without a space in front. */
  lemma JsxEntriesRead(active: seq<Rule>)
    requires forall k :: 0 <= k < |active| ==> Active(active[k]) && Clean(active[k]) && JsxReadable(active[k])
    ensures forall k :: 0 <= k < |active| ==>
      ',' !in JsxEntries(active)[k] && ReadJsxEntry(JsxEntries(active)[k]) == Some(active[k])
      && ReadJsxEntry(" " + JsxEntries(active)[k]) == Some(active[k])
  {
    var es := JsxEntries(active);
    forall k | 0 <= k < |active|
      ensures ',' !in es[k] && ReadJsxEntry(es[k]) == Some(active[k]) && ReadJsxEntry(" " + es[k]) == Some(active[k])
    {
      JsxEntryReads("", active[k]);
      JsxEntryReads(" ", active[k]);
      assert "" + es[k] == es[k];
    }
  }

  /** The JSX style attribute reads back as exactly the active rules when
      every rule is clean and readable. */
  lemma JsxStyleRoundTrip(rules: seq<Rule>)
    requires forall k :: 0 <= k < |rules| ==> Clean(rules[k]) && JsxReadable(rules[k])
    ensures ReadJsxStyle(JsxStyle(rules)) == Some(ActiveRules(rules))
  {
    var active := ActiveRules(rules);
    var es := JsxEntries(active);
    var body := Join(es, ", ");
    ReadJsxStyleOf(body);
    if |active| == 0 {
      assert body == "" && Split(body, ',') == [""];
      IndexOfChar("", ':');
      assert ReadJsxEntry("").None?;
    } else {
      ActiveReadable(rules);
      JsxEntriesRead(active);
      ParseJoinedWith(ReadJsxEntry, ',', "", es, active);
      assert ", " == [',', ' '];
      assert "" + body == body;
    }
  }
}

=== FILE: svelte.dfy ===
/** The Svelte adapter (`src/injected/adapters/svelte.ts`): development
    builds attach `__svelte_meta.loc` (0-based line and column) to the
    elements they create. */
module Svelte {
  import opened Options
  import opened Search
  import opened Dom
  import opened AdapterInterface

  /** `__svelte_meta?.loc`. */
  function LocOf(e: Element): Option<SvelteLoc> {
    match e.svelteMeta
    case None => None
    case Some(meta) => meta.loc
  }

  /** The 1-based location a 0-based Svelte location denotes. */
  function FromLoc(loc: SvelteLoc): (r: SourceInfo)
    ensures r.fileName == loc.file && r.componentName == ExtractComponentName(loc.file)
    ensures r.line.Some? && r.column.Some?
    ensures ToLoc(r) == loc
  {
    SourceInfo(loc.file, Some(loc.line + 1), Some(loc.column + 1), ExtractComponentName(loc.file))
  }

  /** The inverse conversion, back to Svelte's 0-based numbering. */
  function ToLoc(s: SourceInfo): SvelteLoc
    requires s.line.Some? && s.column.Some?
  {
    SvelteLoc(s.fileName, s.line.value - 1, s.column.value - 1)
  }

  /** `getSourceInfo`: the nearest element (itself first) with a Svelte
      location supplies it, converted to 1-based numbering; `None` when no
      element of the lineage has one. */
  function GetSourceInfo(e: Element): (r: Option<SourceInfo>)
    ensures r.None? <==> forall i :: 0 <= i < |Lineage(e)| ==> LocOf(Lineage(e)[i]).None?
    ensures r.Some? ==>
      r.value.line.Some? && r.value.column.Some?
      && exists i :: 0 <= i < |Lineage(e)| && LocOf(Lineage(e)[i]) == Some(ToLoc(r.value))
           && forall j :: 0 <= j < i ==> LocOf(Lineage(e)[j]).None?
    ensures r.Some? ==> r.value.componentName == ExtractComponentName(r.value.fileName)
  {
    var found := if LocOf(e).Some? then LocOf(e) else WalkFrom(Some(e), LocOf);
    assert found == FirstSome(Lineage(e), LocOf) by {
      FirstSomeCons(e, if e.parent.None? then [] else Lineage(e.parent.value), LocOf);
    }
    match found
    case None => None
    case Some(loc) => Some(FromLoc(loc))
  }

  /** A Svelte location at line 4, column 2 of `App.svelte` is reported as
      line 5, column 3 of component `App`. */
  lemma ZeroBasedExample(e: Element)
    requires LocOf(e) == Some(SvelteLoc("App.svelte", 4, 2))
    ensures GetSourceInfo(e) == Some(SourceInfo("App.svelte", Some(5), Some(3), "App"))
  {
    var base := "App";
    assert forall i :: 0 <= i < |base| ==> !IsPathSeparator(base[i]);
    ExtractComponentNameOf("", base, "svelte");
    assert "" + base + "." + "svelte" == "App.svelte";
    FirstSomeCons(e, if e.parent.None? then [] else Lineage(e.parent.value), LocOf);
  }

  /** `getElementInfo`: a descriptor exactly when there is a source; a
      Svelte descriptor always has a line and a column and is named after
      its file. */
  function GetElementInfo(e: Element): (r: Option<ElementInfo>)
    ensures r.None? <==> GetSourceInfo(e).None?
    ensures r.Some? ==> r.value == CreateElementInfo(e, GetSourceInfo(e).value)
    ensures r.Some? ==>
      r.value.source.line.Some? && r.value.source.column.Some?
      && r.value.componentName == ExtractComponentName(r.value.source.fileName)
  {
    Describe(e, GetSourceInfo(e))
  }
}

=== FILE: text.dfy ===
/** String primitives of the JavaScript runtime that the extension relies on:
    `split`, `join`, `trim`, `startsWith`, `indexOf`, `replace` (first
    occurrence, plain string pattern), `parseInt(_, 10)`, `String(n)` and
    ASCII lower-casing. A Dafny `char` is a Unicode scalar value, so strings
    here are sequences of code points where JavaScript counts UTF-16 code
    units; lengths differ only for characters outside the Basic
    Multilingual Plane (see "## Left out" in README.md). */
module Text {
  import opened Options

  // ---------------------------------------------------------------------------
  // Substrings

  /** `pat` occurs in `s` starting at index `i`. */
  predicate OccursAt(s: string, pat: string, i: nat) {
    i + |pat| <= |s| && s[i..i + |pat|] == pat
  }

  /** First index at or after `from` where `pat` occurs. */
  function IndexFrom(s: string, pat: string, from: nat): (r: Option<nat>)
    requires from <= |s|
    ensures r.Some? ==> from <= r.value && OccursAt(s, pat, r.value)
    ensures r.Some? ==> forall j :: from <= j < r.value ==> !OccursAt(s, pat, j)
    ensures r.None? ==> forall j :: from <= j <= |s| ==> !OccursAt(s, pat, j)
    decreases |s| - from
  {
    if OccursAt(s, pat, from) then Some(from)
    else if from == |s| then None
    else IndexFrom(s, pat, from + 1)
  }

  /** JavaScript `s.indexOf(pat)`, with `None` for -1. */
  function IndexOf(s: string, pat: string): (r: Option<nat>)
    ensures r.Some? ==> OccursAt(s, pat, r.value)
    ensures r.Some? ==> forall j :: 0 <= j < r.value ==> !OccursAt(s, pat, j)
    ensures r.None? ==> forall j :: 0 <= j <= |s| ==> !OccursAt(s, pat, j)
  {
    IndexFrom(s, pat, 0)
  }

  /** For a one-character pattern, `indexOf` finds the first occurrence of
      that character, and finds one exactly when the character occurs. */
  lemma IndexOfChar(s: string, c: char)
    ensures IndexOf(s, [c]).Some? <==> c in s
    ensures IndexOf(s, [c]).Some? ==>
      var i := IndexOf(s, [c]).value;
      i < |s| && s[i] == c && forall j :: 0 <= j < i ==> s[j] != c
  {
    var r := IndexOf(s, [c]);
    if c in s {
      var k :| 0 <= k < |s| && s[k] == c;
      assert s[k..k + 1] == [c];
      assert OccursAt(s, [c], k);
    }
    if r.Some? {
      forall j | 0 <= j < r.value ensures s[j] != c {
        if s[j] == c {
          assert s[j..j + 1] == [c];
          assert OccursAt(s, [c], j);
        }
      }
      var i := r.value;
      assert OccursAt(s, [c], i);
      assert i < |s| && s[i..i + 1] == [c];
      assert s[i] == s[i..i + 1][0];
      assert s[i] == c;
    }
  }

  /** JavaScript `s.includes(pat)`. */
  predicate Contains(s: string, pat: string) {
    IndexOf(s, pat).Some?
  }

  /** JavaScript `s.replace(pat, rep)` for a plain string pattern: only the
      first occurrence is replaced (`$` patterns in `rep` are not expanded). */
  function ReplaceFirst(s: string, pat: string, rep: string): (r: string)
    ensures !Contains(s, pat) ==> r == s
    ensures Contains(s, pat) ==>
      var i := IndexOf(s, pat).value;
      r == s[..i] + rep + s[i + |pat|..]
  {
    match IndexOf(s, pat)
    case None => s
    case Some(i) => s[..i] + rep + s[i + |pat|..]
  }

  /** Last index of character `c` in `s`. */
  function LastIndexOf(s: string, c: char): (r: Option<nat>)
    ensures r.Some? ==> r.value < |s| && s[r.value] == c
    ensures r.Some? ==> forall j :: r.value < j < |s| ==> s[j] != c
    ensures r.None? ==> c !in s
  {
    if |s| == 0 then None
    else if s[|s| - 1] == c then Some(|s| - 1)
    else LastIndexOf(s[..|s| - 1], c)
  }

  /** The last occurrence is the one after which `c` no longer occurs. */
  lemma LastIndexOfAt(s: string, c: char, d: nat)
    requires d < |s| && s[d] == c
    requires forall j :: d < j < |s| ==> s[j] != c
    ensures LastIndexOf(s, c) == Some(d)
  {
    var r := LastIndexOf(s, c);
    assert s[d] in s;
  }

  // ---------------------------------------------------------------------------
  // split / join

  /** JavaScript `s.split(sep)` for a one-character separator. */
  function Split(s: string, sep: char): (parts: seq<string>)
    ensures |parts| >= 1
    ensures forall i :: 0 <= i < |parts| ==> sep !in parts[i]
  {
    if |s| == 0 then [""]
    else
      var rest := Split(s[1..], sep);
      if s[0] == sep then [""] + rest
      else [[s[0]] + rest[0]] + rest[1..]
  }

  /** JavaScript `parts.join(sep)`. */
  function Join(parts: seq<string>, sep: string): string {
    if |parts| == 0 then ""
    else if |parts| == 1 then parts[0]
    else parts[0] + sep + Join(parts[1..], sep)
  }

  lemma JoinCons(parts: seq<string>, sep: string)
    requires |parts| >= 2
    ensures Join(parts, sep) == parts[0] + sep + Join(parts[1..], sep)
  {
  }

  lemma JoinAppend(parts: seq<string>, last: string, sep: string)
    requires |parts| >= 1
    ensures Join(parts + [last], sep) == Join(parts, sep) + sep + last
  {
    if |parts| == 1 {
    } else {
      assert (parts + [last])[1..] == parts[1..] + [last];
      JoinAppend(parts[1..], last, sep);
    }
  }

  /** Splitting and re-joining with the same separator gives back the input. */
  lemma {:induction false} JoinSplit(s: string, sep: char)
    ensures Join(Split(s, sep), [sep]) == s
  {
    if |s| == 0 {
    } else {
      var rest := Split(s[1..], sep);
      JoinSplit(s[1..], sep);
      if s[0] == sep {
        assert Split(s, sep) == [""] + rest;
        assert ([""] + rest)[1..] == rest;
        assert s == [sep] + s[1..];
      } else {
        var parts := [[s[0]] + rest[0]] + rest[1..];
        assert Split(s, sep) == parts;
        if |rest| == 1 {
          assert s == [s[0]] + s[1..];
        } else {
          assert parts[1..] == rest[1..];
          JoinCons(parts, [sep]);
          JoinCons(rest, [sep]);
          assert s == [s[0]] + s[1..];
        }
      }
    }
  }

  lemma {:induction false} SplitNoSeparator(a: string, sep: char)
    requires sep !in a
    ensures Split(a, sep) == [a]
  {
    if |a| > 0 {
      SplitNoSeparator(a[1..], sep);
      assert [a[0]] + a[1..] == a;
    }
  }

  lemma {:induction false} SplitAfterSeparator(a: string, b: string, sep: char)
    requires sep !in a
    ensures Split(a + [sep] + b, sep) == [a] + Split(b, sep)
  {
    var s := a + [sep] + b;
    if |a| == 0 {
      assert s[0] == sep && s[1..] == b;
    } else {
      assert s[0] == a[0] && s[1..] == a[1..] + [sep] + b;
      SplitAfterSeparator(a[1..], b, sep);
      assert [a[0]] + a[1..] == a;
    }
  }

  /** Splitting distributes over a separator occurrence. */
  lemma {:induction false} SplitConcat(a: string, b: string, sep: char)
    ensures Split(a + [sep] + b, sep) == Split(a, sep) + Split(b, sep)
  {
    var s := a + [sep] + b;
    if |a| == 0 {
      assert s[0] == sep && s[1..] == b;
    } else {
      assert s[0] == a[0] && s[1..] == a[1..] + [sep] + b;
      SplitConcat(a[1..], b, sep);
      var ra := Split(a[1..], sep);
      var rest := Split(s[1..], sep);
      assert rest == ra + Split(b, sep);
      if a[0] != sep {
        assert rest[0] == ra[0];
        assert rest[1..] == ra[1..] + Split(b, sep);
      }
    }
  }

  /** Joining separator-free parts and splitting again gives back the parts. */
  lemma {:induction false} SplitJoin(parts: seq<string>, sep: char)
    requires |parts| >= 1
    requires forall i :: 0 <= i < |parts| ==> sep !in parts[i]
    ensures Split(Join(parts, [sep]), sep) == parts
  {
    if |parts| == 1 {
      SplitNoSeparator(parts[0], sep);
    } else {
      SplitJoin(parts[1..], sep);
      SplitAfterSeparator(parts[0], Join(parts[1..], [sep]), sep);
      assert [parts[0]] + parts[1..] == parts;
    }
  }

  // ---------------------------------------------------------------------------
  // Whitespace and trim

  /** ECMAScript WhiteSpace and LineTerminator code units (what `trim` and
      `parseInt` skip). */
  predicate IsSpace(c: char) {
    c == ' ' || c == '\t' || c == '\n' || c == '\r' || c == '\U{000B}' || c == '\U{000C}'
    || c == '\U{00A0}' || c == '\U{FEFF}' || c == '\U{1680}' || ('\U{2000}' <= c <= '\U{200A}')
    || c == '\U{2028}' || c == '\U{2029}' || c == '\U{202F}' || c == '\U{205F}' || c == '\U{3000}'
  }

  /** Neither first nor last character is whitespace. */
  predicate Trimmed(s: string) {
    |s| == 0 || (!IsSpace(s[0]) && !IsSpace(s[|s| - 1]))
  }

  function TrimStart(s: string): (r: string)
    ensures |r| <= |s| && r == s[|s| - |r|..]
    ensures |r| == 0 || !IsSpace(r[0])
    ensures forall i :: 0 <= i < |s| - |r| ==> IsSpace(s[i])
  {
    if |s| > 0 && IsSpace(s[0]) then TrimStart(s[1..]) else s
  }

  function TrimEnd(s: string): (r: string)
    ensures |r| <= |s| && r == s[..|r|]
    ensures |r| == 0 || !IsSpace(r[|r| - 1])
    ensures forall i :: |r| <= i < |s| ==> IsSpace(s[i])
  {
    if |s| > 0 && IsSpace(s[|s| - 1]) then TrimEnd(s[..|s| - 1]) else s
  }

  /** JavaScript `s.trim()`. */
  function Trim(s: string): (r: string)
    ensures Trimmed(r)
    ensures Trimmed(s) ==> r == s
    ensures forall c :: c in r ==> c in s
  {
    var r := TrimEnd(TrimStart(s));
    TrimmedEnds(s);
    TrimmedUnchanged(s);
    TrimmedChars(s);
    r
  }

  lemma TrimmedEnds(s: string)
    ensures Trimmed(TrimEnd(TrimStart(s)))
  {
    var t := TrimStart(s);
    var r := TrimEnd(t);
    assert |r| > 0 ==> r[0] == t[0];
  }

  lemma TrimmedUnchanged(s: string)
    ensures Trimmed(s) ==> TrimEnd(TrimStart(s)) == s
  {
    if Trimmed(s) {
      assert TrimStart(s) == s;
    }
  }

  lemma TrimmedChars(s: string)
    ensures forall c :: c in TrimEnd(TrimStart(s)) ==> c in s
  {
    var t := TrimStart(s);
    var r := TrimEnd(t);
    forall c | c in r ensures c in s {
      assert c in t[..|r|];
      assert c in s[|s| - |t|..];
    }
  }

  // ---------------------------------------------------------------------------
  // Decimal digits

  predicate IsDigit(c: char) {
    '0' <= c <= '9'
  }

  predicate AllDigits(s: string) {
    forall i :: 0 <= i < |s| ==> IsDigit(s[i])
  }

  /** A non-empty run of ASCII digits (the regular expression `\d+`). */
  predicate IsDigitRun(s: string) {
    |s| > 0 && AllDigits(s)
  }

  function DigitValue(c: char): nat
    requires IsDigit(c)
  {
    (c as int) - ('0' as int)
  }

  function DigitChar(d: nat): (c: char)
    requires d < 10
    ensures IsDigit(c) && DigitValue(c) == d
  {
    (('0' as int) + d) as char
  }

  /** Value of a digit string read in base 10. */
  function DigitsValue(s: string): nat
    requires AllDigits(s)
  {
    if |s| == 0 then 0 else 10 * DigitsValue(s[..|s| - 1]) + DigitValue(s[|s| - 1])
  }

  /** `String(n)` for a non-negative integer: canonical decimal, no leading zero. */
  function NatToString(n: nat): (r: string)
    ensures IsDigitRun(r) && DigitsValue(r) == n
    ensures r[0] == '0' ==> n == 0 && |r| == 1
  {
    if n < 10 then [DigitChar(n)]
    else
      var r := NatToString(n / 10) + [DigitChar(n % 10)];
      assert r[..|r| - 1] == NatToString(n / 10);
      r
  }

  /** `String(i)` for an integer. */
  function IntToString(i: int): (r: string)
    ensures |r| > 0
    ensures i >= 0 ==> r == NatToString(i)
    ensures i < 0 ==> r == "-" + NatToString(-i)
  {
    if i < 0 then "-" + NatToString(-i) else NatToString(i)
  }

  /** Longest prefix of `s` made of digits. */
  function DigitPrefix(s: string): (r: string)
    ensures r <= s && AllDigits(r)
    ensures |r| < |s| ==> !IsDigit(s[|r|])
  {
    if |s| > 0 && IsDigit(s[0]) then
      var rest := DigitPrefix(s[1..]);
      assert [s[0]] + rest <= s;
      [s[0]] + rest
    else ""
  }

  /** JavaScript `parseInt(s, 10)`: leading whitespace, an optional sign, then
      the longest run of digits. `None` stands for `NaN` (no digit found). */
  function ParseInt(s: string): (r: Option<int>)
  {
    var t := TrimStart(s);
    var negative := |t| > 0 && t[0] == '-';
    var body := if |t| > 0 && (t[0] == '-' || t[0] == '+') then t[1..] else t;
    var digits := DigitPrefix(body);
    var magnitude: int := DigitsValue(digits);
    if |digits| == 0 then None
    else if negative then Some(-magnitude)
    else Some(magnitude)
  }

  lemma DigitPrefixOfDigits(s: string)
    requires AllDigits(s)
    ensures DigitPrefix(s) == s
  {
  }

  /** `parseInt` gives `NaN` on text that starts with anything other than
      whitespace, a sign or a digit. */
  lemma ParseIntNoDigit(s: string)
    requires |s| > 0 && !IsSpace(s[0]) && !IsDigit(s[0]) && s[0] != '-' && s[0] != '+'
    ensures ParseInt(s).None?
  {
    assert TrimStart(s) == s;
    assert DigitPrefix(s) == "";
  }

  /** `parseInt` reads a digit run as its decimal value. */
  lemma ParseDigits(s: string)
    requires IsDigitRun(s)
    ensures ParseInt(s) == Some(DigitsValue(s))
  {
    assert !IsSpace(s[0]);
    assert TrimStart(s) == s;
    assert s[0] != '-' && s[0] != '+';
    DigitPrefixOfDigits(s);
  }

  /** `parseInt(String(n), 10) == n` for every natural number. */
  lemma ParseNatToString(n: nat)
    ensures ParseInt(NatToString(n)) == Some(n)
  {
    ParseDigits(NatToString(n));
  }

  /** `parseInt(String(i), 10) == i` for every integer. */
  lemma ParseIntToString(i: int)
    ensures ParseInt(IntToString(i)) == Some(i)
  {
    if i < 0 {
      var t := IntToString(i);
      var digits := NatToString(-i);
      assert !IsSpace(t[0]);
      assert TrimStart(t) == t;
      assert t[1..] == digits;
      DigitPrefixOfDigits(digits);
    } else {
      ParseNatToString(i);
    }
  }

  // ---------------------------------------------------------------------------
  // Case

  function LowerChar(c: char): char {
    if 'A' <= c <= 'Z' then ((c as int) + 32) as char else c
  }

  function UpperChar(c: char): char {
    if 'a' <= c <= 'z' then ((c as int) - 32) as char else c
  }

  /** `toLowerCase` restricted to ASCII letters. */
  function ToLower(s: string): (r: string)
    ensures |r| == |s|
    ensures forall i :: 0 <= i < |s| ==> r[i] == LowerChar(s[i])
  {
    if |s| == 0 then "" else [LowerChar(s[0])] + ToLower(s[1..])
  }
}

=== FILE: vue.dfy ===
/** The Vue adapter (`src/injected/adapters/vue.ts`): the Vue 3 component
    file recorded by the SFC compiler, the `data-v-inspector` attribute, and
    the Vue 2 instance's `$options.__file`. */
module Vue {
  import opened Options
  import opened Search
  import opened Dom
  import opened AdapterInterface
  import opened LocatorFormats

  /** `__vueParentComponent.type` when it records a (non-empty) file: the
      file at line 1, column 1, named `__name || name`. */
  function Vue3Source(e: Element): (r: Option<SourceInfo>)
    ensures r.Some? ==>
      e.vueParentComponent.Some? && e.vueParentComponent.value.componentType.Some?
      && var t := e.vueParentComponent.value.componentType.value;
         t.file != "" && r.value.fileName == t.file
         && r.value.componentName == (if t.setupName != "" then t.setupName else t.name)
    ensures r.Some? ==> r.value.line == Some(1) && r.value.column == Some(1)
    ensures r.Some? <==>
      e.vueParentComponent.Some? && e.vueParentComponent.value.componentType.Some?
      && e.vueParentComponent.value.componentType.value.file != ""
  {
    match e.vueParentComponent
    case Some(VueComponent(Some(t), _)) =>
      if t.file != "" then
        Some(SourceInfo(t.file, Some(1), Some(1), if t.setupName != "" then t.setupName else t.name))
      else None
    case _ => None
  }

  /** A non-empty `data-v-inspector` value read as `path:line:column`. */
  function InspectorSource(e: Element): (r: Option<SourceInfo>)
    ensures r.Some? ==>
      NonEmptyAttr(e, "data-v-inspector").Some? && r == ParseLocation(e.attrs["data-v-inspector"])
    ensures NonEmptyAttr(e, "data-v-inspector").Some? ==>
      r == ParseLocation(NonEmptyAttr(e, "data-v-inspector").value)
  {
    match NonEmptyAttr(e, "data-v-inspector")
    case None => None
    case Some(value) => ParseLocation(value)
  }

  /** `__vue__.$options` when it records a (non-empty) file: the file at
      line 1, column 1, named by `$options.name`. */
  function Vue2Source(e: Element): (r: Option<SourceInfo>)
    ensures r.Some? <==>
      e.vue2Instance.Some? && e.vue2Instance.value.options.Some? && e.vue2Instance.value.options.value.file != ""
    ensures r.Some? ==>
      r.value.fileName == e.vue2Instance.value.options.value.file
      && r.value.componentName == e.vue2Instance.value.options.value.name
    ensures r.Some? ==> r.value.line == Some(1) && r.value.column == Some(1)
  {
    match e.vue2Instance
    case Some(VueComponent(_, Some(o))) =>
      if o.file != "" then Some(SourceInfo(o.file, Some(1), Some(1), o.name)) else None
    case _ => None
  }

  /** `getSourceInfo`: the element's Vue 3 component, then its inspector
      attribute, then its Vue 2 instance, then the nearest ancestor's Vue 3
      component. A malformed inspector value falls through to the later
      checks; the attribute and the Vue 2 instance are never read on
      ancestors. */
  function GetSourceInfo(e: Element): (r: Option<SourceInfo>)
    ensures Vue3Source(e).Some? ==> r == Vue3Source(e)
    ensures Vue3Source(e).None? && InspectorSource(e).Some? ==> r == InspectorSource(e)
    ensures Vue3Source(e).None? && InspectorSource(e).None? && Vue2Source(e).Some? ==> r == Vue2Source(e)
    ensures Vue3Source(e).None? && InspectorSource(e).None? && Vue2Source(e).None? ==>
      r == FirstSome(Lineage(e), Vue3Source)
    ensures r.None? <==>
      InspectorSource(e).None? && Vue2Source(e).None?
      && forall i :: 0 <= i < |Lineage(e)| ==> Vue3Source(Lineage(e)[i]).None?
    ensures r.Some? && r != InspectorSource(e) ==> r.value.line == Some(1) && r.value.column == Some(1)
  {
    if Vue3Source(e).Some? then
      assert Lineage(e)[0] == e;
      Vue3Source(e)
    else if InspectorSource(e).Some? then
      assert Lineage(e)[0] == e;
      InspectorSource(e)
    else if Vue2Source(e).Some? then
      assert Lineage(e)[0] == e;
      Vue2Source(e)
    else
      var r := WalkFrom(Some(e), Vue3Source);
      assert r.Some? ==> r.value.line == Some(1) && r.value.column == Some(1) by {
        if r.Some? {
          var i :| 0 <= i < |Lineage(e)| && Vue3Source(Lineage(e)[i]) == r;
        }
      }
      r
  }

  /** `getElementInfo`: a descriptor exactly when there is a source; only
      a `data-v-inspector` attribute on the element itself can give it a
      line other than 1. */
  function GetElementInfo(e: Element): (r: Option<ElementInfo>)
    ensures r.None? <==> GetSourceInfo(e).None?
    ensures r.Some? ==> r.value == CreateElementInfo(e, GetSourceInfo(e).value)
    ensures r.Some? && r.value.source.line != Some(1) ==>
      NonEmptyAttr(e, "data-v-inspector").Some? && r.value.source == InspectorSource(e).value
  {
    Describe(e, GetSourceInfo(e))
  }

  /** An element whose own Vue 3 component type records a file is located
      at that file, line 1, column 1, whatever else it carries. */
  lemma OwnVue3FileLocated(e: Element)
    requires e.vueParentComponent.Some? && e.vueParentComponent.value.componentType.Some?
    requires e.vueParentComponent.value.componentType.value.file != ""
    ensures GetSourceInfo(e).Some?
    ensures GetSourceInfo(e).value.fileName == e.vueParentComponent.value.componentType.value.file
    ensures GetSourceInfo(e).value.line == Some(1) && GetSourceInfo(e).value.column == Some(1)
  {
  }

  /** Without a Vue 3 file on the element, a parsing `data-v-inspector`
      value decides, before any Vue 2 instance or ancestor. */
  lemma InspectorLocated(e: Element)
    requires Vue3Source(e).None?
    requires NonEmptyAttr(e, "data-v-inspector").Some?
    requires ParseLocation(NonEmptyAttr(e, "data-v-inspector").value).Some?
    ensures GetSourceInfo(e) == ParseLocation(NonEmptyAttr(e, "data-v-inspector").value)
  {
  }
}
